=== FILE: README.md ===
# Con-Nav-Item AI batch task manager and route helpers, in Dafny

This project models the parts of the Con-Nav-Item navigation server and web client that carry real logic:

- **The AI batch task manager (`BatchTaskManager`, routes/ai.js).** It fills card names, descriptions and tags in batches whose size adapts to the provider's rate limiting. The model covers:
  - the task record;
  - `start`, `stop` and `getStatus`;
  - the batch loop of `runTask`, including its `finally` block;
  - `adjustConcurrency` and `calculateDelay`;
  - the retry wrapper `processCardWithRetry` and the rate-limit heuristic `isRateLimitError`;
  - the field filter at the head of `generateCardFields`;
  - `cleanName` and `cleanDescription`.
- **The card routes (routes/card.js).** Tag rows are grouped per card, and cards are grouped into `menuId_subMenuId` buckets. The model also covers the menu-id fallback of `GET /:menuId` and the input check of `PATCH /batch-update`.
- **The authentication routes (routes/auth.js).** The model covers `getClientIp`, the token-version rule that invalidates old tokens after a password change, the bearer-header and extension-type checks, and the password length check.
- **The random wallpaper route (routes/wallpaper.js).** This is the pick over `NATURE_PHOTO_IDS` that avoids the window of the 20 most recent ids.
- **The web client's navigation guard (web/src/router.js).**

Everything is modelled as immutable data and total functions:

- The manager's record is a `Task` value.
- A batch run is a fold over the cards' settled results.
- Each collaborator is an input rather than a call: the remote AI call, the database, `jwt.verify`, `Math.random()`, `Date.now()` and `localStorage`.

Modules, in dependency order:

| module | file | models |
|---|---|---|
| Wrappers, Strings, Arith | wrappers.dfy, strings.dfy, arith.dfy | `Option`/`Result`, the JavaScript string operations the routes use, min/max/powers of two |
| Cleaners | cleaners.dfy | `cleanName`, `cleanDescription` |
| FieldFilter | field_filter.dfy | the `neededTypes` filter of `generateCardFields` |
| RateLimit | rate_limit.dfy | `isRateLimitError` |
| Retry | retry.dfy | `processCardWithRetry` |
| TaskState | task_state.dfy | the task record, its constants, the record `start` builds |
| Controller | controller.dfy | `adjustConcurrency`, `calculateDelay`, the base delay |
| BatchLoop | batch_loop.dfy | `runTask` |
| TaskManager | task_manager.dfy | `start`, `stop`, `getStatus`, the `.catch` handler |
| Grouping, CardRoutes | grouping.dfy, card_routes.dfy | routes/card.js |
| Auth | auth.dfy | routes/auth.js |
| Wallpaper | wallpaper.dfy | routes/wallpaper.js |
| RouteGuard | route_guard.dfy | web/src/router.js |

### How `stop()` is modelled

`stop()` can only run while `runTask` is suspended at an `await`. The model numbers these suspension points as phases:

- phase 0 is the set-up;
- phase 2k+1 is while batch k's results are awaited;
- phase 2k+2 is the wait after batch k.

A run takes `stop: Option<nat>`, the phase in which `stop()` ran, if any.

### Where the code is followed rather than the obvious reading

- **Streak at the maximum.** At concurrency 5 a clean batch still increments `consecutiveSuccesses` and never resets it (`Controller.StreakGrowsAtMaximum`).
- **Error history.** The error list of the record grows without bound. Only `getStatus` cuts it to the newest 200.
- **Progress after `stop()`.** The `finally` block sets `current` to `total` even after `stop()`, so a stopped run reports full progress.
- **Back-off with a large base delay.** At concurrency 1 with a base delay above 30 s, the throttled delay (capped at 30 s) is shorter than the unthrottled one (`Controller.BackoffVersusBase`). Above concurrency 1 the unthrottled delay is half the base, so this only happens with a base above 60 s.
- **Errors inside the loop.** The loop's own `catch` only logs, and the `finally` block still ends the run. The synthetic "系统" error entry comes only from the `.catch` that `start` attaches (`TaskManager.Crash`).
- **Length limits.** `cleanName` and `cleanDescription` cut at 20 and 80 UTF-16 code units, as `substring` counts, not at 20 and 80 characters: a name of emoji keeps 10 of them (`Cleaners.CleanNameCountsCodeUnits`).
- **Route matching.** vue-router's default matcher ignores letter case and one trailing '/', so '/ADMIN/' is the protected admin page (`RouteGuard.GuardCapitalAdmin`). The guard's own `to.path === '/login'` test is exact.
- **Empty token.** The guard tests the stored token for truthiness, so an empty stored token counts as no token (`RouteGuard.GuardEmptyTokenAtHome`).
- **Dead reset branch.** The wallpaper reset branch can never run: the 220 distinct ids leave at least 200 outside a 20-entry window (`Wallpaper.NeverResets`).

## Model

| member | source | states |
|---|---|---|
| Strings.Utf16Length | routes/auth.js:128 | `length` in UTF-16 code units lies between the number of characters and twice that |
| Strings.TakeUnits | routes/ai.js:394-395 | `substring(0, n)` keeps the longest prefix of at most n code units: the whole text when it fits, otherwise the next character would cross the limit |
| Strings.TakeUnitsBmp | routes/ai.js:394-395 | on text without characters above U+FFFF the code-unit cut is the cut after n characters |
| Strings.TakeUnitsAstral | routes/ai.js:394-395 | on text of characters above U+FFFF only, n code units keep n/2 characters |
| Cleaners.CleanName | routes/ai.js:394 | the cleaned name is a piece of the reply, at most 20 code units, not starting with white space, and empty for a missing reply |
| Cleaners.CleanDescription | routes/ai.js:395 | the cleaned description is a piece of the reply, at most 80 code units, not starting with white space; it ends in a full stop only when cut at the limit (at least 79 code units) |
| Cleaners.CleanNameFixpoint | routes/ai.js:394 | a name of at most 20 code units without white space at its ends or a brand suffix comes back unchanged |
| Cleaners.CleanNameDropsBrandSuffix | routes/ai.js:394 | each of the three brand suffixes after a clean name of at most 20 code units is removed, giving back the name |
| Cleaners.CleanNameTrims | routes/ai.js:394 | white space padding around a reply is removed: the padded reply cleans to what the text inside cleans to, and a clean name of at most 20 code units comes back exactly |
| Cleaners.CleanNameCuts | routes/ai.js:394 | a name without characters above U+FFFF, white space at its ends or a brand suffix becomes its first min(length, 20) characters |
| Cleaners.CleanNameCountsCodeUnits | routes/ai.js:394 | a name made only of characters above U+FFFF keeps its first 10 characters |
| Cleaners.CleanDescriptionFixpoint | routes/ai.js:395 | a description of at most 80 code units without white space at its ends or a final full stop comes back unchanged |
| Cleaners.CleanDescriptionTrims | routes/ai.js:395 | white space padding around a reply is removed: the padded reply cleans to what the text inside cleans to, and a clean description of at most 80 code units without a final full stop comes back exactly |
| Cleaners.CleanDescriptionCuts | routes/ai.js:395 | a description without characters above U+FFFF, white space at its ends or a final full stop becomes its first min(length, 80) characters |
| Cleaners.CleanDescriptionDropsStops | routes/ai.js:395 | a whole run of trailing '.'/'。' after a clean description of at most 80 code units is removed |
| FieldFilter.NeededTypes | routes/ai.js:21-33 | each requested field is kept with its multiplicity exactly when the filter predicate holds; overwrite mode keeps the list as is |
| FieldFilter.NeededTypesInOrder | routes/ai.js:25-33 | filtering a concatenation of requests is the concatenation of the filtered parts, so the requested order is kept |
| FieldFilter.NeededTypesOne | routes/ai.js:25-33 | a single requested field is kept exactly when the filter predicate holds for it |
| FieldFilter.NeededTypesPerField | routes/ai.js:25-33 | in fill mode 'name' is dropped iff the title is non-empty, has no '://' and does not start with 'www.'; 'description' is dropped iff there is one; every other field is kept; nothing new appears |
| FieldFilter.PlanFields | routes/ai.js:19-35 | nothing to generate (with all-null data) iff no requested field is needed; otherwise the needed fields are generated, in the requested order that `NeededTypes` keeps |
| FieldFilter.OverwriteKeepsAll | routes/ai.js:21-33 | in overwrite mode every requested field is generated |
| FieldFilter.FillModeSkipsCompleteCard | routes/ai.js:21-35 | a card with a real title and a description, in fill mode, is left alone |
| FieldFilter.FillModeRenamesUrlTitle | routes/ai.js:26-28 | a 'www.' title is regenerated even in fill mode |
| RateLimit.StatusDecides | routes/ai.js:313-316 | status 429 makes an error a rate limit whatever the message |
| RateLimit.CaseInsensitive | routes/ai.js:314-315 | the letter case of the message never changes the verdict |
| RateLimit.PhraseAnywhere | routes/ai.js:314-315 | each of the four phrases, in any case and anywhere in the message, marks a rate limit |
| RateLimit.TooManyRequestsRecognised | routes/ai.js:315 | "Too Many Requests" without a status is a rate limit |
| RateLimit.OrdinaryFailure | routes/ai.js:313-316 | without 429 and without any phrase the error is not a rate limit |
| Retry.ProcessCardWithRetry | routes/ai.js:296-311 | at most 2 retries; only rate-limit throws are retried; the waits are 2^(retry+1) seconds in order; the outcome settles from the last call made |
| Retry.AtMostThreeCalls | routes/ai.js:305-307 | from the first call, at most three calls, with waits a prefix of 2000 ms, 4000 ms |
| Retry.OrdinaryErrorNotRetried | routes/ai.js:303-310 | an error that is not a rate limit settles at once as not rate-limited, with no wait |
| Retry.ThrottledThenSucceeds | routes/ai.js:298-307 | one rate limit then success gives a success after one 2 s wait |
| Retry.ThrottledThreeTimes | routes/ai.js:304-309 | three rate limits in a row give a rate-limited failure after waits of 2 s and 4 s |
| Retry.NothingToGenerateFails | routes/ai.js:296-301 | a card with nothing to generate fails with "所有字段已存在，无需更新" and is not retried |
| TaskState.NewTask | routes/ai.js:147-162 | a fresh record is running at 0 of `total` with the requested types and strategy, started at `now` under the label '启动中...', with no counts or errors, concurrency 3, and a clear controller state |
| TaskState.StopTask | routes/ai.js:179-182 | stopping clears `running`, sets the stopped label, and changes nothing else |
| Controller.AdjustConcurrency | routes/ai.js:272-289 | a rate limit counts and halves the concurrency (at least 1); a clean batch extends the streak and grows the concurrency by one at 3 below the maximum; any other batch resets the streak; only the controller fields change; [1, 5] is preserved |
| Controller.ConcurrencyStaysInBounds | routes/ai.js:272-289 | no history of batches moves the concurrency outside [1, 5] |
| Controller.RateLimitCountCounts | routes/ai.js:274-275 | the rate-limit counter grows by exactly the number of throttled batches |
| Controller.ThreeCleanBatchesGrowByOne | routes/ai.js:279-285 | three clean batches from a fresh streak below 5 raise the concurrency by exactly one, and two do not |
| Controller.StreakGrowsAtMaximum | routes/ai.js:279-285 | at concurrency 5 clean batches keep increasing the streak and never reset it |
| Controller.BaseDelay | routes/ai.js:195 | the base delay is at least 500, 1500 when unset or 0, the configured value when that is at least 500, and exactly 500 for any other configured value, negatives included |
| Controller.CalculateDelay | routes/ai.js:291-294 | a throttled delay is at most 30 s; an unthrottled one is at least min(base, 300) |
| Controller.BackoffFormula | routes/ai.js:292 | the throttled delay is base times 2^min(rateLimitCount, 4), capped at 30000 |
| Controller.PacedDelayBounds | routes/ai.js:293 | with base at least 500, the unthrottled delay lies in [300, base]: the base at concurrency 1, above it half the base when that is at least 300 and exactly 300 otherwise |
| Controller.BackoffDelayBounds | routes/ai.js:292 | after a rate limit the delay is at least min(2·base, 30 s) |
| Controller.BackoffVersusBase | routes/ai.js:292-293 | the back-off is at least the base up to 30 s; above that it is shorter than the unthrottled delay at concurrency 1 |
| BatchLoop.ProcessBatch | routes/ai.js:211-247 | every card of the batch is counted once, as a success or a failure with its error entry in order; the batch is throttled iff one of its results signals a rate limit |
| BatchLoop.BatchStep | routes/ai.js:199-257 | one loop pass takes the next `concurrency` cards (fewer at the end); it is throttled exactly when one of their results signals a rate limit, leaves the controller where `adjustConcurrency` of the record before it puts it, waits exactly when cards remain and the run is live, and honours a `stop()` during the batch or the wait |
| BatchLoop.Loop | routes/ai.js:198-258 | the loop stops at or before the last card and keeps the concurrency in [1, 5] |
| BatchLoop.LoopAdvances | routes/ai.js:198-258 | progress grows by the number of cards dispatched; stopping early means the record is no longer running |
| BatchLoop.LoopAddsCounts | routes/ai.js:216-238 | the success and failure counters grow by what the batches counted |
| BatchLoop.LoopRecordsErrors | routes/ai.js:227-244 | the error list grows by the batches' entries, in order |
| BatchLoop.LoopBatchesAreSlices | routes/ai.js:201-252 | the batches are consecutive slices, each starting where the previous ended, sized by the concurrency the previous batch left |
| BatchLoop.LoopHonoursStop | routes/ai.js:199-254 | a `stop()` in phase p lets at most (p+1)/2 batches run |
| BatchLoop.LoopRunsToEnd | routes/ai.js:198-258 | without `stop()` the loop dispatches every card |
| BatchLoop.BatchesCountTheirCards | routes/ai.js:213-247 | over consecutive batches, the summed successes, failures and errors are those of the cards they cover |
| BatchLoop.Finish | routes/ai.js:261-269 | the `finally` block ends the run, clears the label, forces progress to the total, and changes nothing else |
| BatchLoop.BatchStepCounts | routes/ai.js:211-246 | a loop pass counts the successes among its own cards' results, every other card as a failure with its error entry, and adds them to the record |
| BatchLoop.LoopAdapts | routes/ai.js:198-258 | over any loop body that adjusts the controller, each batch reads the concurrency `Controller.AdjustAll` reaches over the batches before it |
| BatchLoop.Notices | routes/ai.js:249-267 | `notifyDataChange` runs exactly 1 + (number of batches with at least one success) times, so once when nothing succeeded |
| BatchLoop.RunTask | routes/ai.js:187-270 | a run ends stopped, with progress at the total; a failed set-up runs no batch and adds no error |
| BatchLoop.RunTaskCountsEveryCard | routes/ai.js:187-270 | the counters and error list account for every dispatched card exactly once; with no `stop()` and a working set-up every card is dispatched |
| BatchLoop.RunTaskBatches | routes/ai.js:198-258 | the batches are consecutive slices from card 0, each within [1, 5] cards, throttled exactly when one of its results signals a rate limit, and followed by the `calculateDelay` wait exactly when cards remain; batch j reads the concurrency `Controller.AdjustAll` reaches over batches 0..j-1, and the run ends in the controller state of all of them |
| BatchLoop.RunTaskHonoursStop | routes/ai.js:199-254 | a `stop()` in phase p leaves at most (p+1)/2 batches; one during the set-up leaves none |
| TaskManager.TypesList | routes/ai.js:149 | an array is kept and a single type is wrapped |
| TaskManager.Start | routes/ai.js:143-175 | refused with "已有任务在运行中" and no change while running; otherwise a fresh record, a fresh controller and `{ total }` |
| TaskManager.Stop | routes/ai.js:177-185 | aborts the controller if any, stops the record if any, and leaves nothing running |
| TaskManager.StopIdempotent | routes/ai.js:177-185 | stopping twice is stopping once |
| TaskManager.StartAfterStop | routes/ai.js:143-185 | after `stop()` a new run always starts |
| TaskManager.Last | routes/ai.js:136 | `slice(-n)` gives the last min(n, length) elements |
| TaskManager.GetStatus | routes/ai.js:123-138 | `{ running: false }` before the first run; otherwise the record's running flag, types, progress, counters, current card, start time, concurrency and rate-limit flag, with the newest errors |
| TaskManager.StatusErrorsWindow | routes/ai.js:136 | at most 200 errors are shown: all of them, or exactly the newest 200 |
| TaskManager.StatusAfterStart | routes/ai.js:123-162 | a started run reports running at 0 of `total` with no errors |
| TaskManager.Crash | routes/ai.js:165-172 | a rejected run is stopped and gets an entry with card id 0, title "系统" and the message or "任务异常中断" |
| TaskManager.CrashAllowsRestart | routes/ai.js:165-172 | after the `.catch` nothing is running and the synthetic entry is the last error |
| TaskManager.DeliverAsWritten | routes/ai.js:213-247 | the loop's writes land in whatever record `this.task` holds |
| TaskManager.StaleWriteCorruptsNewRun | routes/ai.js:143-247 | after stop and a new start, the old batch's results show 2 of 1 cards done in the new run |
| TaskManager.Deliver | routes/ai.js:143-185 | a loop's record lands only while its run is the current one |
| TaskManager.StaleDeliveryIgnored | routes/ai.js:143-185 | results of a run that was stopped and replaced leave the new run's record unchanged |
| TaskManager.CurrentDeliveryLands | routes/ai.js:143-175 | the current run's record does land |
| TaskManager.StartAndRun | routes/ai.js:143-270 | a started run ends stopped with progress at the number of cards |
| TaskManager.StartAndRunReportsEveryCard | routes/ai.js:123-270 | without `stop()` the status counts every card: its successes, and the rest as failures, whose error entries in card order are shown up to the newest 200 |
| Grouping.AddSpec | routes/card.js:71-80 | one `forEach` step appends the value to its key's array and to no other, keeping keys distinct |
| Grouping.GroupBySpec | routes/card.js:70-80 | the grouped object has distinct keys, each key's array is exactly its rows' values in row order, and every row is in one array |
| Grouping.ValuesForHasRow | routes/card.js:82-94 | every row's value is in its key's array |
| Grouping.ValuesForAbsent | routes/card.js:92 | a key with no rows gets `[]` |
| CardRoutes.TagsByCardSpec | routes/card.js:70-92 | each card gets exactly its tag rows, in row order, and `[]` when it has none |
| CardRoutes.TagsOfIsValuesFor | routes/card.js:70-80 | the per-card tag list equals the grouping reference |
| CardRoutes.EffectiveMenuId | routes/card.js:84 | `menu_id`, or `parent_menu_id` when that is falsy |
| CardRoutes.ShapeForAll | routes/card.js:89-93 | a shaped card keeps the row and carries the effective menu id |
| CardRoutes.ListAll | routes/card.js:53-96 | no rows answers empty without the tag query; otherwise the tag query runs over the card ids |
| CardRoutes.ListAllBuckets | routes/card.js:82-94 | the buckets have distinct keys, hold exactly their cards in query order and every card once, and each card carries its own tags |
| CardRoutes.ShapeForMenu | routes/card.js:176 | menu id is `menu_id || parent_menu_id || parseInt(menuId)` |
| CardRoutes.ListMenu | routes/card.js:145-178 | no rows answers `[]` without the tag query; otherwise every row is shaped in order |
| CardRoutes.ListMenuCards | routes/card.js:162-177 | each card carries its own tags and has a menu id whenever one is known |
| CardRoutes.CheckBatchUpdate | routes/card.js:190-192 | 400 "无效的请求数据" iff `cards` is not an array or is empty; otherwise the items proceed |
| Auth.IpSource | routes/auth.js:13 | the forwarded header if non-empty, else the socket address if non-empty, else '' |
| Auth.FirstHop | routes/auth.js:14 | with a comma, the first hop is the trimmed text before the first comma; without one, the address is kept; either way it has no comma and is a piece of the address |
| Auth.StripMapped | routes/auth.js:15 | the '::ffff:' prefix is removed when present and nothing changes otherwise |
| Auth.GetClientIp | routes/auth.js:12-17 | the client address is the chosen source's trimmed text before its first comma (the whole source when it has none), with a leading '::ffff:' removed; it has no comma and is a piece of the source |
| Auth.ClientIpFromProxyChain | routes/auth.js:13-15 | behind a proxy chain the client hop is reported, trimmed and with '::ffff:' removed, whatever the socket address; a clean client hop comes back as it is |
| Auth.ClientIpUnmapsIpv4 | routes/auth.js:13-16 | an IPv4-mapped socket address gives the plain IPv4 address |
| Auth.NormVersion | routes/auth.js:171-172 | a missing, unparseable or 0 version counts as 1; others are kept |
| Auth.IssuedTokenRoundTrip | routes/auth.js:106-176 | a token issued at login is accepted until the user's normalised version changes |
| Auth.DefaultVersionsAgree | routes/auth.js:171-174 | missing, unparseable, 0 and 1 are the same version |
| Auth.BearerToken | routes/auth.js:157-161 | a token is taken iff the header starts with 'Bearer ', and is the rest of it |
| Auth.VerifyToken | routes/auth.js:154-186 | no bearer header gives no token; valid iff the signature verifies, the user exists and the versions agree |
| Auth.VerifyExtension | routes/auth.js:241-305 | as the token route, with valid also requiring `type` 'extension' |
| Auth.ExtensionTypeCheckedFirst | routes/auth.js:268-271 | a verified non-extension token is refused whatever the user table says; an extension token gets the ordinary verdict |
| Auth.CheckCredentials | routes/auth.js:124-130 | well formed iff both fields are non-empty and the password has 1 to 128 code units; an empty field is reported first |
| Auth.PasswordLengthBounds | routes/auth.js:124-130 | any password of at most 64 characters passes the length check; more than 128 never does |
| Wallpaper.PhotoIdsIncreasing | routes/wallpaper.js:7-21 | the id list is strictly increasing, so it has no repeats, and has 220 entries |
| Wallpaper.WithoutMembers | routes/wallpaper.js:31 | the available ids are exactly the listed ids not in the window |
| Wallpaper.WithoutCount | routes/wallpaper.js:31 | a window of k entries hides at most k ids of a list without repeats |
| Wallpaper.Remember | routes/wallpaper.js:43-46 | the pick becomes the newest entry; the oldest entries go first; a window of at most 20 stays at most 20 |
| Wallpaper.RandomIndex | routes/wallpaper.js:39 | `Math.floor(Math.random() * n)` is an index of the list |
| Wallpaper.PickFrom | routes/wallpaper.js:31-46 | the pick is a listed id; the window is cleared iff fewer than 10 ids are outside it; otherwise the pick is outside the window; the pick is remembered |
| Wallpaper.PickWallpaper | routes/wallpaper.js:28-46 | the deployed handler serves an id of `NATURE_PHOTO_IDS` |
| Wallpaper.NeverResetsFrom | routes/wallpaper.js:25-37 | with a list of at least 30 distinct ids and a window of at most 20, the reset never fires and the window stays within 20 |
| Wallpaper.NeverResets | routes/wallpaper.js:7-46 | for the deployed list the reset branch is dead and the served id is never in the window |
| Wallpaper.Serve | routes/wallpaper.js:24-46 | a run of requests from start-up serves one listed id per request |
| Wallpaper.WindowStep | routes/wallpaper.js:43-46 | remembering an id outside the window of the latest ids gives the window of the latest ids after it |
| Wallpaper.ServeWindow | routes/wallpaper.js:24-46 | the window always holds the last min(n, 20) ids served, and any 21 consecutive requests serve different ids |
| Wallpaper.LatestDistinct | routes/wallpaper.js:43-46 | the newest 20 of a run without repeats within 21 requests are all different |
| Wallpaper.NoRepeatWithinWindow | routes/wallpaper.js:7-46 | the deployed handler never repeats an id within 21 requests, and its window has no duplicates |
| RouteGuard.FindRoute | web/src/router.js:7-16 | the first route the path matches (letter case and one trailing '/' ignored), or none when no route matches |
| RouteGuard.Guard | web/src/router.js:18-29 | redirect to '/login' iff the page needs auth and the token is falsy; to '/' iff the path is exactly '/login' and the token is truthy; otherwise proceed |
| RouteGuard.RouteTable | web/src/router.js:7-16 | exactly '/' and '/admin', in any case and with an optional trailing '/', need auth; '/login' and unknown paths do not |
| RouteGuard.GuardSettles | web/src/router.js:7-29 | the page the guard redirects to is let through with the same token, so the guard cannot loop |
| RouteGuard.GuardByToken | web/src/router.js:19-27 | without a truthy token exactly the protected paths redirect to login; with one, exactly '/login' redirects home |
| RouteGuard.GuardCapitalAdmin | web/src/router.js:7-24 | '/ADMIN/' without a token goes to login |
| RouteGuard.GuardEmptyTokenAtHome | web/src/router.js:19-24 | an empty stored token on '/' goes to login |
| RouteGuard.GuardEmptyTokenAtLogin | web/src/router.js:19-27 | an empty stored token on '/login' proceeds instead of going home |

## Left out

- Remote AI calls, prompt construction and reply parsing (`callAI`, `buildUnifiedPrompt`, `parseTagsResponse`, routes/ai.js:37-109, 330-420) are foreign collaborators. A call's outcome is an input (`Retry.Attempt`, `BatchLoop.Settled`).
- Database access (`db.*`), SQL ordering and transactions are inputs. The card rows and tag rows are given in query order, and the user lookup is a function.
- `sleep`, `setTimeout`, the `AbortController` signal and `Date.now()` are timing plumbing. A wait is a recorded delay, `stop()` is the phase it ran in, and timestamps are parameters or dropped (the `time` of an error entry).
- A throw inside the `runTask` loop is not modelled: `notifyDataChange` and the update listeners are assumed not to throw. There are three such points, and each ends the run through the `finally` block. The `emitUpdate` before the batch (routes/ai.js:205) throws before any card of the batch is dispatched. `notifyDataChange` (routes/ai.js:249) throws after the batch was counted but before `adjustConcurrency`. The `emitUpdate` after the batch (routes/ai.js:251) throws after `adjustConcurrency` but before `index` advances.
- Cleaners.CleanName: when the 20th code unit is the first half of a surrogate pair, JavaScript keeps that lone half. A Dafny `char` cannot hold a lone surrogate, so the model ends the name before the pair.
- Cleaners.CleanDescription: the same holds at the 80th code unit.
- Percent-encoded paths are not modelled. vue-router's encoding normalisation is library code; the model compares paths as given.
- `EventEmitter` updates, the SSE stream route and `utils/sseManager.js` are transport and are not modelled.
- `notifyDataChange` is counted (`BatchLoop.Notices`), not performed.
- `extractDomain(url)` is a URL-library call. The card's domain is an input.
- `jwt.sign`/`jwt.verify`, `bcrypt` and `parseInt` are library calls. Their results are inputs (`Auth.JwtResult`, `Option<int>` for a parsed number).
- `toLowerCase` is modelled on ASCII letters only. For the four rate-limit phrases this gives the same verdict.
- The wallpaper URL string, the rate limiter middleware and the `catch` fallback to the first id are left out. Nothing in the modelled handler throws.
- `Promise.allSettled` concurrency is modelled as the ordered sequence of settled results of a batch.
- The other card routes (create, update, delete, reorder), registration and login are not part of this model, apart from the shared credential check.
- Wallpaper.PickWallpaper: its own contract states only that the id is listed. The window behaviour is stated on `Wallpaper.PickFrom` for any list, and for the deployed list by `Wallpaper.NeverResets` and `Wallpaper.NoRepeatWithinWindow`.

## Findings

| source | as written | input that shows it | evidently intended | confidence | as-written member | corrected member |
|---|---|---|---|---|---|---|
| routes/ai.js:143-247 | the loop of a run writes its results through `this.task`, which after `stop()` and a new `start()` is the new run's record | start a 2-card run, `stop()` while both cards are in flight, start a 1-card run; the old batch's two successes arrive | a stopped run's late results do not touch the run started after it | not executed | TaskManager.StaleWriteCorruptsNewRun | TaskManager.StaleDeliveryIgnored |

=== FILE: arith.dfy ===
/** Integer helpers standing in for `Math.min`, `Math.max` and `Math.pow(2, n)`. */
module Arith {

  function Min(a: int, b: int): int {
    if a <= b then a else b
  }

  function Max(a: int, b: int): int {
    if a >= b then a else b
  }

  function Pow2(n: nat): (r: nat)
    ensures r >= 1
  {
    if n == 0 then 1 else 2 * Pow2(n - 1)
  }

  lemma {:induction false} Pow2Monotone(m: nat, n: nat)
    requires m <= n
    ensures Pow2(m) <= Pow2(n)
    decreases n
  {
    if m < n {
      Pow2Monotone(m, n - 1);
    }
  }

  /** `x * 2^n` written as n doublings, which keeps the arithmetic linear. */
  function Doubled(x: int, n: nat): int
    decreases n
  {
    if n == 0 then x else 2 * Doubled(x, n - 1)
  }

  lemma {:induction false} DoubledIsProduct(x: int, n: nat)
    ensures Doubled(x, n) == x * Pow2(n)
    decreases n
  {
    if n > 0 {
      DoubledIsProduct(x, n - 1);
    }
  }

  lemma {:induction false} DoubledMonotone(x: nat, m: nat, n: nat)
    requires m <= n
    ensures x <= Doubled(x, m) <= Doubled(x, n)
    decreases n
  {
    if n > 0 && m < n {
      DoubledMonotone(x, m, n - 1);
    } else if n > 0 {
      DoubledMonotone(x, m - 1, n - 1);
    }
  }
}

=== FILE: auth.dfy ===
/**
 * The pure rules of the authentication routes (routes/auth.js): the client
 * address normalisation, the token-version rule that invalidates tokens after
 * a password change, the bearer-header and extension-type checks of the two
 * verification routes, and the credential shape check. Signature checking
 * (`jwt.verify`), the user lookup and `parseInt` are calls into code outside
 * the model and are inputs here.
 */
module Auth {
  import opened Wrappers
  import opened Strings

  /** The prefix Node puts before an IPv4 address on a dual-stack socket. */
  const MappedPrefix := "::ffff:"

  /**
   * The address `getClientIp` starts from:
   * `req.headers['x-forwarded-for'] || req.connection.remoteAddress || ''`.
   */
  function IpSource(forwardedFor: Option<string>, remoteAddress: Option<string>): (s: string)
    ensures Truthy(forwardedFor) ==> s == forwardedFor.value
    ensures !Truthy(forwardedFor) && Truthy(remoteAddress) ==> s == remoteAddress.value
    ensures !Truthy(forwardedFor) && !Truthy(remoteAddress) ==> s == ""
  {
    if Truthy(forwardedFor) then forwardedFor.value
    else if Truthy(remoteAddress) then remoteAddress.value
    else ""
  }

  /** `ip.includes(',') ? ip.split(',')[0].trim() : ip` */
  function FirstHop(ip: string): (r: string)
    ensures ',' !in r
    ensures ',' !in ip ==> r == ip
    ensures Contains(ip, r)
    ensures ',' in ip ==> exists i :: 0 <= i < |ip| && ip[i] == ',' && ',' !in ip[..i] && r == Trim(ip[..i])
  {
    if ',' in ip then
      var first := BeforeFirst(ip, ',');
      assert |first| < |ip| && ip[|first|] == ',' && first == ip[..|first|];
      ContainsPrefix(ip, |first|);
      var r := Trim(first);
      ContainsTransitive(ip, first, r);
      assert ',' !in r by {
        if ',' in r {
          ContainsChar(first, r, ',');
        }
      }
      r
    else
      ContainsSelf(ip);
      ip
  }

  /**
   * `ip.startsWith('::ffff:') ? ip.replace('::ffff:', '') : ip`. `replace`
   * removes the first occurrence, which for a string starting with the
   * prefix is the prefix itself.
   */
  function StripMapped(ip: string): (r: string)
    ensures StartsWith(ip, MappedPrefix) ==> ip == MappedPrefix + r
    ensures !StartsWith(ip, MappedPrefix) ==> r == ip
  {
    if StartsWith(ip, MappedPrefix) then ip[|MappedPrefix|..] else ip
  }

  /**
   * `getClientIp(req)`: the first hop of the chosen address, trimmed, with
   * the IPv4-mapped prefix removed; it never contains a comma, is a piece of
   * the chosen address, and an address with neither comma nor prefix comes
   * back unchanged.
   */
  function GetClientIp(forwardedFor: Option<string>, remoteAddress: Option<string>): (ip: string)
    ensures ',' !in ip
    ensures Contains(IpSource(forwardedFor, remoteAddress), ip)
    ensures var s := IpSource(forwardedFor, remoteAddress);
      ',' !in s && !StartsWith(s, MappedPrefix) ==> ip == s
    ensures var s := IpSource(forwardedFor, remoteAddress);
      ',' !in s ==> ip == StripMapped(s)
    ensures var s := IpSource(forwardedFor, remoteAddress);
      ',' in s ==> exists i :: 0 <= i < |s| && s[i] == ',' && ',' !in s[..i] && ip == StripMapped(Trim(s[..i]))
  {
    var s := IpSource(forwardedFor, remoteAddress);
    var hop := FirstHop(s);
    var r := StripMapped(hop);
    assert Contains(hop, r) by {
      if StartsWith(hop, MappedPrefix) {
        ContainsSuffix(hop, |MappedPrefix|);
      } else {
        ContainsSelf(hop);
      }
    }
    ContainsTransitive(s, hop, r);
    assert ',' !in r by {
      if ',' in r {
        ContainsChar(hop, r, ',');
      }
    }
    r
  }

  /**
   * Behind a proxy chain `client, proxy1, ...` the client hop is reported,
   * trimmed and unmapped, whatever the socket address; a client hop that is
   * already clean comes back as it is.
   */
  lemma {:induction false} ClientIpFromProxyChain(client: string, proxies: string, remote: Option<string>)
    requires ',' !in client
    ensures GetClientIp(Some(client + "," + proxies), remote) == StripMapped(Trim(client))
    ensures |client| > 0 && !IsSpace(client[0]) && !IsSpace(client[|client| - 1]) && !StartsWith(client, MappedPrefix)
      ==> GetClientIp(Some(client + "," + proxies), remote) == client
  {
    var s := client + "," + proxies;
    assert s == client + [','] + proxies;
    assert s[|client|] == ',';
    assert s[..|client|] == client;
    BeforeFirstOfJoin(client, ',', proxies);
    assert FirstHop(s) == Trim(client);
    if |client| > 0 && !IsSpace(client[0]) && !IsSpace(client[|client| - 1]) {
      TrimTrimmed(client);
    }
  }

  /** A socket address in the IPv4-mapped form gives the plain address. */
  lemma {:induction false} ClientIpUnmapsIpv4(addr: string)
    requires ',' !in addr
    ensures GetClientIp(None, Some(MappedPrefix + addr)) == addr
  {
    var m := MappedPrefix + addr;
    assert ',' !in m by {
      assert forall i :: 0 <= i < |m| ==> m[i] == if i < |MappedPrefix| then MappedPrefix[i] else addr[i - |MappedPrefix|];
    }
    assert IpSource(None, Some(m)) == m;
    assert m[..|MappedPrefix|] == MappedPrefix && m[|MappedPrefix|..] == addr;
    assert StripMapped(m) == addr;
  }

  /**
   * `parseInt(v, 10) || 1`: a token version that is missing, unparseable
   * (`None`, NaN) or 0 counts as version 1.
   */
  function NormVersion(parsed: Option<int>): (v: int)
    ensures v != 0
    ensures parsed.Some? && parsed.value != 0 ==> v == parsed.value
    ensures parsed.None? || parsed == Some(0) ==> v == 1
  {
    if parsed.Some? && parsed.value != 0 then parsed.value else 1
  }

  /** `tokenVersion !== currentVersion` decides: a token is accepted iff the normalised versions agree. */
  predicate VersionAccepted(tokenVersion: Option<int>, userVersion: Option<int>) {
    NormVersion(tokenVersion) == NormVersion(userVersion)
  }

  /**
   * A token signed at login carries the user's normalised version, so it is
   * accepted as long as the stored version is unchanged, and rejected once a
   * password change has moved the stored version to another normalised value.
   */
  lemma IssuedTokenRoundTrip(userVersion: Option<int>, laterVersion: Option<int>)
    ensures VersionAccepted(Some(NormVersion(userVersion)), userVersion)
    ensures (VersionAccepted(Some(NormVersion(userVersion)), laterVersion)
             <==> NormVersion(laterVersion) == NormVersion(userVersion))
  {
  }

  /** Missing, unparseable, 0 and 1 are all the same version. */
  lemma DefaultVersionsAgree(a: Option<int>, b: Option<int>)
    requires a.None? || a == Some(0) || a == Some(1)
    requires b.None? || b == Some(0) || b == Some(1)
    ensures VersionAccepted(a, b)
  {
  }

  /** `auth && auth.startsWith('Bearer ') ? auth.slice(7) : missing` */
  function BearerToken(authorization: Option<string>): (t: Option<string>)
    ensures t.Some? <==> authorization.Some? && StartsWith(authorization.value, "Bearer ")
    ensures t.Some? ==> authorization.value == "Bearer " + t.value
  {
    if authorization.Some? && StartsWith(authorization.value, "Bearer ") then Some(authorization.value[7..]) else None
  }

  /** What `jwt.verify` makes of a token: its payload, or the error it throws. */
  datatype Payload = Payload(id: int, tokenVersion: Option<int>, tokenType: Option<string>)
  datatype JwtResult = Verified(payload: Payload) | TokenExpired | TokenInvalid

  /** The answers of the two verification routes. */
  datatype Verdict = NoToken | Expired | Invalid | WrongType | NoSuchUser | PasswordChanged | Valid

  /**
   * `GET /verify-token`: a bearer header, a verified payload, an existing
   * user, and agreeing versions make the token valid; each missing piece has
   * its own answer, checked in that order. `lookup` gives the parsed
   * `token_version` of an existing user.
   */
  function VerifyToken(authorization: Option<string>, verify: string -> JwtResult,
                       lookup: int -> Option<Option<int>>): (v: Verdict)
    ensures BearerToken(authorization).None? ==> v == NoToken
    ensures v == Valid <==>
      (&& BearerToken(authorization).Some?
       && verify(BearerToken(authorization).value).Verified?
       && var p := verify(BearerToken(authorization).value).payload;
          lookup(p.id).Some? && VersionAccepted(p.tokenVersion, lookup(p.id).value))
  {
    match BearerToken(authorization)
    case None => NoToken
    case Some(token) =>
      match verify(token)
      case TokenExpired => Expired
      case TokenInvalid => Invalid
      case Verified(p) =>
        match lookup(p.id)
        case None => NoSuchUser
        case Some(userVersion) => if VersionAccepted(p.tokenVersion, userVersion) then Valid else PasswordChanged
  }

  /**
   * `GET /extension/verify`: as `VerifyToken`, except that a payload whose
   * `type` is not 'extension' is refused before the user is looked up.
   */
  function VerifyExtension(authorization: Option<string>, verify: string -> JwtResult,
                           lookup: int -> Option<Option<int>>): (v: Verdict)
    ensures BearerToken(authorization).None? ==> v == NoToken
    ensures v == Valid <==>
      (&& BearerToken(authorization).Some?
       && verify(BearerToken(authorization).value).Verified?
       && var p := verify(BearerToken(authorization).value).payload;
          p.tokenType == Some("extension") && lookup(p.id).Some? && VersionAccepted(p.tokenVersion, lookup(p.id).value))
  {
    match BearerToken(authorization)
    case None => NoToken
    case Some(token) =>
      match verify(token)
      case TokenExpired => Expired
      case TokenInvalid => Invalid
      case Verified(p) =>
        if p.tokenType != Some("extension") then WrongType
        else
          match lookup(p.id)
          case None => NoSuchUser
          case Some(userVersion) => if VersionAccepted(p.tokenVersion, userVersion) then Valid else PasswordChanged
  }

  /**
   * A verified token of any other type is refused as the wrong type whatever
   * the user table says, and an extension token gets the same verdict as on
   * the ordinary route.
   */
  lemma ExtensionTypeCheckedFirst(authorization: Option<string>, verify: string -> JwtResult,
                                  lookup: int -> Option<Option<int>>, lookup': int -> Option<Option<int>>)
    requires BearerToken(authorization).Some? && verify(BearerToken(authorization).value).Verified?
    ensures var p := verify(BearerToken(authorization).value).payload;
      && (p.tokenType != Some("extension") ==>
            VerifyExtension(authorization, verify, lookup) == WrongType == VerifyExtension(authorization, verify, lookup'))
      && (p.tokenType == Some("extension") ==>
            VerifyExtension(authorization, verify, lookup) == VerifyToken(authorization, verify, lookup))
  {
  }

  /** Longest password accepted, in UTF-16 code units. */
  const MaxPasswordLength: nat := 128

  /** The two 400 answers of the credential check. */
  datatype CredentialCheck = EmptyCredentials | BadPasswordFormat | CredentialsWellFormed

  /**
   * The checks `POST /verify-password` and `POST /extension/login` make
   * before the user lookup: both fields present and non-empty, then a
   * password of 1 to 128 code units.
   */
  function CheckCredentials(username: Option<string>, password: Option<string>): (c: CredentialCheck)
    ensures c == CredentialsWellFormed <==>
      Truthy(username) && Truthy(password) && 1 <= Utf16Length(password.value) <= MaxPasswordLength
    ensures !Truthy(username) || !Truthy(password) ==> c == EmptyCredentials
  {
    if !Truthy(username) || !Truthy(password) then EmptyCredentials
    else if Utf16Length(password.value) < 1 || Utf16Length(password.value) > MaxPasswordLength then BadPasswordFormat
    else CredentialsWellFormed
  }

  /**
   * Any password of at most 64 characters passes the length check, whatever
   * characters it uses; one of more than 128 characters never does.
   */
  lemma PasswordLengthBounds(username: string, password: string)
    requires |username| > 0 && |password| > 0
    ensures |password| <= MaxPasswordLength / 2 ==> CheckCredentials(Some(username), Some(password)) == CredentialsWellFormed
    ensures |password| > MaxPasswordLength ==> CheckCredentials(Some(username), Some(password)) == BadPasswordFormat
  {
  }
}

=== FILE: batch_loop.dfy ===
/**
 * `runTask` (routes/ai.js): the batch loop of `BatchTaskManager`.
 *
 * Each card is processed exactly once, in the batch that contains it, so the
 * settled result of every card is an input indexed by the card's position:
 * `settled[i]` is what `Promise.allSettled` reports for `cards[i]`.
 *
 * `stop()` can only run while the loop is suspended. Phases number those
 * suspension points: phase 0 is the set-up before the first check, phase
 * 2k+1 is while batch k's results are awaited, phase 2k+2 is the wait after
 * batch k. `stop == Some(p)` means `stop()` ran in phase p.
 */
module BatchLoop {
  import opened Wrappers
  import opened Arith
  import opened Strings
  import FieldFilter
  import opened Retry
  import opened TaskState
  import opened Controller

  /** A card as the loop sees it; `domain` is `extractDomain(card.url)`, a URL-library call. */
  datatype Card = Card(id: int, title: Option<string>, domain: string)

  /** `card.title || extractDomain(card.url)` */
  function Label(c: Card): string {
    if Truthy(c.title) then c.title.value else c.domain
  }

  /** `batch.map(c => c.title || extractDomain(c.url)).join(', ')` */
  function BatchLabel(cs: seq<Card>): string {
    Join(seq(|cs|, i requires 0 <= i < |cs| => Label(cs[i])), ", ")
  }

  /** What `Promise.allSettled` reports for one card. */
  datatype Settled = Fulfilled(outcome: CardOutcome) | Rejected(reason: Option<string>)

  predicate IsSuccess(s: Settled) {
    s == Fulfilled(Succeeded)
  }

  /** A fulfilled failure flagged `rateLimited`: the only thing that marks a batch as throttled. */
  predicate SignalsRateLimit(s: Settled) {
    s.Fulfilled? && s.outcome.Failed? && s.outcome.rateLimited
  }

  /** Message for a failure without a message ("nothing generated"). */
  const NothingGenerated := "未生成任何内容"
  /** Message for a rejection without a message ("processing interrupted"). */
  const Interrupted := "处理中断"

  /** The error entry pushed for a card that did not succeed. */
  function ErrorFor(c: Card, s: Settled): ErrorEntry
    requires !IsSuccess(s)
  {
    match s
    case Fulfilled(o) => ErrorEntry(c.id, Label(c), OrElse(o.error, NothingGenerated))
    case Rejected(reason) => ErrorEntry(c.id, Label(c), OrElse(reason, Interrupted))
  }

  /** Number of successes among the results `ss[lo..hi)`. */
  function CountSuccesses(ss: seq<Settled>, lo: nat, hi: nat): (n: nat)
    requires lo <= hi <= |ss|
    ensures n <= hi - lo
    decreases hi
  {
    if lo == hi then 0
    else CountSuccesses(ss, lo, hi - 1) + (if IsSuccess(ss[hi - 1]) then 1 else 0)
  }

  /** Splitting a range of results in two splits its success count. */
  lemma {:induction false} CountSuccessesSplit(ss: seq<Settled>, lo: nat, mid: nat, hi: nat)
    requires lo <= mid <= hi <= |ss|
    ensures CountSuccesses(ss, lo, hi) == CountSuccesses(ss, lo, mid) + CountSuccesses(ss, mid, hi)
    decreases hi
  {
    if mid < hi {
      CountSuccessesSplit(ss, lo, mid, hi - 1);
    }
  }

  /** The error entries of the cards in `[lo, hi)` that did not succeed, in card order. */
  function ErrorsFor(cs: seq<Card>, ss: seq<Settled>, lo: nat, hi: nat): (es: seq<ErrorEntry>)
    requires |cs| == |ss| && lo <= hi <= |ss|
    ensures |es| == (hi - lo) - CountSuccesses(ss, lo, hi)
    decreases hi
  {
    if lo == hi then []
    else ErrorsFor(cs, ss, lo, hi - 1) + (if IsSuccess(ss[hi - 1]) then [] else [ErrorFor(cs[hi - 1], ss[hi - 1])])
  }

  /** Splitting a range of cards in two splits its error entries. */
  lemma {:induction false} ErrorsForSplit(cs: seq<Card>, ss: seq<Settled>, lo: nat, mid: nat, hi: nat)
    requires |cs| == |ss| && lo <= mid <= hi <= |ss|
    ensures ErrorsFor(cs, ss, lo, hi) == ErrorsFor(cs, ss, lo, mid) + ErrorsFor(cs, ss, mid, hi)
    decreases hi
  {
    if mid < hi {
      ErrorsForSplit(cs, ss, lo, mid, hi - 1);
    }
  }

  lemma AppendAssociates<T>(a: seq<T>, b: seq<T>, c: seq<T>)
    ensures (a + b) + c == a + (b + c)
  {
  }

  /** One iteration of the inner `for`: count the card and record its failure, if any. */
  function RecordResult(t: Task, c: Card, s: Settled): Task {
    if IsSuccess(s) then
      t.(current := t.current + 1, successCount := t.successCount + 1)
    else
      t.(current := t.current + 1, failCount := t.failCount + 1, errors := t.errors + [ErrorFor(c, s)])
  }

  datatype BatchResult = BatchResult(task: Task, success: nat, fail: nat, rateLimited: bool)

  /**
   * The inner `for` over the settled results of the batch `cards[lo..hi)`:
   * every card is counted once, as a success or a failure, and each failure
   * appends its entry; the batch is throttled iff one of its results says so.
   */
  function ProcessBatch(t: Task, cs: seq<Card>, ss: seq<Settled>, lo: nat, hi: nat): (r: BatchResult)
    requires |cs| == |ss| && lo <= hi <= |ss|
    ensures r.success == CountSuccesses(ss, lo, hi) && r.fail == (hi - lo) - r.success
    ensures r.rateLimited <==> exists i :: lo <= i < hi && SignalsRateLimit(ss[i])
    ensures r.task == t.(current := t.current + (hi - lo),
                         successCount := t.successCount + r.success,
                         failCount := t.failCount + r.fail,
                         errors := t.errors + ErrorsFor(cs, ss, lo, hi))
    decreases hi
  {
    if lo == hi then BatchResult(t, 0, 0, false)
    else
      var prev := ProcessBatch(t, cs, ss, lo, hi - 1);
      var s := ss[hi - 1];
      BatchResult(RecordResult(prev.task, cs[hi - 1], s),
                  prev.success + (if IsSuccess(s) then 1 else 0),
                  prev.fail + (if IsSuccess(s) then 0 else 1),
                  prev.rateLimited || SignalsRateLimit(s))
  }

  /**
   * One batch as the loop ran it: the slice `cards[start .. start + size)`,
   * the concurrency read for it, what it counted and the error entries it
   * pushed, whether it was throttled, the wait after it (if any), the record
   * as it stood after `adjustConcurrency`, and the record the next loop check
   * reads (after the wait, during which `stop()` may run).
   */
  datatype Batch = Batch(start: nat, size: nat, concurrency: int, success: nat, fail: nat,
                         errors: seq<ErrorEntry>, rateLimited: bool, delay: Option<real>,
                         after: Task, next: Task)

  datatype LoopEnd = LoopEnd(task: Task, batches: seq<Batch>)

  /** Index one past the last card dispatched by batches that start at `index`. */
  function End(index: nat, bs: seq<Batch>): nat
    decreases |bs|
  {
    if |bs| == 0 then index else End(bs[0].start + bs[0].size, bs[1..])
  }

  /**
   * The batches are consecutive slices starting at `index`, the first read
   * with concurrency `c` and each later one with the concurrency the previous
   * batch's adjustment left.
   */
  predicate Consecutive(index: nat, c: int, bs: seq<Batch>)
    decreases |bs|
  {
    |bs| == 0 ||
    (bs[0].start == index && bs[0].concurrency == c
     && Consecutive(bs[0].start + bs[0].size, bs[0].next.concurrency, bs[1..]))
  }

  /** Successes counted by the batches. */
  function Successes(bs: seq<Batch>): nat
    decreases |bs|
  {
    if |bs| == 0 then 0 else bs[0].success + Successes(bs[1..])
  }

  /** Failures counted by the batches. */
  function Failures(bs: seq<Batch>): nat
    decreases |bs|
  {
    if |bs| == 0 then 0 else bs[0].fail + Failures(bs[1..])
  }

  /** The error entries the batches pushed, in order. */
  function BatchErrors(bs: seq<Batch>): seq<ErrorEntry>
    decreases |bs|
  {
    if |bs| == 0 then [] else bs[0].errors + BatchErrors(bs[1..])
  }

  /**
   * A batch takes `concurrency` cards, fewer only at the end of the list,
   * with the concurrency in [1, 5] before and after it.
   */
  predicate ValidBatch(b: Batch, total: nat) {
    && MinConcurrency <= b.concurrency <= MaxConcurrency
    && b.size == Min(b.concurrency, total - b.start)
    && b.size >= 1
    && ConcurrencyInBounds(b.after)
  }

  /**
   * The loop sleeps after a batch exactly when cards remain and the run is
   * still running, for `calculateDelay` of the record after the adjustment; a
   * throttled batch has already been counted as a rate limit.
   */
  predicate DelayRule(b: Batch, total: nat, base: int) {
    && (b.delay.Some? <==> b.start + b.size < total && b.after.running)
    && (b.delay.Some? ==> b.delay.value == CalculateDelay(base, b.rateLimited, b.after))
    && (b.rateLimited ==> b.after.rateLimitCount >= 1)
  }

  /**
   * A batch counted the successes among its own cards' results, every other
   * card as a failure, and pushed the error entries of those failures.
   */
  predicate CountsItsCards(b: Batch, cards: seq<Card>, settled: seq<Settled>)
    requires |settled| == |cards|
  {
    && b.start + b.size <= |cards|
    && b.success == CountSuccesses(settled, b.start, b.start + b.size)
    && b.success + b.fail == b.size
    && b.errors == ErrorsFor(cards, settled, b.start, b.start + b.size)
  }

  /** A batch is throttled exactly when one of its own cards' results signals a rate limit. */
  predicate ThrottledByItsResults(b: Batch, settled: seq<Settled>) {
    b.rateLimited <==> exists i :: 0 <= i < |settled| && b.start <= i < b.start + b.size && SignalsRateLimit(settled[i])
  }

  /**
   * The first half of the `while` body: label the batch, await its results
   * (during which `stop()` may run), and fold them into the record.
   */
  function CollectBatch(t: Task, cards: seq<Card>, settled: seq<Settled>,
                        stop: Option<nat>, index: nat, end: nat, k: nat): (pb: BatchResult)
    requires |settled| == |cards| && index <= end <= |cards|
    ensures pb.task.running <==> t.running && stop != Some(2 * k + 1)
    ensures SameControl(pb.task, t) && pb.task.total == t.total
    ensures pb.task.current == t.current + (end - index)
    ensures pb.success == CountSuccesses(settled, index, end) && pb.success + pb.fail == end - index
    ensures pb.task.successCount == t.successCount + pb.success
    ensures pb.task.failCount == t.failCount + pb.fail
    ensures pb.task.errors == t.errors + ErrorsFor(cards, settled, index, end)
    ensures pb.rateLimited <==> exists i :: index <= i < end && SignalsRateLimit(settled[i])
  {
    var labelled := t.(currentCard := BatchLabel(cards[index..end]));
    var awaited := if stop == Some(2 * k + 1) then StopTask(labelled) else labelled;
    ProcessBatch(awaited, cards, settled, index, end)
  }

  /**
   * One pass of the `while` body once the check has let it through: take
   * `concurrency` cards, fold their results, adjust, and decide the wait.
   */
  function BatchStep(t: Task, cards: seq<Card>, settled: seq<Settled>, base: int,
                     stop: Option<nat>, index: nat, k: nat): (b: Batch)
    requires |settled| == |cards| && index < |cards|
    requires ConcurrencyInBounds(t) && t.running
    ensures b.start == index && b.concurrency == t.concurrency
    ensures ValidBatch(b, |cards|) && DelayRule(b, |cards|, base)
    ensures ConcurrencyInBounds(b.next)
    ensures b.after.running <==> stop != Some(2 * k + 1)
    ensures b.next == if b.delay.Some? && stop == Some(2 * k + 2) then StopTask(b.after) else b.after
    ensures ThrottledByItsResults(b, settled)
    ensures SameControl(b.after, AdjustConcurrency(t, b.success, b.fail, b.rateLimited)) && SameControl(b.next, b.after)
  {
    var c := t.concurrency;
    var end := Min(index + c, |cards|);
    var pb := CollectBatch(t, cards, settled, stop, index, end, k);
    var adjusted := AdjustConcurrency(pb.task, pb.success, pb.fail, pb.rateLimited);
    AdjustSameControl(pb.task, t, pb.success, pb.fail, pb.rateLimited);
    var delay := if end < |cards| && adjusted.running
      then Some(CalculateDelay(base, pb.rateLimited, adjusted)) else None;
    var next := if delay.Some? && stop == Some(2 * k + 2) then StopTask(adjusted) else adjusted;
    Batch(index, end - index, c, pb.success, pb.fail, ErrorsFor(cards, settled, index, end),
          pb.rateLimited, delay, adjusted, next)
  }

  /**
   * A pass counts the successes among its own cards' results, every other
   * card as a failure, pushes their error entries, and adds all of it to the
   * record.
   */
  lemma BatchStepCounts(t: Task, cards: seq<Card>, settled: seq<Settled>, base: int,
                        stop: Option<nat>, index: nat, k: nat)
    requires |settled| == |cards| && index < |cards|
    requires ConcurrencyInBounds(t) && t.running
    ensures var b := BatchStep(t, cards, settled, base, stop, index, k);
      && CountsItsCards(b, cards, settled)
      && b.next.current == t.current + b.size && b.next.total == t.total
      && b.next.successCount == t.successCount + b.success
      && b.next.failCount == t.failCount + b.fail
      && b.next.errors == t.errors + b.errors
  {
  }

  /** One pass of the loop body as a function of the record, the first card index and the batch number. */
  type StepFn = (Task, nat, nat) -> Batch

  /** The precondition of a pass of the loop body: a record in bounds, still running, with cards left. */
  predicate StepPre(t: Task, i: nat, total: nat) {
    ConcurrencyInBounds(t) && t.running && i < total
  }

  /**
   * A pass takes a non-empty slice from card `i` with the concurrency it
   * read and keeps the record's concurrency in bounds.
   */
  ghost predicate StepMoves(step: StepFn, total: nat) {
    forall t: Task, i: nat, k: nat :: StepPre(t, i, total) ==>
      var b := step(t, i, k);
      && b.start == i && b.concurrency == t.concurrency && 1 <= b.size && i + b.size <= total
      && ConcurrencyInBounds(b.next)
  }

  /**
   * A pass counts each card of its slice once, as a success or a failure,
   * and adds its counts to the record's counters.
   */
  ghost predicate StepCounts(step: StepFn, total: nat) {
    forall t: Task, i: nat, k: nat :: StepPre(t, i, total) ==>
      var b := step(t, i, k);
      && b.success + b.fail == b.size
      && b.next.current == t.current + b.size && b.next.total == t.total
      && b.next.successCount == t.successCount + b.success
      && b.next.failCount == t.failCount + b.fail
  }

  /** A pass appends the entries it pushed to the record's error list. */
  ghost predicate StepRecords(step: StepFn, total: nat) {
    forall t: Task, i: nat, k: nat :: StepPre(t, i, total) ==>
      step(t, i, k).next.errors == t.errors + step(t, i, k).errors
  }

  /**
   * A pass leaves the run running unless `stop()` ran while its results were
   * awaited, or during the wait after it (there is a wait only when cards
   * remain).
   */
  ghost predicate StepStops(step: StepFn, total: nat, stop: Option<nat>) {
    forall t: Task, i: nat, k: nat :: StepPre(t, i, total) ==>
      (step(t, i, k).next.running <==>
         stop != Some(2 * k + 1) && !(stop == Some(2 * k + 2) && i + step(t, i, k).size < total))
  }

  /**
   * A pass leaves the controller where `adjustConcurrency` puts it, given
   * what the batch counted and whether it was throttled.
   */
  ghost predicate StepAdjusts(step: StepFn, total: nat) {
    forall t: Task, i: nat, k: nat :: StepPre(t, i, total) ==>
      var b := step(t, i, k);
      SameControl(b.next, AdjustConcurrency(t, b.success, b.fail, b.rateLimited))
  }

  /** The loop body of `runTask` on these cards, results, base delay and `stop()` phase. */
  function StepOf(cards: seq<Card>, settled: seq<Settled>, base: int, stop: Option<nat>): (step: StepFn)
    requires |settled| == |cards|
    ensures StepMoves(step, |cards|)
  {
    (t: Task, i: nat, k: nat) =>
      if i < |cards| && t.running && ConcurrencyInBounds(t) then BatchStep(t, cards, settled, base, stop, i, k)
      else Batch(i, 0, t.concurrency, 0, 0, [], false, None, t, t)
  }

  /** The loop body counts each card of its slice once and records its failures. */
  lemma StepOfCounts(cards: seq<Card>, settled: seq<Settled>, base: int, stop: Option<nat>)
    requires |settled| == |cards|
    ensures StepCounts(StepOf(cards, settled, base, stop), |cards|)
    ensures StepRecords(StepOf(cards, settled, base, stop), |cards|)
  {
    forall t: Task, i: nat, k: nat | StepPre(t, i, |cards|) {
      BatchStepCounts(t, cards, settled, base, stop, i, k);
    }
  }

  /** The loop body stops the run only when `stop()` ran during it. */
  lemma StepOfStops(cards: seq<Card>, settled: seq<Settled>, base: int, stop: Option<nat>)
    requires |settled| == |cards|
    ensures StepStops(StepOf(cards, settled, base, stop), |cards|, stop)
  {
  }

  /** The loop body adjusts the controller with what its batch counted. */
  lemma StepOfAdjusts(cards: seq<Card>, settled: seq<Settled>, base: int, stop: Option<nat>)
    requires |settled| == |cards|
    ensures StepAdjusts(StepOf(cards, settled, base, stop), |cards|)
  {
  }

  /** Every batch of the loop body is sized, throttled, paced and counted as `runTask` does. */
  lemma StepOfBatches(cards: seq<Card>, settled: seq<Settled>, base: int, stop: Option<nat>)
    requires |settled| == |cards|
    ensures var step := StepOf(cards, settled, base, stop);
      forall t: Task, i: nat, k: nat :: StepPre(t, i, |cards|) ==>
        && ValidBatch(step(t, i, k), |cards|)
        && ThrottledByItsResults(step(t, i, k), settled)
        && DelayRule(step(t, i, k), |cards|, base)
        && CountsItsCards(step(t, i, k), cards, settled)
  {
    forall t: Task, i: nat, k: nat | StepPre(t, i, |cards|) {
      BatchStepCounts(t, cards, settled, base, stop, i, k);
    }
  }

  /**
   * The `while (index < cards.length && this.task.running)` loop from card
   * `index` and batch number `k`, over a loop body meeting `StepMoves`.
   */
  function Loop(step: StepFn, total: nat, t: Task, index: nat, k: nat): (r: LoopEnd)
    requires index <= total
    requires ConcurrencyInBounds(t)
    requires StepMoves(step, total)
    ensures index <= End(index, r.batches) <= total
    ensures ConcurrencyInBounds(r.task)
    decreases total - index
  {
    if index >= total || !t.running then
      LoopEnd(t, [])
    else
      var b := step(t, index, k);
      var rest := Loop(step, total, b.next, index + b.size, k + 1);
      LoopEnd(rest.task, [b] + rest.batches)
  }

  /**
   * `current` advances by the number of cards dispatched, and the loop ends
   * before the last card only once the run is no longer running.
   */
  lemma {:induction false} LoopAdvances(step: StepFn, total: nat, t: Task, index: nat, k: nat)
    requires index <= total
    requires ConcurrencyInBounds(t)
    requires StepMoves(step, total) && StepCounts(step, total)
    ensures var r := Loop(step, total, t, index, k);
      && r.task.current == t.current + (End(index, r.batches) - index)
      && r.task.total == t.total
      && (End(index, r.batches) < total ==> !r.task.running)
    decreases total - index
  {
    var r := Loop(step, total, t, index, k);
    if index < total && t.running {
      assert StepPre(t, index, total);
      var b := step(t, index, k);
      var rest := Loop(step, total, b.next, index + b.size, k + 1);
      assert r == LoopEnd(rest.task, [b] + rest.batches);
      assert r.batches[1..] == rest.batches;
      LoopAdvances(step, total, b.next, index + b.size, k + 1);
    }
  }

  /** What the loop adds to the success and failure counters is what its batches counted. */
  lemma {:induction false} LoopAddsCounts(step: StepFn, total: nat, t: Task, index: nat, k: nat)
    requires index <= total
    requires ConcurrencyInBounds(t)
    requires StepMoves(step, total) && StepCounts(step, total)
    ensures var r := Loop(step, total, t, index, k);
      && r.task.successCount == t.successCount + Successes(r.batches)
      && r.task.failCount == t.failCount + Failures(r.batches)
    decreases total - index
  {
    var r := Loop(step, total, t, index, k);
    if index < total && t.running {
      assert StepPre(t, index, total);
      var b := step(t, index, k);
      var rest := Loop(step, total, b.next, index + b.size, k + 1);
      assert r == LoopEnd(rest.task, [b] + rest.batches);
      assert r.batches[1..] == rest.batches;
      LoopAddsCounts(step, total, b.next, index + b.size, k + 1);
    }
  }

  /** The error list grows by exactly the entries the batches pushed, in order. */
  lemma {:induction false} LoopRecordsErrors(step: StepFn, total: nat, t: Task, index: nat, k: nat)
    requires index <= total
    requires ConcurrencyInBounds(t)
    requires StepMoves(step, total) && StepRecords(step, total)
    ensures var r := Loop(step, total, t, index, k);
      r.task.errors == t.errors + BatchErrors(r.batches)
    decreases total - index
  {
    var r := Loop(step, total, t, index, k);
    if index < total && t.running {
      assert StepPre(t, index, total);
      var b := step(t, index, k);
      var rest := Loop(step, total, b.next, index + b.size, k + 1);
      assert r == LoopEnd(rest.task, [b] + rest.batches);
      assert r.batches[1..] == rest.batches;
      LoopRecordsErrors(step, total, b.next, index + b.size, k + 1);
      AppendAssociates(t.errors, b.errors, BatchErrors(rest.batches));
    } else {
      assert r.batches == [];
    }
  }

  /**
   * The batches are consecutive slices `cards[start .. start + size)` from
   * `index`, each read with the concurrency the previous batch's adjustment
   * left (the first with the record's own).
   */
  lemma {:induction false} LoopBatchesAreSlices(step: StepFn, total: nat, t: Task, index: nat, k: nat)
    requires index <= total
    requires ConcurrencyInBounds(t)
    requires StepMoves(step, total)
    ensures Consecutive(index, t.concurrency, Loop(step, total, t, index, k).batches)
    decreases total - index
  {
    var r := Loop(step, total, t, index, k);
    if index < total && t.running {
      assert StepPre(t, index, total);
      var b := step(t, index, k);
      var rest := Loop(step, total, b.next, index + b.size, k + 1);
      assert r.batches == [b] + rest.batches;
      assert r.batches[1..] == rest.batches;
      LoopBatchesAreSlices(step, total, b.next, index + b.size, k + 1);
    }
  }

  /** Every batch the loop runs has property `p` when every pass of its body produces one that has it. */
  lemma {:induction false} LoopEveryBatch(step: StepFn, total: nat, t: Task, index: nat, k: nat, p: Batch -> bool)
    requires index <= total
    requires ConcurrencyInBounds(t)
    requires StepMoves(step, total)
    requires forall t': Task, i: nat, k': nat :: StepPre(t', i, total) ==> p(step(t', i, k'))
    ensures forall b | b in Loop(step, total, t, index, k).batches :: p(b)
    decreases total - index
  {
    var r := Loop(step, total, t, index, k);
    if index < total && t.running {
      assert StepPre(t, index, total);
      var b := step(t, index, k);
      var rest := Loop(step, total, b.next, index + b.size, k + 1);
      assert r.batches == [b] + rest.batches;
      LoopEveryBatch(step, total, b.next, index + b.size, k + 1, p);
      forall b' | b' in r.batches
        ensures p(b')
      {
        if b' != b {
          assert b' in rest.batches;
        }
      }
    } else {
      assert r.batches == [];
    }
  }

  /**
   * A `stop()` in phase p >= 2k + 1 lets at most (p + 1) / 2 - k batches run
   * from batch k on (so 2 |batches| <= p + 1 - 2k).
   */
  lemma {:induction false} LoopHonoursStop(step: StepFn, total: nat, stop: Option<nat>, t: Task, index: nat, k: nat)
    requires index <= total
    requires ConcurrencyInBounds(t)
    requires StepMoves(step, total) && StepStops(step, total, stop)
    requires stop.Some? && stop.value >= 2 * k + 1
    ensures 2 * |Loop(step, total, t, index, k).batches| <= stop.value + 1 - 2 * k
    decreases total - index
  {
    var r := Loop(step, total, t, index, k);
    if index < total && t.running {
      assert StepPre(t, index, total);
      var b := step(t, index, k);
      var rest := Loop(step, total, b.next, index + b.size, k + 1);
      assert |r.batches| == 1 + |rest.batches|;
      if stop.value <= 2 * k + 2 {
        assert !b.next.running || index + b.size == total;
        assert rest.batches == [];
      } else {
        LoopHonoursStop(step, total, stop, b.next, index + b.size, k + 1);
      }
    } else {
      assert r.batches == [];
    }
  }

  /** Without `stop()` every card is dispatched and the loop leaves the run still marked running. */
  lemma {:induction false} LoopRunsToEnd(step: StepFn, total: nat, t: Task, index: nat, k: nat)
    requires index <= total
    requires ConcurrencyInBounds(t) && t.running
    requires StepMoves(step, total) && StepStops(step, total, None)
    ensures var r := Loop(step, total, t, index, k);
      End(index, r.batches) == total && r.task.running
    decreases total - index
  {
    var r := Loop(step, total, t, index, k);
    if index < total {
      assert StepPre(t, index, total);
      var b := step(t, index, k);
      var rest := Loop(step, total, b.next, index + b.size, k + 1);
      assert r == LoopEnd(rest.task, [b] + rest.batches);
      assert r.batches[1..] == rest.batches;
      LoopRunsToEnd(step, total, b.next, index + b.size, k + 1);
    }
  }

  /** What a batch tells the controller. */
  function Summary(b: Batch): BatchSummary {
    BatchSummary(b.success, b.fail, b.rateLimited)
  }

  /** The controller's view of a sequence of batches. */
  function Summaries(bs: seq<Batch>): (h: seq<BatchSummary>)
    ensures |h| == |bs| && forall i :: 0 <= i < |bs| ==> h[i] == Summary(bs[i])
  {
    seq(|bs|, i requires 0 <= i < |bs| => Summary(bs[i]))
  }

  lemma SummariesOfFirst(b: Batch, rest: seq<Batch>, j: nat)
    requires 0 < j <= |rest| + 1
    ensures Summaries(([b] + rest)[..j]) == [Summary(b)] + Summaries(rest[..j - 1])
  {
    assert ([b] + rest)[..j] == [b] + rest[..j - 1];
  }

  lemma SummariesCons(b: Batch, rest: seq<Batch>)
    ensures Summaries([b] + rest) == [Summary(b)] + Summaries(rest)
  {
  }

  /**
   * The batches adapted from the controller state of `t`: each read the
   * concurrency the controller reaches over the batches before it, and the
   * run is left in the controller state of all of them.
   */
  predicate AdaptedFrom(t: Task, r: LoopEnd) {
    && SameControl(r.task, AdjustAll(t, Summaries(r.batches)))
    && forall j :: 0 <= j < |r.batches| ==> r.batches[j].concurrency == AdjustAll(t, Summaries(r.batches[..j])).concurrency
  }

  /**
   * Each batch read the concurrency of the record before it and left the
   * controller where `adjustConcurrency` puts it; `last` is in the
   * controller state the final batch left.
   */
  predicate Chained(t: Task, bs: seq<Batch>, last: Task)
    decreases |bs|
  {
    if |bs| == 0 then SameControl(last, t)
    else
      && bs[0].concurrency == t.concurrency
      && SameControl(bs[0].next, AdjustConcurrency(t, bs[0].success, bs[0].fail, bs[0].rateLimited))
      && Chained(bs[0].next, bs[1..], last)
  }

  /** The loop's batches are chained through `adjustConcurrency`. */
  lemma {:induction false} LoopChained(step: StepFn, total: nat, t: Task, index: nat, k: nat)
    requires index <= total
    requires ConcurrencyInBounds(t)
    requires StepMoves(step, total) && StepAdjusts(step, total)
    ensures var r := Loop(step, total, t, index, k);
      Chained(t, r.batches, r.task)
    decreases total - index
  {
    var r := Loop(step, total, t, index, k);
    if index < total && t.running {
      assert StepPre(t, index, total);
      var b := step(t, index, k);
      var rest := Loop(step, total, b.next, index + b.size, k + 1);
      assert r == LoopEnd(rest.task, [b] + rest.batches);
      assert r.batches[1..] == rest.batches;
      LoopChained(step, total, b.next, index + b.size, k + 1);
    }
  }

  /** Chained batches adapted from the first record's controller state. */
  lemma {:induction false} ChainedAdapts(t: Task, bs: seq<Batch>, last: Task)
    requires Chained(t, bs, last)
    ensures AdaptedFrom(t, LoopEnd(last, bs))
    decreases |bs|
  {
    if |bs| == 0 {
      assert Summaries(bs) == [];
    } else {
      assert bs == [bs[0]] + bs[1..];
      ChainedAdapts(bs[0].next, bs[1..], last);
      AdaptsFromFirst(t, bs[0], LoopEnd(last, bs[1..]));
    }
  }

  /** The loop adapts its concurrency as `adjustConcurrency` dictates. */
  lemma LoopAdapts(step: StepFn, total: nat, t: Task, index: nat, k: nat)
    requires index <= total
    requires ConcurrencyInBounds(t)
    requires StepMoves(step, total) && StepAdjusts(step, total)
    ensures AdaptedFrom(t, Loop(step, total, t, index, k))
  {
    var r := Loop(step, total, t, index, k);
    LoopChained(step, total, t, index, k);
    ChainedAdapts(t, r.batches, r.task);
    assert LoopEnd(r.task, r.batches) == r;
  }

  /**
   * The induction step of `LoopAdapts`: a first batch that adjusted the
   * controller, followed by batches that adapted from where it left it.
   */
  lemma AdaptsFromFirst(t: Task, b: Batch, rest: LoopEnd)
    requires b.concurrency == t.concurrency
    requires SameControl(b.next, AdjustConcurrency(t, b.success, b.fail, b.rateLimited))
    requires AdaptedFrom(b.next, rest)
    ensures AdaptedFrom(t, LoopEnd(rest.task, [b] + rest.batches))
  {
    var t1 := AdjustConcurrency(t, b.success, b.fail, b.rateLimited);
    var h := Summaries(rest.batches);
    var bs := [b] + rest.batches;
    SummariesCons(b, rest.batches);
    AdjustAllFirst(t, Summary(b), h);
    AdjustAllSameControl(b.next, t1, h);
    forall j | 0 <= j < |bs|
      ensures bs[j].concurrency == AdjustAll(t, Summaries(bs[..j])).concurrency
    {
      if j == 0 {
        assert Summaries(bs[..0]) == [];
      } else {
        AdaptsAt(t, b, rest.batches, j);
      }
    }
  }

  /** Batch j of `[b] + rest` reads the concurrency the controller reaches over the first j batches. */
  lemma AdaptsAt(t: Task, b: Batch, rest: seq<Batch>, j: nat)
    requires 0 < j <= |rest|
    requires SameControl(b.next, AdjustConcurrency(t, b.success, b.fail, b.rateLimited))
    requires rest[j - 1].concurrency == AdjustAll(b.next, Summaries(rest[..j - 1])).concurrency
    ensures ([b] + rest)[j].concurrency == AdjustAll(t, Summaries(([b] + rest)[..j])).concurrency
  {
    var t1 := AdjustConcurrency(t, b.success, b.fail, b.rateLimited);
    var h := Summaries(rest[..j - 1]);
    SummariesOfFirst(b, rest, j);
    AdjustAllFirst(t, Summary(b), h);
    AdjustAllSameControl(b.next, t1, h);
  }

  /**
   * Consecutive batches that each count their own cards count, between them,
   * the successes and failures of every card from `index` to where they end,
   * and push the error entries of all the failures in card order.
   */
  lemma {:induction false} BatchesCountTheirCards(bs: seq<Batch>, index: nat, c: int, cards: seq<Card>, settled: seq<Settled>)
    requires |settled| == |cards| && index <= |cards|
    requires Consecutive(index, c, bs)
    requires forall b | b in bs :: CountsItsCards(b, cards, settled)
    ensures index <= End(index, bs) <= |cards|
    ensures Successes(bs) == CountSuccesses(settled, index, End(index, bs))
    ensures Failures(bs) == (End(index, bs) - index) - Successes(bs)
    ensures BatchErrors(bs) == ErrorsFor(cards, settled, index, End(index, bs))
    decreases |bs|
  {
    if |bs| > 0 {
      var b := bs[0];
      var mid := b.start + b.size;
      assert b in bs;
      assert forall b' | b' in bs[1..] :: b' in bs;
      BatchesCountTheirCards(bs[1..], mid, b.next.concurrency, cards, settled);
      var e := End(mid, bs[1..]);
      CountSuccessesSplit(settled, index, mid, e);
      ErrorsForSplit(cards, settled, index, mid, e);
    }
  }

  /** How `runTask`'s set-up went: `db.getAIConfig()` and friends either answer or throw. */
  datatype Setup = SetupFailed | SetupOk(requestDelay: Option<int>)

  /** The `finally` block: the run is over, the label cleared, and progress forced to the total. */
  function Finish(t: Task): (r: Task)
    ensures !r.running && r.currentCard == "" && r.current == r.total
    ensures r.(running := t.running, currentCard := t.currentCard, current := t.current) == t
  {
    t.(running := false, currentCard := "", current := t.total)
  }

  /** A finished run: the final record, the batches, and how many times `notifyDataChange` ran. */
  datatype RunEnd = RunEnd(task: Task, batches: seq<Batch>, dataChangeNotices: nat)

  /** Positions of the batches with at least one success. */
  function SucceedingBatches(bs: seq<Batch>): set<nat> {
    set i: nat | i < |bs| && bs[i].success > 0
  }

  /** Batches that counted no success between them each counted none. */
  lemma {:induction false} NoSuccessAnywhere(bs: seq<Batch>)
    ensures Successes(bs) == 0 ==> SucceedingBatches(bs) == {}
    decreases |bs|
  {
    if |bs| > 0 {
      NoSuccessAnywhere(bs[1..]);
      if Successes(bs) == 0 {
        forall i: nat | i < |bs|
          ensures bs[i].success == 0
        {
          if i > 0 {
            assert (i - 1) !in SucceedingBatches(bs[1..]);
            assert bs[i] == bs[1..][i - 1];
          }
        }
      }
    }
  }

  /**
   * `notifyDataChange()` runs once after each batch with a success, and once
   * more in `finally`.
   */
  function Notices(bs: seq<Batch>): (n: nat)
    ensures n == 1 + |SucceedingBatches(bs)|
    ensures Successes(bs) == 0 ==> n == 1
    decreases |bs|
  {
    if |bs| == 0 then 1
    else
      var init := bs[..|bs| - 1];
      var last := |bs| - 1;
      NoSuccessAnywhere(bs);
      assert SucceedingBatches(bs) == SucceedingBatches(init) + (if bs[last].success > 0 then {last} else {});
      Notices(init) + (if bs[last].success > 0 then 1 else 0)
  }

  /**
   * The loop `runTask` runs: nothing if the set-up threw, otherwise the batch
   * loop from card 0 on the record as the set-up left it (stopped if `stop()`
   * ran during the set-up).
   */
  function RunLoop(t: Task, cards: seq<Card>, settled: seq<Settled>, setup: Setup, stop: Option<nat>): (r: LoopEnd)
    requires |settled| == |cards|
    requires ConcurrencyInBounds(t)
    ensures End(0, r.batches) <= |cards|
    ensures r.task.total == t.total
  {
    var t0 := if stop == Some(0) then StopTask(t) else t;
    match setup
    case SetupFailed => LoopEnd(t0, [])
    case SetupOk(requestDelay) =>
      var step := StepOf(cards, settled, BaseDelay(requestDelay), stop);
      StepOfCounts(cards, settled, BaseDelay(requestDelay), stop);
      LoopAdvances(step, |cards|, t0, 0, 0);
      Loop(step, |cards|, t0, 0, 0)
  }

  /**
   * `runTask(config, cards)` on the record `start` created. A set-up error is
   * only logged; either way the `finally` block ends the run with progress at
   * the total.
   */
  function RunTask(t: Task, cards: seq<Card>, settled: seq<Settled>, setup: Setup, stop: Option<nat>): (r: RunEnd)
    requires |settled| == |cards|
    requires ConcurrencyInBounds(t)
    ensures !r.task.running && r.task.currentCard == "" && r.task.current == r.task.total
    ensures r.task.total == t.total
    ensures setup == SetupFailed ==> r.batches == [] && r.task.errors == t.errors
  {
    var loop := RunLoop(t, cards, settled, setup, stop);
    RunEnd(Finish(loop.task), loop.batches, Notices(loop.batches))
  }

  /**
   * Every dispatched card is counted once: the successes are those among its
   * results, the others are failures with their error entries pushed in card
   * order. Without `stop()` and with a working set-up, every card is
   * dispatched.
   */
  lemma RunTaskCountsEveryCard(t: Task, cards: seq<Card>, settled: seq<Settled>, setup: Setup, stop: Option<nat>)
    requires |settled| == |cards|
    requires ConcurrencyInBounds(t)
    ensures var r := RunTask(t, cards, settled, setup, stop);
      var e := End(0, r.batches);
      && r.task.successCount == t.successCount + CountSuccesses(settled, 0, e)
      && r.task.failCount == t.failCount + e - CountSuccesses(settled, 0, e)
      && r.task.errors == t.errors + ErrorsFor(cards, settled, 0, e)
      && (setup.SetupOk? && stop == None && t.running ==> e == |cards|)
  {
    var r := RunTask(t, cards, settled, setup, stop);
    var t0 := if stop == Some(0) then StopTask(t) else t;
    if setup.SetupOk? {
      var step := StepOf(cards, settled, BaseDelay(setup.requestDelay), stop);
      StepOfCounts(cards, settled, BaseDelay(setup.requestDelay), stop);
      StepOfStops(cards, settled, BaseDelay(setup.requestDelay), stop);
      StepOfBatches(cards, settled, BaseDelay(setup.requestDelay), stop);
      var loop := Loop(step, |cards|, t0, 0, 0);
      assert r.batches == loop.batches && r.task == Finish(loop.task);
      LoopAddsCounts(step, |cards|, t0, 0, 0);
      LoopRecordsErrors(step, |cards|, t0, 0, 0);
      LoopBatchesAreSlices(step, |cards|, t0, 0, 0);
      LoopEveryBatch(step, |cards|, t0, 0, 0, b => CountsItsCards(b, cards, settled));
      BatchesCountTheirCards(loop.batches, 0, t0.concurrency, cards, settled);
      if stop == None && t.running {
        LoopRunsToEnd(step, |cards|, t, 0, 0);
      }
    }
  }

  /**
   * The batches are consecutive slices from card 0, each of `concurrency`
   * cards (fewer only at the end) with the concurrency in [1, 5], each
   * followed by the wait `calculateDelay` gives exactly when cards remain and
   * the run is still running. A batch is throttled exactly when one of its
   * cards' results says so, and its concurrency is the one
   * `adjustConcurrency` reaches over the batches before it; the run ends in
   * the controller state of all of them.
   */
  lemma RunTaskBatches(t: Task, cards: seq<Card>, settled: seq<Settled>, setup: Setup, stop: Option<nat>)
    requires |settled| == |cards|
    requires ConcurrencyInBounds(t)
    requires setup.SetupOk?
    ensures var r := RunTask(t, cards, settled, setup, stop);
      && Consecutive(0, t.concurrency, r.batches)
      && (forall b | b in r.batches ::
           ValidBatch(b, |cards|) && DelayRule(b, |cards|, BaseDelay(setup.requestDelay))
           && ThrottledByItsResults(b, settled))
      && (forall j :: 0 <= j < |r.batches| ==> r.batches[j].concurrency == AdjustAll(t, Summaries(r.batches[..j])).concurrency)
      && SameControl(r.task, AdjustAll(t, Summaries(r.batches)))
  {
    var base := BaseDelay(setup.requestDelay);
    var step := StepOf(cards, settled, base, stop);
    StepOfAdjusts(cards, settled, base, stop);
    StepOfBatches(cards, settled, base, stop);
    var t0 := if stop == Some(0) then StopTask(t) else t;
    var r := RunTask(t, cards, settled, setup, stop);
    assert r.batches == Loop(step, |cards|, t0, 0, 0).batches;
    LoopBatchesAreSlices(step, |cards|, t0, 0, 0);
    LoopEveryBatch(step, |cards|, t0, 0, 0,
                   b => ValidBatch(b, |cards|) && DelayRule(b, |cards|, base) && ThrottledByItsResults(b, settled));
    LoopAdapts(step, |cards|, t0, 0, 0);
    assert AdaptedFrom(t0, Loop(step, |cards|, t0, 0, 0));
    AdjustAllSameControl(t0, t, Summaries(r.batches));
    forall j | 0 <= j < |r.batches|
      ensures r.batches[j].concurrency == AdjustAll(t, Summaries(r.batches[..j])).concurrency
    {
      AdjustAllSameControl(t0, t, Summaries(r.batches[..j]));
    }
  }

  /** A `stop()` in phase p leaves at most (p + 1) / 2 batches run; one during the set-up leaves none. */
  lemma RunTaskHonoursStop(t: Task, cards: seq<Card>, settled: seq<Settled>, setup: Setup, p: nat)
    requires |settled| == |cards|
    requires ConcurrencyInBounds(t)
    ensures 2 * |RunTask(t, cards, settled, setup, Some(p)).batches| <= p + 1
    ensures p == 0 ==> RunTask(t, cards, settled, setup, Some(p)).batches == []
  {
    if setup.SetupOk? && p > 0 {
      var step := StepOf(cards, settled, BaseDelay(setup.requestDelay), Some(p));
      StepOfStops(cards, settled, BaseDelay(setup.requestDelay), Some(p));
      LoopHonoursStop(step, |cards|, Some(p), t, 0, 0);
    }
  }
}

=== FILE: card_routes.dfy ===
/**
 * The response shaping of the card routes (routes/card.js): tag rows grouped
 * per card, cards grouped into `menuId_subMenuId` buckets for `GET /`, the
 * menu-id fallback of `GET /:menuId`, and the input check of
 * `PATCH /batch-update`. The two SQL queries are inputs: the card rows in
 * query order, and the tag rows the second query returns for their ids.
 */
module CardRoutes {
  import opened Wrappers
  import opened Strings
  import opened Grouping

  /** A tag as it appears in a card's `tags` array. */
  datatype Tag = Tag(id: int, name: string, color: string)

  /** A row of the tag query: the card it belongs to and the tag. */
  datatype TagRow = TagRow(cardId: int, tag: Tag)

  /**
   * A card row: `menu_id`, `sub_menu_id` and the joined `parent_menu_id`
   * (`None` for SQL NULL), and the remaining columns, passed through as is.
   */
  datatype CardRow = CardRow(id: int, menuId: Option<int>, subMenuId: Option<int>,
                             parentMenuId: Option<int>, columns: seq<(string, string)>)

  /** A card as sent back: the row with `menu_id` replaced and `tags` added. */
  datatype ShapedCard = ShapedCard(row: CardRow, menuId: Option<int>, tags: seq<Tag>)

  /** JavaScript truthiness of a nullable number: present and not 0. */
  predicate TruthyId(o: Option<int>) {
    o.Some? && o.value != 0
  }

  /** `a || b` on nullable numbers. */
  function OrId(a: Option<int>, b: Option<int>): (r: Option<int>)
    ensures TruthyId(a) ==> r == a
    ensures !TruthyId(a) ==> r == b
  {
    if TruthyId(a) then a else b
  }

  /** The (card id, tag) pairs of the tag rows, in row order. */
  function TagPairs(rows: seq<TagRow>): (kvs: seq<(int, Tag)>)
    ensures |kvs| == |rows|
    ensures forall i :: 0 <= i < |rows| ==> kvs[i] == (rows[i].cardId, rows[i].tag)
  {
    seq(|rows|, i requires 0 <= i < |rows| => (rows[i].cardId, rows[i].tag))
  }

  /** `tagsByCard`: the `forEach` over the tag rows. */
  function TagsByCard(rows: seq<TagRow>): seq<Group<int, Tag>> {
    GroupBy(TagPairs(rows))
  }

  /** The tags of card `id` in row order: the reference for `tagsByCard[id] || []`. */
  function TagsOf(rows: seq<TagRow>, id: int): (r: seq<Tag>)
    ensures |r| <= |rows|
    decreases |rows|
  {
    if |rows| == 0 then []
    else TagsOf(rows[..|rows| - 1], id) + (if rows[|rows| - 1].cardId == id then [rows[|rows| - 1].tag] else [])
  }

  lemma {:induction false} TagsOfIsValuesFor(rows: seq<TagRow>, id: int)
    ensures TagsOf(rows, id) == ValuesFor(TagPairs(rows), id)
    decreases |rows|
  {
    if |rows| > 0 {
      var n := |rows| - 1;
      assert TagPairs(rows)[..n] == TagPairs(rows[..n]);
      TagsOfIsValuesFor(rows[..n], id);
    }
  }

  /**
   * `tagsByCard[id] || []` is exactly the tags of the rows for card `id`, in
   * row order: every row lands in its card's list and only there, and a card
   * without rows gets the empty list.
   */
  lemma TagsByCardSpec(rows: seq<TagRow>, id: int)
    ensures Lookup(TagsByCard(rows), id) == TagsOf(rows, id)
    ensures DistinctKeys(TagsByCard(rows)) && TotalSize(TagsByCard(rows)) == |rows|
    ensures (forall j :: 0 <= j < |rows| ==> rows[j].cardId != id) ==> Lookup(TagsByCard(rows), id) == []
  {
    GroupBySpec(TagPairs(rows));
    TagsOfIsValuesFor(rows, id);
    if forall j :: 0 <= j < |rows| ==> rows[j].cardId != id {
      ValuesForAbsent(TagPairs(rows), id);
    }
  }

  /** `card.menu_id || card.parent_menu_id` */
  function EffectiveMenuId(c: CardRow): (m: Option<int>)
    ensures TruthyId(c.menuId) ==> m == c.menuId
    ensures !TruthyId(c.menuId) ==> m == c.parentMenuId
  {
    OrId(c.menuId, c.parentMenuId)
  }

  /** `${v}` for a nullable number. */
  function IdText(o: Option<int>): string {
    if o.Some? then IntToString(o.value) else "null"
  }

  /** `${menuId}_${card.sub_menu_id || 'null'}` */
  function BucketKey(c: CardRow): string {
    IdText(EffectiveMenuId(c)) + "_" + (if TruthyId(c.subMenuId) then IntToString(c.subMenuId.value) else "null")
  }

  /** What `GET /` pushes for a card. */
  function ShapeForAll(c: CardRow, tagRows: seq<TagRow>): (s: ShapedCard)
    ensures s.row == c && s.menuId == EffectiveMenuId(c)
  {
    ShapedCard(c, EffectiveMenuId(c), Lookup(TagsByCard(tagRows), c.id))
  }

  /** The (bucket key, shaped card) pairs, in query order. */
  function BucketPairs(cards: seq<CardRow>, tagRows: seq<TagRow>): (kvs: seq<(string, ShapedCard)>)
    ensures |kvs| == |cards|
    ensures forall i :: 0 <= i < |cards| ==> kvs[i] == (BucketKey(cards[i]), ShapeForAll(cards[i], tagRows))
  {
    seq(|cards|, i requires 0 <= i < |cards| => (BucketKey(cards[i]), ShapeForAll(cards[i], tagRows)))
  }

  /** The body of `GET /`: `{ cards: [], cardsByCategory: {} }`, or `{ cardsByCategory }`. */
  datatype AllBody = NoCards | ByCategory(cardsByCategory: seq<Group<string, ShapedCard>>)

  /** The answer of `GET /`, and the ids the tag query ran with (`None` when it did not run). */
  datatype AllResponse = AllResponse(tagQueryIds: Option<seq<int>>, body: AllBody)

  /** The ids of the card rows, in query order: the parameters of the tag query. */
  function Ids(cards: seq<CardRow>): (ids: seq<int>)
    ensures |ids| == |cards| && forall i :: 0 <= i < |cards| ==> ids[i] == cards[i].id
  {
    seq(|cards|, i requires 0 <= i < |cards| => cards[i].id)
  }

  /**
   * `GET /`: no card rows answers `{ cards: [], cardsByCategory: {} }`
   * without the tag query; otherwise the tag query runs over the card ids and
   * the cards are bucketed.
   */
  function ListAll(cards: seq<CardRow>, tagRows: seq<TagRow>): (r: AllResponse)
    ensures |cards| == 0 <==> r.tagQueryIds.None?
    ensures |cards| == 0 <==> r.body == NoCards
    ensures |cards| > 0 ==> r.tagQueryIds == Some(Ids(cards))
  {
    if |cards| == 0 then AllResponse(None, NoCards)
    else AllResponse(Some(Ids(cards)), ByCategory(GroupBy(BucketPairs(cards, tagRows))))
  }

  /**
   * Every card row lands in the bucket of its key, and only there: the
   * buckets have distinct keys, bucket `k` holds the cards with key `k` in
   * query order, and the bucket sizes add up to the number of rows. Each
   * shaped card carries its effective menu id and its own tags.
   */
  lemma {:induction false} ListAllBuckets(cards: seq<CardRow>, tagRows: seq<TagRow>, i: nat)
    requires i < |cards|
    ensures var gs := ListAll(cards, tagRows).body.cardsByCategory;
      && DistinctKeys(gs)
      && TotalSize(gs) == |cards|
      && (forall k :: Lookup(gs, k) == ValuesFor(BucketPairs(cards, tagRows), k))
      && ShapeForAll(cards[i], tagRows) in Lookup(gs, BucketKey(cards[i]))
      && ShapeForAll(cards[i], tagRows).tags == TagsOf(tagRows, cards[i].id)
  {
    var kvs := BucketPairs(cards, tagRows);
    GroupBySpec(kvs);
    ValuesForHasRow(kvs, i);
    TagsByCardSpec(tagRows, cards[i].id);
  }

  /** What `GET /:menuId` answers for a card: `menu_id || parent_menu_id || parseInt(menuId)`. */
  function ShapeForMenu(c: CardRow, tagRows: seq<TagRow>, parsedMenuId: Option<int>): (s: ShapedCard)
    ensures s.row == c
    ensures TruthyId(c.menuId) ==> s.menuId == c.menuId
    ensures !TruthyId(c.menuId) && TruthyId(c.parentMenuId) ==> s.menuId == c.parentMenuId
    ensures !TruthyId(c.menuId) && !TruthyId(c.parentMenuId) ==> s.menuId == parsedMenuId
  {
    ShapedCard(c, OrId(OrId(c.menuId, c.parentMenuId), parsedMenuId), Lookup(TagsByCard(tagRows), c.id))
  }

  /** The answer of `GET /:menuId`, and whether the tag query ran. */
  datatype MenuResponse = MenuResponse(tagQueryIds: Option<seq<int>>, cards: seq<ShapedCard>)

  /**
   * `GET /:menuId`: `[]` without the tag query when there are no rows;
   * otherwise every row, in query order, shaped. `parsedMenuId` is
   * `parseInt` of the path parameter (`None` for NaN).
   */
  function ListMenu(cards: seq<CardRow>, tagRows: seq<TagRow>, parsedMenuId: Option<int>): (r: MenuResponse)
    ensures |cards| == 0 <==> r.tagQueryIds.None?
    ensures |r.cards| == |cards|
    ensures forall i :: 0 <= i < |cards| ==> r.cards[i] == ShapeForMenu(cards[i], tagRows, parsedMenuId)
  {
    if |cards| == 0 then MenuResponse(None, [])
    else MenuResponse(Some(Ids(cards)), seq(|cards|, i requires 0 <= i < |cards| => ShapeForMenu(cards[i], tagRows, parsedMenuId)))
  }

  /** Each card of `GET /:menuId` carries its own tags in row order, and a menu id whenever one is known. */
  lemma ListMenuCards(cards: seq<CardRow>, tagRows: seq<TagRow>, parsedMenuId: Option<int>, i: nat)
    requires i < |cards|
    ensures var s := ListMenu(cards, tagRows, parsedMenuId).cards[i];
      && s.tags == TagsOf(tagRows, cards[i].id)
      && (TruthyId(cards[i].menuId) || TruthyId(cards[i].parentMenuId) || TruthyId(parsedMenuId) ==> TruthyId(s.menuId))
  {
    TagsByCardSpec(tagRows, cards[i].id);
  }

  /** The `cards` field of the `PATCH /batch-update` body. */
  datatype CardsField<T> = NotAnArray | AnArray(items: seq<T>)

  /** Message of the 400 answer ("invalid request data"). */
  const InvalidRequest := "无效的请求数据"

  /** The outcome of the input check: a 400 before the database is touched, or the items to update. */
  datatype BatchCheck<T> = BadRequest(status: int, error: string) | Proceed(items: seq<T>)

  /** `if (!Array.isArray(cards) || cards.length === 0) return res.status(400)...` */
  function CheckBatchUpdate<T>(cards: CardsField<T>): (r: BatchCheck<T>)
    ensures r.BadRequest? <==> cards.NotAnArray? || |cards.items| == 0
    ensures r.BadRequest? ==> r.status == 400 && r.error == InvalidRequest
    ensures r.Proceed? ==> r.items == cards.items && |r.items| > 0
  {
    match cards
    case NotAnArray => BadRequest(400, InvalidRequest)
    case AnArray(items) => if |items| == 0 then BadRequest(400, InvalidRequest) else Proceed(items)
  }
}

=== FILE: cleaners.dfy ===
/**
 * `cleanName` and `cleanDescription` (routes/ai.js): the normalisation
 * applied to a generated name or description before it is compared with
 * the card's current value and stored.
 */
module Cleaners {
  import opened Wrappers
  import opened Arith
  import opened Strings

  /** Longest name kept, in UTF-16 code units. */
  const NameLimit: nat := 20
  /** Longest description kept, in UTF-16 code units. */
  const DescriptionLimit: nat := 80

  /** The brand suffixes ("official site", "home page", "official website") a name loses. */
  predicate HasBrandSuffix(s: string) {
    EndsWith(s, "官网") || EndsWith(s, "首页") || EndsWith(s, "官方网站")
  }

  /**
   * `.replace(/(官网|首页|官方网站)$/g, '')`. The three alternatives end in
   * different characters, so at most one of them ends the string and it is
   * removed once.
   */
  function StripBrandSuffix(s: string): (r: string)
    ensures |r| <= |s| && r == s[..|r|]
    ensures !HasBrandSuffix(s) <==> r == s
  {
    if EndsWith(s, "官网") then s[..|s| - 2]
    else if EndsWith(s, "首页") then s[..|s| - 2]
    else if EndsWith(s, "官方网站") then s[..|s| - 4]
    else s
  }

  /** `.replace(/[。.]+$/, '')`: the whole trailing run of full stops goes. */
  predicate IsStop(c: char) {
    c == '.' || c == '。'
  }

  function StripTrailingStops(s: string): (r: string)
    ensures |r| <= |s| && r == s[..|r|]
    ensures |r| > 0 ==> !IsStop(r[|r| - 1])
    ensures forall i :: |r| <= i < |s| ==> IsStop(s[i])
  {
    if |s| > 0 && IsStop(s[|s| - 1]) then StripTrailingStops(s[..|s| - 1]) else s
  }

  /**
   * `cleanName(t)`: strip one brand suffix, trim, keep the first 20 code
   * units. The result is a piece of the reply, never longer than 20 code
   * units, and never starts with white space.
   */
  function CleanName(t: Option<string>): (r: string)
    ensures Utf16Length(r) <= NameLimit
    ensures Contains(OrElse(t, ""), r)
    ensures |r| > 0 ==> !IsSpace(r[0])
    ensures t == None ==> r == ""
  {
    match t
    case None =>
      ContainsSelf("");
      ""
    case Some(s) =>
      NamePiece(s);
      TakeUnits(Trim(StripBrandSuffix(s)), NameLimit)
  }

  lemma NamePiece(s: string)
    ensures var r := TakeUnits(Trim(StripBrandSuffix(s)), NameLimit);
      Contains(s, r) && (|r| > 0 ==> !IsSpace(r[0]))
  {
    var stripped := StripBrandSuffix(s);
    var trimmed := Trim(stripped);
    var r := TakeUnits(trimmed, NameLimit);
    assert Contains(s, r) by {
      ContainsPrefix(s, |stripped|);
      ContainsPrefix(trimmed, |r|);
      ContainsTransitive(s, stripped, trimmed);
      ContainsTransitive(s, trimmed, r);
    }
    assert |r| > 0 ==> r[0] == trimmed[0];
  }

  /**
   * `cleanDescription(t)`: trim, drop the trailing full stops, keep the first
   * 80 code units. The result is a piece of the reply, at most 80 code units,
   * and ends in a full stop only if the text was cut at the limit, which
   * leaves at least 79 code units.
   */
  function CleanDescription(t: Option<string>): (r: string)
    ensures Utf16Length(r) <= DescriptionLimit
    ensures Contains(OrElse(t, ""), r)
    ensures |r| > 0 ==> !IsSpace(r[0])
    ensures |r| > 0 && IsStop(r[|r| - 1]) ==> Utf16Length(r) >= DescriptionLimit - 1
    ensures t == None ==> r == ""
  {
    match t
    case None =>
      ContainsSelf("");
      ""
    case Some(s) =>
      DescriptionPiece(s);
      TakeUnits(StripTrailingStops(Trim(s)), DescriptionLimit)
  }

  lemma DescriptionPiece(s: string)
    ensures var r := TakeUnits(StripTrailingStops(Trim(s)), DescriptionLimit);
      && Contains(s, r)
      && (|r| > 0 ==> !IsSpace(r[0]))
      && (|r| > 0 && IsStop(r[|r| - 1]) ==> Utf16Length(r) >= DescriptionLimit - 1)
  {
    var trimmed := Trim(s);
    var stripped := StripTrailingStops(trimmed);
    DescriptionIsPiece(s, trimmed, stripped);
    DescriptionEnds(trimmed, stripped);
  }

  lemma DescriptionIsPiece(s: string, trimmed: string, stripped: string)
    requires Contains(s, trimmed) && |stripped| <= |trimmed| && stripped == trimmed[..|stripped|]
    ensures Contains(s, TakeUnits(stripped, DescriptionLimit))
  {
    var r := TakeUnits(stripped, DescriptionLimit);
    ContainsPrefix(trimmed, |stripped|);
    ContainsPrefix(stripped, |r|);
    ContainsTransitive(s, trimmed, stripped);
    ContainsTransitive(s, stripped, r);
  }

  lemma DescriptionEnds(trimmed: string, stripped: string)
    requires |trimmed| > 0 ==> !IsSpace(trimmed[0])
    requires |stripped| <= |trimmed| && stripped == trimmed[..|stripped|]
    requires |stripped| > 0 ==> !IsStop(stripped[|stripped| - 1])
    ensures var r := TakeUnits(stripped, DescriptionLimit);
      && (|r| > 0 ==> !IsSpace(r[0]))
      && (|r| > 0 && IsStop(r[|r| - 1]) ==> Utf16Length(r) >= DescriptionLimit - 1)
  {
    var r := TakeUnits(stripped, DescriptionLimit);
    assert |r| > 0 ==> r[0] == stripped[0] == trimmed[0];
    if |r| > 0 && IsStop(r[|r| - 1]) {
      assert r[|r| - 1] == stripped[|r| - 1];
      assert |r| < |stripped|;
      assert Units(stripped[|r|]) <= 2;
    }
  }

  /** A name that is already clean passes through `cleanName` unchanged. */
  lemma CleanNameFixpoint(s: string)
    requires Utf16Length(s) <= NameLimit
    requires |s| > 0 ==> !IsSpace(s[0]) && !IsSpace(s[|s| - 1])
    requires !HasBrandSuffix(s)
    ensures CleanName(Some(s)) == s
  {
    TrimTrimmed(s);
  }

  /**
   * Appending a brand suffix to a clean name is undone by `cleanName`:
   * "GitHub官网" becomes "GitHub".
   */
  lemma CleanNameDropsBrandSuffix(s: string, suffix: string)
    requires suffix == "官网" || suffix == "首页" || suffix == "官方网站"
    requires Utf16Length(s) <= NameLimit
    requires |s| > 0 ==> !IsSpace(s[0]) && !IsSpace(s[|s| - 1])
    ensures CleanName(Some(s + suffix)) == s
  {
    StripBrandSuffixOf(s, suffix);
    TrimTrimmed(s);
    assert TakeUnits(Trim(StripBrandSuffix(s + suffix)), NameLimit) == s;
  }

  /**
   * White space around a reply is trimmed away: a padded reply cleans to
   * what the text inside the padding cleans to, and a clean name of at most
   * 20 code units comes back as it is (" GitHub\n" becomes "GitHub").
   */
  lemma CleanNameTrims(p: string, s: string, q: string)
    requires AllSpace(p) && AllSpace(q)
    requires |s| > 0 ==> !IsSpace(s[0]) && !IsSpace(s[|s| - 1])
    requires !HasBrandSuffix(s)
    ensures CleanName(Some(p + s + q)) == CleanName(Some(s))
    ensures Utf16Length(s) <= NameLimit ==> CleanName(Some(p + s + q)) == s
  {
    BrandSuffixThroughPadding(p, s, q);
    TrimPadded(p, s, q);
    TrimTrimmed(s);
    if Utf16Length(s) <= NameLimit {
      CleanNameFixpoint(s);
    }
  }

  /**
   * A longer name without characters above U+FFFF is cut to its first 20
   * characters, which are its first 20 code units.
   */
  lemma CleanNameCuts(s: string)
    requires forall i :: 0 <= i < |s| ==> s[i] as int <= 0xFFFF
    requires |s| > 0 ==> !IsSpace(s[0]) && !IsSpace(s[|s| - 1])
    requires !HasBrandSuffix(s)
    ensures CleanName(Some(s)) == s[..Min(|s|, NameLimit)]
  {
    TrimTrimmed(s);
    TakeUnitsBmp(s, NameLimit);
  }

  /** A brand suffix of a padded reply is one of the text inside the padding. */
  lemma BrandSuffixThroughPadding(p: string, s: string, q: string)
    requires AllSpace(p) && AllSpace(q)
    ensures HasBrandSuffix(p + s + q) ==> HasBrandSuffix(s)
  {
    var t := p + s + q;
    if EndsWith(t, "官网") {
      EndsWithThroughPadding(p, s, q, "官网");
    }
    if EndsWith(t, "首页") {
      EndsWithThroughPadding(p, s, q, "首页");
    }
    if EndsWith(t, "官方网站") {
      EndsWithThroughPadding(p, s, q, "官方网站");
    }
  }

  /** A suffix without white space in it cannot reach into the padding. */
  lemma EndsWithThroughPadding(p: string, s: string, q: string, suffix: string)
    requires AllSpace(p) && AllSpace(q)
    requires |suffix| > 0 && forall i :: 0 <= i < |suffix| ==> !IsSpace(suffix[i])
    requires EndsWith(p + s + q, suffix)
    ensures EndsWith(s, suffix)
  {
    var t := p + s + q;
    var k := |suffix|;
    forall i | 0 <= i < |p|
      ensures IsSpace(t[i])
    {
      assert t[i] == p[i];
    }
    forall i | |p| + |s| <= i < |t|
      ensures IsSpace(t[i])
    {
      assert t[i] == q[i - |p| - |s|];
    }
    assert t[|t| - 1] == suffix[k - 1];
    assert t[|t| - k] == suffix[0];
    assert |q| == 0;
    assert k <= |s|;
    assert s[|s| - k..] == t[|t| - k..];
  }

  /**
   * A name made only of characters above U+FFFF, such as emoji, keeps 10 of
   * them: each counts as two code units towards the limit of 20.
   */
  lemma CleanNameCountsCodeUnits(s: string)
    requires |s| >= NameLimit / 2
    requires forall i :: 0 <= i < |s| ==> s[i] as int > 0xFFFF
    ensures CleanName(Some(s)) == s[..NameLimit / 2]
  {
    var half := NameLimit / 2;
    assert half == 10;
    AstralIsClean(s);
    assert CleanName(Some(s)) == TakeUnits(s, NameLimit);
    TakeUnitsAstral(s, NameLimit);
    var r := Take(s, half);
    assert |r| == half;
  }

  /** Brand suffixes and white space are below U+FFFF, so text above it has neither at its ends. */
  lemma AstralIsClean(s: string)
    requires |s| > 0
    requires forall i :: 0 <= i < |s| ==> s[i] as int > 0xFFFF
    ensures StripBrandSuffix(s) == s && Trim(s) == s
  {
    var last := s[|s| - 1];
    assert last as int > 0xFFFF;
    assert |s| >= 2 ==> s[|s| - 2..][1] == last;
    assert |s| >= 4 ==> s[|s| - 4..][3] == last;
    assert !HasBrandSuffix(s);
    assert s[0] as int > 0xFFFF;
    TrimTrimmed(s);
  }

  lemma StripBrandSuffixOf(s: string, suffix: string)
    requires suffix == "官网" || suffix == "首页" || suffix == "官方网站"
    ensures StripBrandSuffix(s + suffix) == s
  {
    var t := s + suffix;
    assert t[..|s|] == s;
    assert t[|t| - |suffix|..] == suffix;
    if suffix == "官方网站" {
      assert t[|t| - 2..] == "网站";
      assert !EndsWith(t, "官网") && !EndsWith(t, "首页");
    } else if suffix == "首页" {
      assert t[|t| - 2..] == "首页";
      assert !EndsWith(t, "官网");
    }
  }

  /** A clean description passes through `cleanDescription` unchanged. */
  lemma CleanDescriptionFixpoint(s: string)
    requires Utf16Length(s) <= DescriptionLimit
    requires |s| > 0 ==> !IsSpace(s[0]) && !IsSpace(s[|s| - 1]) && !IsStop(s[|s| - 1])
    ensures CleanDescription(Some(s)) == s
  {
    TrimTrimmed(s);
  }

  /**
   * White space around a reply is trimmed away: a padded reply cleans to
   * what the text inside the padding cleans to, and a clean description of
   * at most 80 code units comes back as it is.
   */
  lemma CleanDescriptionTrims(p: string, s: string, q: string)
    requires AllSpace(p) && AllSpace(q)
    requires |s| > 0 ==> !IsSpace(s[0]) && !IsSpace(s[|s| - 1])
    ensures CleanDescription(Some(p + s + q)) == CleanDescription(Some(s))
    ensures Utf16Length(s) <= DescriptionLimit && (|s| > 0 ==> !IsStop(s[|s| - 1])) ==>
      CleanDescription(Some(p + s + q)) == s
  {
    TrimPadded(p, s, q);
    TrimTrimmed(s);
    if Utf16Length(s) <= DescriptionLimit && (|s| > 0 ==> !IsStop(s[|s| - 1])) {
      CleanDescriptionFixpoint(s);
    }
  }

  /**
   * A longer description without characters above U+FFFF and without a
   * final full stop is cut to its first 80 characters.
   */
  lemma CleanDescriptionCuts(s: string)
    requires forall i :: 0 <= i < |s| ==> s[i] as int <= 0xFFFF
    requires |s| > 0 ==> !IsSpace(s[0]) && !IsSpace(s[|s| - 1]) && !IsStop(s[|s| - 1])
    ensures CleanDescription(Some(s)) == s[..Min(|s|, DescriptionLimit)]
  {
    TrimTrimmed(s);
    assert StripTrailingStops(s) == s;
    TakeUnitsBmp(s, DescriptionLimit);
  }

  /** Any run of trailing full stops after a clean description is removed. */
  lemma {:induction false} CleanDescriptionDropsStops(s: string, stops: string)
    requires Utf16Length(s) <= DescriptionLimit
    requires |s| > 0 && !IsSpace(s[0]) && !IsSpace(s[|s| - 1]) && !IsStop(s[|s| - 1])
    requires forall i :: 0 <= i < |stops| ==> IsStop(stops[i])
    ensures CleanDescription(Some(s + stops)) == s
  {
    var t := s + stops;
    assert t[0] == s[0];
    assert !IsSpace(t[|t| - 1]) by {
      if |stops| > 0 {
        assert t[|t| - 1] == stops[|stops| - 1];
      }
    }
    TrimTrimmed(t);
    StripStopsSuffix(s, stops);
    assert StripTrailingStops(Trim(t)) == s;
  }

  lemma {:induction false} StripStopsSuffix(s: string, stops: string)
    requires |s| > 0 && !IsStop(s[|s| - 1])
    requires forall i :: 0 <= i < |stops| ==> IsStop(stops[i])
    ensures StripTrailingStops(s + stops) == s
    decreases |stops|
  {
    if |stops| == 0 {
      assert s + stops == s;
    } else {
      var t := s + stops;
      assert t[..|t| - 1] == s + stops[..|stops| - 1];
      StripStopsSuffix(s, stops[..|stops| - 1]);
    }
  }
}

=== FILE: controller.dfy ===
/**
 * The adaptive-concurrency controller of `BatchTaskManager`
 * (`adjustConcurrency`, `calculateDelay`, and the base delay read in
 * `runTask`, routes/ai.js). A rate-limited batch halves the concurrency;
 * three clean batches in a row raise it by one; it stays within [1, 5].
 */
module Controller {
  import opened Wrappers
  import opened Arith
  import opened TaskState

  /** Ceiling of the rate-limited back-off, in milliseconds. */
  const MaxDelayMs: int := 30000
  /** Floor of the paced delay when more than one card runs at once. */
  const MinPacedDelayMs: int := 300
  /** Lower bound of the configured base delay. */
  const MinBaseDelayMs: int := 500
  /** Base delay when none (or 0) is configured. */
  const DefaultBaseDelayMs: int := 1500
  /** Clean batches needed before the concurrency grows. */
  const StreakToGrow: nat := 3
  /** The exponent of the back-off stops growing after this many rate limits. */
  const MaxBackoffExponent: nat := 4

  /** A batch with at least one success, no failure and no rate limit. */
  predicate IsClean(success: nat, fail: nat, rateLimited: bool) {
    !rateLimited && success > 0 && fail == 0
  }

  /** The fields `adjustConcurrency` may write. */
  predicate OnlyControlFieldsChange(t: Task, r: Task) {
    r.(concurrency := t.concurrency, consecutiveSuccesses := t.consecutiveSuccesses,
       isRateLimited := t.isRateLimited, rateLimitCount := t.rateLimitCount) == t
  }

  function AdjustConcurrency(t: Task, success: nat, fail: nat, rateLimited: bool): (r: Task)
    ensures OnlyControlFieldsChange(t, r)
    ensures r.rateLimitCount == t.rateLimitCount + (if rateLimited then 1 else 0)
    ensures rateLimited ==>
      r.isRateLimited && r.consecutiveSuccesses == 0 && r.concurrency == Max(MinConcurrency, t.concurrency / 2)
    ensures IsClean(success, fail, rateLimited) ==> !r.isRateLimited
    ensures IsClean(success, fail, rateLimited) && t.consecutiveSuccesses + 1 >= StreakToGrow && t.concurrency < MaxConcurrency ==>
      r.concurrency == t.concurrency + 1 && r.consecutiveSuccesses == 0
    ensures IsClean(success, fail, rateLimited) && !(t.consecutiveSuccesses + 1 >= StreakToGrow && t.concurrency < MaxConcurrency) ==>
      r.concurrency == t.concurrency && r.consecutiveSuccesses == t.consecutiveSuccesses + 1
    ensures !rateLimited && !IsClean(success, fail, rateLimited) ==>
      r == t.(consecutiveSuccesses := 0)
    ensures ConcurrencyInBounds(t) ==> ConcurrencyInBounds(r)
  {
    if rateLimited then
      t.(rateLimitCount := t.rateLimitCount + 1, consecutiveSuccesses := 0, isRateLimited := true,
         concurrency := Max(MinConcurrency, t.concurrency / 2))
    else if success > 0 && fail == 0 then
      var streak := t.consecutiveSuccesses + 1;
      if streak >= StreakToGrow && t.concurrency < MaxConcurrency then
        t.(consecutiveSuccesses := 0, isRateLimited := false, concurrency := t.concurrency + 1)
      else
        t.(consecutiveSuccesses := streak, isRateLimited := false)
    else
      t.(consecutiveSuccesses := 0)
  }

  /** What one batch tells the controller. */
  datatype BatchSummary = BatchSummary(success: nat, fail: nat, rateLimited: bool)

  /** The controller applied to a history of batches, oldest first. */
  function AdjustAll(t: Task, history: seq<BatchSummary>): Task
    decreases |history|
  {
    if |history| == 0 then t
    else
      var b := history[|history| - 1];
      AdjustConcurrency(AdjustAll(t, history[..|history| - 1]), b.success, b.fail, b.rateLimited)
  }

  /** Two records in the same controller state: the four fields `adjustConcurrency` reads and writes agree. */
  predicate SameControl(t: Task, u: Task) {
    && t.concurrency == u.concurrency && t.consecutiveSuccesses == u.consecutiveSuccesses
    && t.isRateLimited == u.isRateLimited && t.rateLimitCount == u.rateLimitCount
  }

  /** `adjustConcurrency` reads nothing but the controller state. */
  lemma AdjustSameControl(t: Task, u: Task, success: nat, fail: nat, rateLimited: bool)
    requires SameControl(t, u)
    ensures SameControl(AdjustConcurrency(t, success, fail, rateLimited), AdjustConcurrency(u, success, fail, rateLimited))
  {
  }

  /** Over any history, records in the same controller state stay in the same controller state. */
  lemma {:induction false} AdjustAllSameControl(t: Task, u: Task, history: seq<BatchSummary>)
    requires SameControl(t, u)
    ensures SameControl(AdjustAll(t, history), AdjustAll(u, history))
    decreases |history|
  {
    if |history| > 0 {
      var b := history[|history| - 1];
      AdjustAllSameControl(t, u, history[..|history| - 1]);
      AdjustSameControl(AdjustAll(t, history[..|history| - 1]), AdjustAll(u, history[..|history| - 1]),
                        b.success, b.fail, b.rateLimited);
    }
  }

  /** The fold can also be read from the front: the first batch's adjustment, then the rest. */
  lemma {:induction false} AdjustAllFirst(t: Task, first: BatchSummary, history: seq<BatchSummary>)
    ensures AdjustAll(t, [first] + history) == AdjustAll(AdjustConcurrency(t, first.success, first.fail, first.rateLimited), history)
    decreases |history|
  {
    var h := [first] + history;
    if |history| == 0 {
      assert h[..0] == [];
    } else {
      assert h[..|h| - 1] == [first] + history[..|history| - 1];
      assert h[|h| - 1] == history[|history| - 1];
      AdjustAllFirst(t, first, history[..|history| - 1]);
    }
  }

  /** From the initial record, no history of batches moves the concurrency outside [1, 5]. */
  lemma {:induction false} ConcurrencyStaysInBounds(t: Task, history: seq<BatchSummary>)
    requires ConcurrencyInBounds(t)
    ensures ConcurrencyInBounds(AdjustAll(t, history))
    decreases |history|
  {
    if |history| > 0 {
      ConcurrencyStaysInBounds(t, history[..|history| - 1]);
    }
  }

  /** The rate-limit counter never decreases, and grows by the number of rate-limited batches. */
  lemma {:induction false} RateLimitCountCounts(t: Task, history: seq<BatchSummary>)
    ensures AdjustAll(t, history).rateLimitCount == t.rateLimitCount + RateLimitedBatches(history)
    decreases |history|
  {
    if |history| > 0 {
      RateLimitCountCounts(t, history[..|history| - 1]);
    }
  }

  function RateLimitedBatches(history: seq<BatchSummary>): nat
    decreases |history|
  {
    if |history| == 0 then 0
    else RateLimitedBatches(history[..|history| - 1]) + (if history[|history| - 1].rateLimited then 1 else 0)
  }

  /** Three clean batches from a fresh streak below the maximum raise the concurrency by exactly one. */
  lemma ThreeCleanBatchesGrowByOne(t: Task, b1: BatchSummary, b2: BatchSummary, b3: BatchSummary)
    requires t.consecutiveSuccesses == 0 && t.concurrency < MaxConcurrency
    requires IsClean(b1.success, b1.fail, b1.rateLimited)
    requires IsClean(b2.success, b2.fail, b2.rateLimited)
    requires IsClean(b3.success, b3.fail, b3.rateLimited)
    ensures var r := AdjustAll(t, [b1, b2, b3]);
      r.concurrency == t.concurrency + 1 && r.consecutiveSuccesses == 0
    ensures AdjustAll(t, [b1, b2]).concurrency == t.concurrency
  {
    assert [b1, b2, b3][..2] == [b1, b2];
    assert [b1, b2][..1] == [b1];
    assert [b1][..0] == [];
    assert AdjustAll(t, []) == t;
    var t1 := AdjustAll(t, [b1]);
    assert t1 == AdjustConcurrency(t, b1.success, b1.fail, b1.rateLimited);
    assert t1.concurrency == t.concurrency && t1.consecutiveSuccesses == 1;
    var t2 := AdjustAll(t, [b1, b2]);
    assert t2 == AdjustConcurrency(t1, b2.success, b2.fail, b2.rateLimited);
    assert t2.concurrency == t.concurrency && t2.consecutiveSuccesses == 2;
    assert AdjustAll(t, [b1, b2, b3]) == AdjustConcurrency(t2, b3.success, b3.fail, b3.rateLimited);
  }

  /** At the maximum the streak is never reset by clean batches: it keeps counting up. */
  lemma {:induction false} StreakGrowsAtMaximum(t: Task, history: seq<BatchSummary>)
    requires t.concurrency == MaxConcurrency
    requires forall i :: 0 <= i < |history| ==> IsClean(history[i].success, history[i].fail, history[i].rateLimited)
    ensures AdjustAll(t, history).concurrency == MaxConcurrency
    ensures AdjustAll(t, history).consecutiveSuccesses == t.consecutiveSuccesses + |history|
    decreases |history|
  {
    if |history| > 0 {
      StreakGrowsAtMaximum(t, history[..|history| - 1]);
    }
  }

  /** `Math.max(500, parseInt(rawConfig.requestDelay) || 1500)`; `None` stands for NaN. */
  function BaseDelay(requestDelay: Option<int>): (base: int)
    ensures base >= MinBaseDelayMs
    ensures requestDelay == None || requestDelay == Some(0) ==> base == DefaultBaseDelayMs
    ensures requestDelay.Some? && requestDelay.value >= MinBaseDelayMs ==> base == requestDelay.value
    ensures requestDelay.Some? && requestDelay.value != 0 && requestDelay.value < MinBaseDelayMs ==> base == MinBaseDelayMs
  {
    var configured := match requestDelay
      case Some(v) => if v != 0 then v else DefaultBaseDelayMs
      case None => DefaultBaseDelayMs;
    Max(MinBaseDelayMs, configured)
  }

  /**
   * `calculateDelay(base, rateLimited)`, read after `adjustConcurrency` has
   * run: after a throttled batch, the base doubled once per rate limit so far
   * (at most four times) and capped at 30 s; otherwise the base at
   * concurrency 1 and half the base, but at least 300 ms, above it.
   */
  function CalculateDelay(base: int, rateLimited: bool, t: Task): (d: real)
    ensures rateLimited ==> d <= MaxDelayMs as real
    ensures !rateLimited ==> d >= Min(base, MinPacedDelayMs) as real
  {
    if rateLimited then
      Min(Doubled(base, Min(t.rateLimitCount, MaxBackoffExponent)), MaxDelayMs) as real
    else if t.concurrency == 1 then
      base as real
    else
      var half := base as real / 2.0;
      if half >= MinPacedDelayMs as real then half else MinPacedDelayMs as real
  }

  /** The back-off is `base * 2^min(rateLimitCount, 4)`, capped at 30 s. */
  lemma BackoffFormula(base: int, t: Task)
    ensures CalculateDelay(base, true, t) == Min(base * Pow2(Min(t.rateLimitCount, MaxBackoffExponent)), MaxDelayMs) as real
  {
    DoubledIsProduct(base, Min(t.rateLimitCount, MaxBackoffExponent));
  }

  /**
   * With a base of at least 500 ms, a delay after an unthrottled batch is at
   * least 300 ms and at most the base: the base itself at concurrency 1,
   * otherwise half of it, or 300 ms when half would be less.
   */
  lemma PacedDelayBounds(base: int, t: Task)
    requires base >= MinBaseDelayMs
    ensures MinPacedDelayMs as real <= CalculateDelay(base, false, t) <= base as real
    ensures t.concurrency == 1 ==> CalculateDelay(base, false, t) == base as real
    ensures t.concurrency != 1 && base >= 2 * MinPacedDelayMs ==> CalculateDelay(base, false, t) == base as real / 2.0
    ensures t.concurrency != 1 && base < 2 * MinPacedDelayMs ==> CalculateDelay(base, false, t) == MinPacedDelayMs as real
  {
  }

  /**
   * After a rate-limited batch (so the counter is at least 1) the delay is at
   * least twice the base, up to the 30 s ceiling.
   */
  lemma BackoffDelayBounds(base: int, t: Task)
    requires base >= MinBaseDelayMs && t.rateLimitCount >= 1
    ensures Min(2 * base, MaxDelayMs) as real <= CalculateDelay(base, true, t) <= MaxDelayMs as real
  {
    DoubledMonotone(base, 1, Min(t.rateLimitCount, MaxBackoffExponent));
  }

  /**
   * The back-off is at least the base delay only while the base is at most
   * 30 s; a larger configured base makes the throttled delay shorter than the
   * unthrottled delay at concurrency 1.
   */
  lemma BackoffVersusBase(base: int, t: Task)
    requires base >= MinBaseDelayMs && t.rateLimitCount >= 1
    ensures base <= MaxDelayMs ==> CalculateDelay(base, true, t) >= base as real
    ensures base > MaxDelayMs ==> CalculateDelay(base, true, t) < CalculateDelay(base, false, t.(concurrency := 1))
  {
    BackoffDelayBounds(base, t);
  }
}

=== FILE: field_filter.dfy ===
/**
 * The first step of `generateCardFields` (routes/ai.js): which of the
 * requested fields still need generating for one card. In fill mode a field
 * that already holds a usable value is skipped; overwrite mode regenerates
 * everything; tags are always regenerated.
 */
module FieldFilter {
  import opened Wrappers
  import opened Strings

  /** The parts of a card the filter reads. */
  datatype Card = Card(title: Option<string>, desc: Option<string>)

  /** The run strategy; only `mode` matters here (style and prompt go to the prompt text). */
  datatype Strategy = Strategy(mode: Option<string>)

  /** What a generation call hands back: the newly stored values, `null` where nothing was stored. */
  datatype FieldData = FieldData(name: Option<string>, description: Option<string>, tags: Option<seq<string>>)

  const NoData := FieldData(None, None, None)

  /** `strategy.mode !== 'overwrite'` */
  predicate IsFillMode(s: Strategy) {
    s.mode != Some("overwrite")
  }

  /** A title that is not just the URL: non-empty, no "://", not starting with "www.". */
  predicate TitleLooksReal(title: Option<string>) {
    Truthy(title) && !Contains(title.value, "://") && !StartsWith(title.value, "www.")
  }

  /** The per-field filter predicate. */
  predicate Needed(field: string, s: Strategy, c: Card) {
    if field == "name" then !(IsFillMode(s) && TitleLooksReal(c.title))
    else if field == "description" then !(IsFillMode(s) && Truthy(c.desc))
    else true
  }

  /** `types.filter(...)`: the requested fields that still need generating. */
  function NeededTypes(types: seq<string>, s: Strategy, c: Card): (r: seq<string>)
    ensures forall x :: multiset(r)[x] == if Needed(x, s, c) then multiset(types)[x] else 0
    ensures !IsFillMode(s) ==> r == types
  {
    FilterCounts(types, s, c);
    Filter(types, s, c)
  }

  /** The filter as a fold from the front of the request, one field at a time. */
  function Filter(types: seq<string>, s: Strategy, c: Card): seq<string> {
    if |types| == 0 then []
    else
      var rest := Filter(types[..|types| - 1], s, c);
      var last := types[|types| - 1];
      if Needed(last, s, c) then rest + [last] else rest
  }

  lemma {:induction false} FilterCounts(types: seq<string>, s: Strategy, c: Card)
    ensures var r := Filter(types, s, c);
      && (forall x :: multiset(r)[x] == if Needed(x, s, c) then multiset(types)[x] else 0)
      && (!IsFillMode(s) ==> r == types)
    decreases |types|
  {
    if |types| > 0 {
      var last := types[|types| - 1];
      assert types == types[..|types| - 1] + [last];
      FilterCounts(types[..|types| - 1], s, c);
    }
  }

  /**
   * `filter` keeps the requested order: filtering a concatenation is the
   * concatenation of the filtered parts. With `NeededTypesOne` this fixes
   * the result.
   */
  lemma NeededTypesInOrder(a: seq<string>, b: seq<string>, s: Strategy, c: Card)
    ensures NeededTypes(a + b, s, c) == NeededTypes(a, s, c) + NeededTypes(b, s, c)
  {
    FilterInOrder(a, b, s, c);
  }

  lemma {:induction false} FilterInOrder(a: seq<string>, b: seq<string>, s: Strategy, c: Card)
    ensures Filter(a + b, s, c) == Filter(a, s, c) + Filter(b, s, c)
    decreases |b|
  {
    if |b| == 0 {
      assert a + b == a;
    } else {
      var init := b[..|b| - 1];
      var last := b[|b| - 1];
      assert (a + b)[..|a + b| - 1] == a + init;
      FilterInOrder(a, init, s, c);
    }
  }

  /** A single field is kept exactly when the filter predicate holds for it. */
  lemma NeededTypesOne(x: string, s: Strategy, c: Card)
    ensures NeededTypes([x], s, c) == if Needed(x, s, c) then [x] else []
  {
    assert [x][..0] == [];
    assert Filter([x], s, c) == Filter([], s, c) + if Needed(x, s, c) then [x] else [];
  }

  /**
   * In fill mode the name is dropped exactly when the title looks real, the
   * description exactly when there is one, and every other requested field
   * (tags) is kept.
   */
  lemma NeededTypesPerField(types: seq<string>, s: Strategy, c: Card)
    ensures var r := NeededTypes(types, s, c);
      && (forall x :: x in r ==> x in types)
      && ("name" in types ==> ("name" in r <==> !(IsFillMode(s) && TitleLooksReal(c.title))))
      && ("description" in types ==> ("description" in r <==> !(IsFillMode(s) && Truthy(c.desc))))
      && (forall x :: x in types && x != "name" && x != "description" ==> x in r)
  {
    var r := NeededTypes(types, s, c);
    forall x | x in r
      ensures x in types
    {
      assert multiset(r)[x] > 0;
    }
    forall x | x in types && x != "name" && x != "description"
      ensures x in r
    {
      assert multiset(types)[x] > 0;
      assert multiset(r)[x] > 0;
    }
    if "name" in types {
      assert multiset(types)["name"] > 0;
    }
    if "description" in types {
      assert multiset(types)["description"] > 0;
    }
  }

  /** The outcome of the filter step. */
  datatype Plan = NothingToGenerate(data: FieldData) | Generate(fields: seq<string>)

  /**
   * `if (neededTypes.length === 0) return { updated: false, data: resultData }`:
   * with nothing to generate the card is left alone and every field is null;
   * otherwise the remote calls are made for exactly the needed fields.
   */
  function PlanFields(types: seq<string>, s: Strategy, c: Card): (p: Plan)
    ensures p.NothingToGenerate? <==> forall x :: x in types ==> !Needed(x, s, c)
    ensures p.NothingToGenerate? ==> p.data == NoData
    ensures p.Generate? ==> |p.fields| > 0 && forall x :: x in p.fields <==> x in types && Needed(x, s, c)
    ensures p.Generate? ==> p.fields == NeededTypes(types, s, c)
  {
    var needed := NeededTypes(types, s, c);
    NeededTypesPerField(types, s, c);
    if |needed| == 0 then
      NothingToGenerate(NoData)
    else
      assert needed[0] in needed;
      Generate(needed)
  }

  /** In overwrite mode every requested field is generated. */
  lemma OverwriteKeepsAll(types: seq<string>, c: Card)
    requires |types| > 0
    ensures PlanFields(types, Strategy(Some("overwrite")), c) == Generate(types)
  {
  }

  /** A card with a real title and a description, in fill mode, asking only for those, is left alone. */
  lemma FillModeSkipsCompleteCard(title: string, desc: string)
    requires |title| > 0 && !Contains(title, "://") && !StartsWith(title, "www.")
    requires |desc| > 0
    ensures PlanFields(["name", "description"], Strategy(None), Card(Some(title), Some(desc))) == NothingToGenerate(NoData)
  {
  }

  /** A title that is a bare URL is regenerated even in fill mode. */
  lemma FillModeRenamesUrlTitle(title: string)
    requires StartsWith(title, "www.")
    ensures PlanFields(["name"], Strategy(Some("fill")), Card(Some(title), None)) == Generate(["name"])
  {
    NeededTypesOne("name", Strategy(Some("fill")), Card(Some(title), None));
  }
}

=== FILE: grouping.dfy ===
/**
 * Grouping rows by key into a JavaScript object of arrays, the pattern the
 * card routes use twice (routes/card.js): `if (!acc[k]) acc[k] = []; acc[k].push(v)`
 * for each row in order. The object is modelled as its list of
 * (key, array) properties in insertion order.
 */
module Grouping {

  datatype Group<K, V> = Group(key: K, values: seq<V>)

  /** Position of the property `k`, or -1 when the object has none. */
  function Find<K(==), V>(gs: seq<Group<K, V>>, k: K): (i: int)
    ensures -1 <= i < |gs|
    ensures 0 <= i ==> gs[i].key == k
    ensures i == -1 ==> forall j :: 0 <= j < |gs| ==> gs[j].key != k
    decreases |gs|
  {
    if |gs| == 0 then -1
    else if gs[|gs| - 1].key == k then |gs| - 1
    else Find(gs[..|gs| - 1], k)
  }

  /** `acc[k] || []` */
  function Lookup<K(==), V>(gs: seq<Group<K, V>>, k: K): seq<V> {
    var i := Find(gs, k);
    if i < 0 then [] else gs[i].values
  }

  /** No property occurs twice. */
  predicate DistinctKeys<K(==), V>(gs: seq<Group<K, V>>) {
    forall i, j :: 0 <= i < j < |gs| ==> gs[i].key != gs[j].key
  }

  /** One step of the `forEach`: create the array on first sight of `k`, then push `v`. */
  function Add<K(==), V>(gs: seq<Group<K, V>>, k: K, v: V): seq<Group<K, V>> {
    var i := Find(gs, k);
    if i < 0 then gs + [Group(k, [v])] else gs[i := Group(k, gs[i].values + [v])]
  }

  /** The whole `forEach` over the (key, value) rows. */
  function GroupBy<K(==), V>(kvs: seq<(K, V)>): seq<Group<K, V>>
    decreases |kvs|
  {
    if |kvs| == 0 then []
    else
      var last := kvs[|kvs| - 1];
      Add(GroupBy(kvs[..|kvs| - 1]), last.0, last.1)
  }

  /** The values of the rows with key `k`, in row order: the reference for what `acc[k]` holds. */
  function ValuesFor<K(==), V>(kvs: seq<(K, V)>, k: K): (r: seq<V>)
    ensures |r| <= |kvs|
    decreases |kvs|
  {
    if |kvs| == 0 then []
    else
      var last := kvs[|kvs| - 1];
      ValuesFor(kvs[..|kvs| - 1], k) + (if last.0 == k then [last.1] else [])
  }

  /** Total number of values over all the arrays. */
  function TotalSize<K, V>(gs: seq<Group<K, V>>): nat
    decreases |gs|
  {
    if |gs| == 0 then 0 else TotalSize(gs[..|gs| - 1]) + |gs[|gs| - 1].values|
  }

  /** `Find` looks only at the keys. */
  lemma {:induction false} FindKeysOnly<K, V>(a: seq<Group<K, V>>, b: seq<Group<K, V>>, k: K)
    requires |a| == |b|
    requires forall j :: 0 <= j < |a| ==> a[j].key == b[j].key
    ensures Find(a, k) == Find(b, k)
    decreases |a|
  {
    if |a| > 0 && a[|a| - 1].key != k {
      FindKeysOnly(a[..|a| - 1], b[..|b| - 1], k);
    }
  }

  /** Replacing one array changes the total by the difference in its length. */
  lemma {:induction false} TotalSizeUpdate<K, V>(gs: seq<Group<K, V>>, i: nat, g: Group<K, V>)
    requires i < |gs|
    ensures TotalSize(gs[i := g]) == TotalSize(gs) - |gs[i].values| + |g.values|
    decreases |gs|
  {
    var n := |gs| - 1;
    assert gs[i := g][..n] == if i == n then gs[..n] else gs[..n][i := g];
    if i < n {
      TotalSizeUpdate(gs[..n], i, g);
    }
  }

  /**
   * One `forEach` step keeps the keys distinct, adds one value to the total,
   * and appends `v` to the array of `k` and to no other.
   */
  lemma {:induction false} AddSpec<K, V>(gs: seq<Group<K, V>>, k: K, v: V)
    requires DistinctKeys(gs)
    ensures DistinctKeys(Add(gs, k, v))
    ensures TotalSize(Add(gs, k, v)) == TotalSize(gs) + 1
    ensures forall k' :: Lookup(Add(gs, k, v), k') == Lookup(gs, k') + (if k' == k then [v] else [])
  {
    var i := Find(gs, k);
    var r := Add(gs, k, v);
    if i < 0 {
      assert r[..|gs|] == gs;
      forall k' ensures Lookup(r, k') == Lookup(gs, k') + (if k' == k then [v] else []) {
        if k' != k {
          assert Find(r, k') == Find(gs, k');
        }
      }
    } else {
      TotalSizeUpdate(gs, i, Group(k, gs[i].values + [v]));
      forall k' ensures Lookup(r, k') == Lookup(gs, k') + (if k' == k then [v] else []) {
        FindKeysOnly(r, gs, k');
        var j := Find(gs, k');
        if k' != k && 0 <= j {
          assert j != i;
        }
      }
    }
  }

  /**
   * The grouped object has one property per key, in which `acc[k] || []` is
   * exactly the values of the rows with key `k` in row order, and the arrays
   * hold every row once between them.
   */
  lemma {:induction false} GroupBySpec<K, V>(kvs: seq<(K, V)>)
    ensures DistinctKeys(GroupBy(kvs))
    ensures TotalSize(GroupBy(kvs)) == |kvs|
    ensures forall k :: Lookup(GroupBy(kvs), k) == ValuesFor(kvs, k)
    decreases |kvs|
  {
    if |kvs| > 0 {
      var init := kvs[..|kvs| - 1];
      var last := kvs[|kvs| - 1];
      GroupBySpec(init);
      AddSpec(GroupBy(init), last.0, last.1);
    }
  }

  /** A row's key is a property of the grouped object, and its value is in that property's array. */
  lemma {:induction false} ValuesForHasRow<K, V>(kvs: seq<(K, V)>, j: nat)
    requires j < |kvs|
    ensures kvs[j].1 in ValuesFor(kvs, kvs[j].0)
    decreases |kvs|
  {
    if j < |kvs| - 1 {
      ValuesForHasRow(kvs[..|kvs| - 1], j);
    }
  }

  /** A key no row has gets no property: `acc[k] || []` is the empty array. */
  lemma {:induction false} ValuesForAbsent<K, V>(kvs: seq<(K, V)>, k: K)
    requires forall j :: 0 <= j < |kvs| ==> kvs[j].0 != k
    ensures ValuesFor(kvs, k) == []
    decreases |kvs|
  {
    if |kvs| > 0 {
      ValuesForAbsent(kvs[..|kvs| - 1], k);
    }
  }
}

=== FILE: rate_limit.dfy ===
/**
 * `isRateLimitError` (routes/ai.js): the heuristic that decides whether a
 * failed remote call was throttled. An error is a rate-limit error when its
 * status is 429 or its lower-cased message mentions one of four phrases.
 */
module RateLimit {
  import opened Wrappers
  import opened Strings

  /** What a thrown error exposes: an optional numeric `status` and an optional `message`. */
  datatype Error = Error(status: Option<int>, message: Option<string>)

  const RateLimitStatus := 429

  /** The phrases looked for in the lower-cased message ("请求过于频繁" reads "requests too frequent"). */
  const RateLimitPhrases: seq<string> := ["429", "rate limit", "too many requests", "请求过于频繁"]

  predicate MentionsRateLimit(text: string) {
    exists i | 0 <= i < |RateLimitPhrases| :: Contains(text, RateLimitPhrases[i])
  }

  /**
   * `toLowerCase` is taken on ASCII letters only. Every phrase is ASCII
   * lower case or has no case, and no other character lower-cases into one of
   * their letters, so the verdict is the same as with full Unicode folding.
   */
  predicate IsRateLimitError(e: Error) {
    e.status == Some(RateLimitStatus) || MentionsRateLimit(Lower(OrElse(e.message, "")))
  }

  lemma LowerConcat(a: string, b: string)
    ensures Lower(a + b) == Lower(a) + Lower(b)
  {
  }

  /** Status 429 alone is enough, whatever the message says. */
  lemma StatusDecides(message: Option<string>)
    ensures IsRateLimitError(Error(Some(RateLimitStatus), message))
  {
  }

  /** Letter case in the message never changes the verdict. */
  lemma CaseInsensitive(status: Option<int>, message: string)
    ensures IsRateLimitError(Error(status, Some(message))) == IsRateLimitError(Error(status, Some(Lower(message))))
  {
    LowerIdempotent(message);
  }

  /** Each phrase, in any letter case and anywhere in the message, marks the error as a rate limit. */
  lemma PhraseAnywhere(status: Option<int>, before: string, phrase: string, after: string, i: nat)
    requires i < |RateLimitPhrases|
    requires Lower(phrase) == RateLimitPhrases[i]
    ensures IsRateLimitError(Error(status, Some(before + phrase + after)))
  {
    var text := Lower(before + phrase + after);
    LowerConcat(before + phrase, after);
    LowerConcat(before, phrase);
    assert text == Lower(before) + RateLimitPhrases[i] + Lower(after);
    assert OccursAt(text, RateLimitPhrases[i], |before|);
    assert Contains(text, RateLimitPhrases[i]);
  }

  /** "Too Many Requests" from a provider without a status is recognised. */
  lemma TooManyRequestsRecognised()
    ensures IsRateLimitError(Error(None, Some("Too Many Requests")))
  {
    PhraseAnywhere(None, "", "Too Many Requests", "", 2);
    assert "" + "Too Many Requests" + "" == "Too Many Requests";
  }

  /** Without status 429 and without any phrase the error is an ordinary failure. */
  lemma OrdinaryFailure(status: Option<int>, message: string)
    requires status != Some(RateLimitStatus)
    requires forall i :: 0 <= i < |RateLimitPhrases| ==> !Contains(Lower(message), RateLimitPhrases[i])
    ensures !IsRateLimitError(Error(status, Some(message)))
  {
  }
}

=== FILE: retry.dfy ===
/**
 * `processCardWithRetry` (routes/ai.js): one card's processing with bounded
 * back-off. A call that throws a rate-limit error is retried after 2 s and
 * then after 4 s; any other outcome settles the card at once. A thrown
 * error object settles with an outcome. A throw of `null` or `undefined`
 * makes `e.message` throw inside the `catch`, so that call rejects; the
 * batch loop's `Settled.Rejected` stands for it.
 *
 * The generation call itself is a collaborator: `attempts[k]` is what the
 * k-th call made by this invocation returns or throws.
 */
module Retry {
  import opened Wrappers
  import opened Arith
  import opened RateLimit
  import opened FieldFilter

  /** One call of `generateCardFields`: it returns `{updated, data}` or throws. */
  datatype Attempt = Returned(updated: bool, data: FieldData) | Threw(error: Error)

  /** The settled value `{success, rateLimited, error}` the batch loop reads. */
  datatype CardOutcome = Succeeded | Failed(rateLimited: bool, error: Option<string>)

  const MaxRetries: nat := 2

  /** The message for a card whose fields were all present already ("all fields exist, no update needed"). */
  const NothingToUpdate := "所有字段已存在，无需更新"

  /** `Object.values(data).some(v => v !== null)` */
  predicate HasData(d: FieldData) {
    d.name.Some? || d.description.Some? || d.tags.Some?
  }

  /** `Math.pow(2, retry + 1) * 1000`: the wait before retry number `retry + 1`. */
  function BackoffMs(retry: nat): nat {
    Pow2(retry + 1) * 1000
  }

  predicate IsRateLimitThrow(a: Attempt) {
    a.Threw? && IsRateLimitError(a.error)
  }

  /** The outcome of the invocation whose call produced `a` and was not retried. */
  function SettleAttempt(a: Attempt): CardOutcome {
    match a
    case Returned(updated, data) =>
      if !updated && !HasData(data) then Failed(false, Some(NothingToUpdate)) else Succeeded
    case Threw(e) => Failed(IsRateLimitError(e), e.message)
  }

  /** An invocation's outcome, the waits it requested in order, and the number of calls it made. */
  datatype RetryRun = RetryRun(outcome: CardOutcome, waits: seq<nat>, calls: nat)

  function ProcessCardWithRetry(attempts: seq<Attempt>, retry: nat): (r: RetryRun)
    requires |attempts| >= 1 && retry + |attempts| >= MaxRetries + 1
    ensures 1 <= r.calls <= |attempts|
    ensures retry <= MaxRetries ==> retry + r.calls <= MaxRetries + 1
    ensures retry >= MaxRetries ==> r.calls == 1
    ensures forall k :: 0 <= k < r.calls - 1 ==> IsRateLimitThrow(attempts[k])
    ensures !IsRateLimitThrow(attempts[r.calls - 1]) || retry + r.calls - 1 >= MaxRetries
    ensures |r.waits| == r.calls - 1
    ensures forall k :: 0 <= k < |r.waits| ==> r.waits[k] == BackoffMs(retry + k)
    ensures r.outcome == SettleAttempt(attempts[r.calls - 1])
    decreases |attempts|
  {
    var a := attempts[0];
    if IsRateLimitThrow(a) && retry < MaxRetries then
      var rest := ProcessCardWithRetry(attempts[1..], retry + 1);
      RetryRun(rest.outcome, [BackoffMs(retry)] + rest.waits, rest.calls + 1)
    else
      RetryRun(SettleAttempt(a), [], 1)
  }

  /** From the first call: at most three calls, and the waits are a prefix of 2000 ms, 4000 ms. */
  lemma AtMostThreeCalls(attempts: seq<Attempt>)
    requires |attempts| >= MaxRetries + 1
    ensures var r := ProcessCardWithRetry(attempts, 0);
      r.calls <= 3 && r.waits <= [2000, 4000]
  {
    var r := ProcessCardWithRetry(attempts, 0);
    assert BackoffMs(0) == 2000 && BackoffMs(1) == 4000;
  }

  /** An error that is not a rate limit is reported at once, without a wait, as not rate-limited. */
  lemma OrdinaryErrorNotRetried(attempts: seq<Attempt>, e: Error)
    requires |attempts| >= MaxRetries + 1 && attempts[0] == Threw(e)
    requires !IsRateLimitError(e)
    ensures ProcessCardWithRetry(attempts, 0) == RetryRun(Failed(false, e.message), [], 1)
  {
  }

  /** A card that is throttled once and then succeeds settles as a success after one 2 s wait. */
  lemma ThrottledThenSucceeds(e: Error, data: FieldData, third: Attempt)
    requires IsRateLimitError(e)
    ensures ProcessCardWithRetry([Threw(e), Returned(true, data), third], 0) == RetryRun(Succeeded, [2000], 2)
  {
    var attempts := [Threw(e), Returned(true, data), third];
    assert attempts[1..] == [Returned(true, data), third];
  }

  /** Three rate-limit errors in a row exhaust the retries and report a rate-limited failure. */
  lemma ThrottledThreeTimes(e1: Error, e2: Error, e3: Error)
    requires IsRateLimitError(e1) && IsRateLimitError(e2) && IsRateLimitError(e3)
    ensures ProcessCardWithRetry([Threw(e1), Threw(e2), Threw(e3)], 0) == RetryRun(Failed(true, e3.message), [2000, 4000], 3)
  {
    var attempts := [Threw(e1), Threw(e2), Threw(e3)];
    assert attempts[1..] == [Threw(e2), Threw(e3)];
    assert attempts[1..][1..] == [Threw(e3)];
  }

  /** A card with nothing left to generate fails at once with "all fields exist" and is not retried. */
  lemma NothingToGenerateFails(attempts: seq<Attempt>, types: seq<string>, s: Strategy, c: Card)
    requires |attempts| >= MaxRetries + 1
    requires PlanFields(types, s, c).NothingToGenerate?
    requires attempts[0] == Returned(false, PlanFields(types, s, c).data)
    ensures ProcessCardWithRetry(attempts, 0) == RetryRun(Failed(false, Some(NothingToUpdate)), [], 1)
  {
  }
}

=== FILE: route_guard.dfy ===
/**
 * The navigation guard of the web client (web/src/router.js): a route table
 * whose `meta.requiresAuth` marks the pages that need a login, and a
 * `beforeEach` hook that sends a visitor without a token to the login page
 * and a visitor with a token away from it. The token is what
 * `localStorage.getItem('token')` returns, `None` for `null`; only its
 * truthiness matters, so an empty stored token counts as none.
 */
module RouteGuard {
  import opened Wrappers
  import opened Strings

  const LoginPath := "/login"
  const HomePath := "/"
  const AdminPath := "/admin"

  /** A row of the route table; the page component is left out. */
  datatype Route = Route(path: string, requiresAuth: bool)

  /** The three routes, in table order. */
  const Routes: seq<Route> := [Route(LoginPath, false), Route(HomePath, true), Route(AdminPath, true)]

  /** A route path without its trailing '/', if it has one. */
  function DropTrailingSlash(p: string): (r: string)
    ensures p == r || p == r + "/"
    ensures |r| > 0 && r[|r| - 1] == '/' ==> p == r + "/"
  {
    if |p| > 0 && p[|p| - 1] == '/' then p[..|p| - 1] else p
  }

  /**
   * A path as vue-router 4's default matcher (neither `sensitive` nor
   * `strict`) compares it: without one trailing '/', and without regard to
   * case. A static route path compiles to its text without the trailing
   * '/', an optional '/', and the `i` flag, so a path matches a route with
   * at most one trailing '/' exactly when their keys agree. The route paths
   * here are ASCII, and no other character folds onto an ASCII letter under
   * the `i` flag, so ASCII folding decides the match.
   */
  function Key(p: string): string {
    Lower(DropTrailingSlash(p))
  }

  predicate Matches(routePath: string, path: string) {
    Key(path) == Key(routePath)
  }

  /** Position of the first key from `k` on that equals `key`. */
  function FirstIndex(keys: seq<string>, key: string, k: nat := 0): (i: Option<nat>)
    requires k <= |keys|
    ensures i.Some? ==> k <= i.value < |keys| && keys[i.value] == key
    ensures i.Some? ==> forall j :: k <= j < i.value ==> keys[j] != key
    ensures i.None? ==> forall j :: k <= j < |keys| ==> keys[j] != key
    decreases |keys| - k
  {
    if k == |keys| then None
    else if keys[k] == key then Some(k)
    else FirstIndex(keys, key, k + 1)
  }

  /** The key of every route path, in table order. */
  function RouteKeys(routes: seq<Route>): (ks: seq<string>)
    ensures |ks| == |routes|
    ensures forall i :: 0 <= i < |routes| ==> ks[i] == Key(routes[i].path)
  {
    seq(|routes|, i requires 0 <= i < |routes| => Key(routes[i].path))
  }

  /**
   * Position of the first route that matches `path`. The three patterns of
   * the table never match the same path, so the matcher's ranking of routes
   * does not change the answer.
   */
  function FindRoute(routes: seq<Route>, path: string): (i: Option<nat>)
    ensures i.Some? ==> i.value < |routes| && Matches(routes[i.value].path, path)
    ensures i.Some? ==> forall j :: 0 <= j < i.value ==> !Matches(routes[j].path, path)
    ensures i.None? ==> forall j :: 0 <= j < |routes| ==> !Matches(routes[j].path, path)
  {
    FirstIndex(RouteKeys(routes), Key(path))
  }

  /**
   * `to.meta.requiresAuth` for a path: the flag of its route, and `undefined`
   * (falsy) for a path the table does not know.
   */
  predicate RequiresAuth(routes: seq<Route>, path: string) {
    var i := FindRoute(routes, path);
    i.Some? && routes[i.value].requiresAuth
  }

  /** The paths the table protects, spelled out: '/' and '/admin' in any case, with an optional trailing '/'. */
  predicate IsProtectedPath(path: string) {
    var p := Lower(path);
    p == "" || p == "/" || p == "/admin" || p == "/admin/"
  }

  /** What the hook calls `next` with. */
  datatype Decision = Proceed | Redirect(target: string)

  /**
   * `beforeEach`: a page that requires auth and no token goes to '/login';
   * exactly '/login' (`to.path === '/login'`) with a token goes to '/';
   * everything else proceeds.
   */
  function Guard(routes: seq<Route>, path: string, token: Option<string>): (d: Decision)
    ensures d == Redirect(LoginPath) <==> RequiresAuth(routes, path) && !Truthy(token)
    ensures d == Redirect(HomePath) <==> !(RequiresAuth(routes, path) && !Truthy(token)) && path == LoginPath && Truthy(token)
    ensures d.Redirect? ==> d.target == LoginPath || d.target == HomePath
  {
    if RequiresAuth(routes, path) && !Truthy(token) then Redirect(LoginPath)
    else if path == LoginPath && Truthy(token) then Redirect(HomePath)
    else Proceed
  }

  /** A text without ASCII capitals is its own lower case. */
  lemma LowerOfLowerCase(s: string)
    requires forall i :: 0 <= i < |s| ==> !('A' <= s[i] <= 'Z')
    ensures Lower(s) == s
  {
  }

  /** The route paths as the matcher compiles them. */
  lemma RoutePatterns()
    ensures Lower(DropTrailingSlash(LoginPath)) == "/login"
    ensures Lower(DropTrailingSlash(HomePath)) == ""
    ensures Lower(DropTrailingSlash(AdminPath)) == "/admin"
  {
    assert DropTrailingSlash(LoginPath) == LoginPath;
    assert DropTrailingSlash(HomePath) == "";
    assert DropTrailingSlash(AdminPath) == AdminPath;
    LowerOfLowerCase(LoginPath);
    LowerOfLowerCase(AdminPath);
  }

  /** Lower-casing keeps a trailing '/', so a path's lower case is its key, plus the '/' it had. */
  lemma KeyCases(p: string)
    ensures |p| > 0 && p[|p| - 1] == '/' ==> Lower(p) == Key(p) + "/"
    ensures !(|p| > 0 && p[|p| - 1] == '/') ==> Lower(p) == Key(p)
  {
    if |p| > 0 && p[|p| - 1] == '/' {
      assert Lower(p) == Lower(p[..|p| - 1]) + "/";
    }
  }

  /** The protected paths are those whose key is that of '/' or of '/admin'. */
  lemma ProtectedByKey(path: string)
    ensures IsProtectedPath(path) <==> Key(path) == "" || Key(path) == "/admin"
  {
    KeyCases(path);
    var p := Lower(path);
    if |path| > 0 && path[|path| - 1] == '/' {
      assert p[|p| - 1] == '/';
    } else if |path| > 0 {
      assert p[|p| - 1] == LowerChar(path[|path| - 1]) != '/';
    }
  }

  /**
   * The table protects exactly '/' and '/admin', in any letter case and with
   * an optional trailing '/'; '/login' and every other path are open.
   */
  lemma RouteTable(path: string)
    ensures RequiresAuth(Routes, path) <==> IsProtectedPath(path)
  {
    RoutePatterns();
    ProtectedByKey(path);
    assert Routes[0] == Route(LoginPath, false);
    assert Routes[1] == Route(HomePath, true);
    assert Routes[2] == Route(AdminPath, true);
  }

  /**
   * The guard cannot loop: with the same token, the page it redirects to is
   * let through on the next check.
   */
  lemma GuardSettles(path: string, token: Option<string>)
    ensures var d := Guard(Routes, path, token);
      d.Redirect? ==> Guard(Routes, d.target, token) == Proceed
  {
    var d := Guard(Routes, path, token);
    if d == Redirect(LoginPath) {
      LoginIsOpen(token);
    } else if d == Redirect(HomePath) {
      HomeWithToken(token);
    }
  }

  /** Without a token the login page opens. */
  lemma LoginIsOpen(token: Option<string>)
    ensures !Truthy(token) ==> Guard(Routes, LoginPath, token) == Proceed
  {
    RouteTable(LoginPath);
    LowerOfLowerCase(LoginPath);
  }

  /** With a token the home page opens. */
  lemma HomeWithToken(token: Option<string>)
    ensures Truthy(token) ==> Guard(Routes, HomePath, token) == Proceed
  {
    RouteTable(HomePath);
    LowerOfLowerCase(HomePath);
  }

  /**
   * Without a (truthy) token exactly the protected pages redirect to login;
   * with one, exactly '/login' redirects home.
   */
  lemma GuardByToken(path: string, token: Option<string>)
    ensures !Truthy(token) ==> (Guard(Routes, path, token) == Redirect(LoginPath) <==> IsProtectedPath(path))
    ensures !Truthy(token) && !IsProtectedPath(path) ==> Guard(Routes, path, token) == Proceed
    ensures Truthy(token) ==> (Guard(Routes, path, token) == Redirect(HomePath) <==> path == LoginPath)
    ensures Truthy(token) && path != LoginPath ==> Guard(Routes, path, token) == Proceed
  {
    RouteTable(path);
  }

  /** A path in capitals with a trailing '/' is still the admin page, and without a token it goes to login. */
  lemma GuardCapitalAdmin()
    ensures Guard(Routes, "/ADMIN/", None) == Redirect(LoginPath)
  {
    assert Lower("/ADMIN/") == "/admin/";
    GuardByToken("/ADMIN/", None);
  }

  /** An empty stored token is no token: the home page sends the visitor to login. */
  lemma GuardEmptyTokenAtHome()
    ensures Guard(Routes, HomePath, Some("")) == Redirect(LoginPath)
  {
    LowerOfLowerCase(HomePath);
    GuardByToken(HomePath, Some(""));
  }

  /** An empty stored token is no token: the login page opens instead of sending the visitor home. */
  lemma GuardEmptyTokenAtLogin()
    ensures Guard(Routes, LoginPath, Some("")) == Proceed
  {
    LowerOfLowerCase(LoginPath);
    GuardByToken(LoginPath, Some(""));
  }
}

=== FILE: strings.dfy ===
/**
 * The handful of JavaScript string operations the routes rely on
 * (`startsWith`, `endsWith`, `includes`, `toLowerCase`, `trim`,
 * `substring(0, n)`, `split(sep)[0]`, `join`, `length`, `||`), on
 * `seq<char>`. A Dafny `char` is a Unicode scalar value; JavaScript counts
 * lengths and positions in UTF-16 code units, two for a character above
 * U+FFFF, and the functions that depend on positions say which they count.
 */
module Strings {
  import opened Wrappers

  /** JavaScript truthiness of a possibly absent string: present and not empty. */
  predicate Truthy(o: Option<string>) {
    o.Some? && |o.value| > 0
  }

  /** `o || fallback` on a possibly absent string. */
  function OrElse(o: Option<string>, fallback: string): (r: string)
    ensures Truthy(o) ==> r == o.value
    ensures !Truthy(o) ==> r == fallback
  {
    if Truthy(o) then o.value else fallback
  }

  /** `s.startsWith(p)` */
  predicate StartsWith(s: string, p: string) {
    |p| <= |s| && s[..|p|] == p
  }

  /** `s.endsWith(p)` */
  predicate EndsWith(s: string, p: string) {
    |p| <= |s| && s[|s| - |p|..] == p
  }

  /** `p` occurs in `s` starting at index `i`. */
  predicate OccursAt(s: string, p: string, i: int) {
    0 <= i <= |s| - |p| && s[i..i + |p|] == p
  }

  /** `s.includes(p)`: `p` is a contiguous piece of `s`. */
  predicate Contains(s: string, p: string) {
    exists i | 0 <= i <= |s| - |p| :: OccursAt(s, p, i)
  }

  lemma ContainsSelf(s: string)
    ensures Contains(s, s)
  {
    assert OccursAt(s, s, 0);
  }

  lemma ContainsPrefix(s: string, n: nat)
    requires n <= |s|
    ensures Contains(s, s[..n])
  {
    assert OccursAt(s, s[..n], 0);
  }

  lemma ContainsSuffix(s: string, n: nat)
    requires n <= |s|
    ensures Contains(s, s[n..])
  {
    assert OccursAt(s, s[n..], n);
  }

  /** A piece of a piece of `s` is a piece of `s`. */
  lemma ContainsTransitive(s: string, m: string, p: string)
    requires Contains(s, m) && Contains(m, p)
    ensures Contains(s, p)
  {
    var i :| 0 <= i <= |s| - |m| && OccursAt(s, m, i);
    var j :| 0 <= j <= |m| - |p| && OccursAt(m, p, j);
    assert s[i..i + |m|] == m;
    forall k | 0 <= k < |p|
      ensures s[i + j + k] == p[k]
    {
      assert m[j + k] == p[k];
      assert s[i + (j + k)] == m[j + k];
    }
    assert s[i + j..i + j + |p|] == p;
    assert OccursAt(s, p, i + j);
  }

  /** A piece containing character `c` puts `c` into `s`. */
  lemma ContainsChar(s: string, p: string, c: char)
    requires Contains(s, p) && c in p
    ensures c in s
  {
    var i :| 0 <= i <= |s| - |p| && OccursAt(s, p, i);
    assert s[i..i + |p|] == p;
    var k :| 0 <= k < |p| && p[k] == c;
    assert s[i + k] == p[k];
  }

  /** ASCII case folding, the part of `toLowerCase` the model relies on. */
  function LowerChar(c: char): (r: char)
    ensures 'A' <= c <= 'Z' ==> 'a' <= r <= 'z'
    ensures !('A' <= c <= 'Z') ==> r == c
  {
    if 'A' <= c <= 'Z' then (c as int - 'A' as int + 'a' as int) as char else c
  }

  /** `s.toLowerCase()` on the ASCII letters. */
  function Lower(s: string): (r: string)
    ensures |r| == |s|
    ensures forall i :: 0 <= i < |s| ==> r[i] == LowerChar(s[i])
  {
    seq(|s|, i requires 0 <= i < |s| => LowerChar(s[i]))
  }

  lemma LowerIdempotent(s: string)
    ensures Lower(Lower(s)) == Lower(s)
  {
  }

  /**
   * The characters `String.prototype.trim` removes: the ECMAScript
   * WhiteSpace and LineTerminator code points.
   */
  predicate IsSpace(c: char) {
    || c == '\t' || c == '\n' || c == '\U{000B}' || c == '\U{000C}' || c == '\r'
    || c == ' ' || c == '\U{00A0}' || c == '\U{1680}'
    || ('\U{2000}' <= c <= '\U{200A}')
    || c == '\U{2028}' || c == '\U{2029}' || c == '\U{202F}' || c == '\U{205F}'
    || c == '\U{3000}' || c == '\U{FEFF}'
  }

  function TrimStart(s: string): (r: string)
    ensures |r| <= |s| && r == s[|s| - |r|..]
    ensures |r| > 0 ==> !IsSpace(r[0])
    ensures forall i :: 0 <= i < |s| - |r| ==> IsSpace(s[i])
  {
    if |s| > 0 && IsSpace(s[0]) then TrimStart(s[1..]) else s
  }

  function TrimEnd(s: string): (r: string)
    ensures |r| <= |s| && r == s[..|r|]
    ensures |r| > 0 ==> !IsSpace(r[|r| - 1])
    ensures forall i :: |r| <= i < |s| ==> IsSpace(s[i])
  {
    if |s| > 0 && IsSpace(s[|s| - 1]) then TrimEnd(s[..|s| - 1]) else s
  }

  /** `s.trim()` */
  function Trim(s: string): (r: string)
    ensures |r| > 0 ==> !IsSpace(r[0]) && !IsSpace(r[|r| - 1])
    ensures Contains(s, r)
  {
    var t := TrimStart(s);
    var r := TrimEnd(t);
    ContainsSuffix(s, |s| - |t|);
    ContainsPrefix(t, |r|);
    ContainsTransitive(s, t, r);
    r
  }

  /** A string with no white space at either end is its own trim. */
  lemma TrimTrimmed(s: string)
    requires |s| > 0 ==> !IsSpace(s[0]) && !IsSpace(s[|s| - 1])
    ensures Trim(s) == s
  {
  }

  /** Every character of `s` is white space. */
  predicate AllSpace(s: string) {
    forall i :: 0 <= i < |s| ==> IsSpace(s[i])
  }

  /** Leading white space in front of text that starts with a non-space character is what `trimStart` removes. */
  lemma TrimStartPadded(p: string, x: string)
    requires AllSpace(p)
    requires |x| > 0 ==> !IsSpace(x[0])
    ensures TrimStart(p + x) == x
  {
    var t := p + x;
    var r := TrimStart(t);
    forall i | 0 <= i < |p|
      ensures IsSpace(t[i])
    {
      assert t[i] == p[i];
    }
    assert |r| > 0 ==> t[|t| - |r|] == r[0];
    assert |x| > 0 ==> t[|p|] == x[0];
    assert |r| == |x|;
    assert r == t[|p|..] == x;
  }

  /** Trailing white space after text that ends in a non-space character is what `trimEnd` removes. */
  lemma TrimEndPadded(x: string, q: string)
    requires AllSpace(q)
    requires |x| > 0 ==> !IsSpace(x[|x| - 1])
    ensures TrimEnd(x + q) == x
  {
    var t := x + q;
    var r := TrimEnd(t);
    forall i | |x| <= i < |t|
      ensures IsSpace(t[i])
    {
      assert t[i] == q[i - |x|];
    }
    assert |r| > 0 ==> t[|r| - 1] == r[|r| - 1];
    assert |x| > 0 ==> t[|x| - 1] == x[|x| - 1];
    assert |r| == |x|;
    assert r == t[..|x|] == x;
  }

  /** `trim` removes exactly the white space padding around text without white space at its ends. */
  lemma TrimPadded(p: string, s: string, q: string)
    requires AllSpace(p) && AllSpace(q)
    requires |s| > 0 ==> !IsSpace(s[0]) && !IsSpace(s[|s| - 1])
    ensures Trim(p + s + q) == s
  {
    if |s| == 0 {
      assert p + s + q == (p + q) + "";
      TrimStartPadded(p + q, "");
    } else {
      assert p + s + q == p + (s + q);
      TrimStartPadded(p, s + q);
      TrimEndPadded(s, q);
    }
  }

  /** The first `n` characters of `s`, or all of them. */
  function Take(s: string, n: nat): (r: string)
    ensures |r| == if |s| <= n then |s| else n
    ensures r == s[..|r|]
  {
    if |s| <= n then s else s[..n]
  }

  /** UTF-16 code units of one character: two for a character above U+FFFF. */
  function Units(c: char): (n: nat)
    ensures 1 <= n <= 2
  {
    if c as int > 0xFFFF then 2 else 1
  }

  /** `s.length`: the number of UTF-16 code units. */
  function Utf16Length(s: string): (n: nat)
    ensures |s| <= n <= 2 * |s|
    decreases |s|
  {
    if |s| == 0 then 0 else Units(s[0]) + Utf16Length(s[1..])
  }

  /**
   * `s.substring(0, n)`, which counts UTF-16 code units: the longest prefix
   * of at most `n` code units. The whole string when it fits; otherwise the
   * next character would cross the limit.
   */
  function TakeUnits(s: string, n: nat): (r: string)
    ensures |r| <= |s| && r == s[..|r|]
    ensures Utf16Length(r) <= n
    ensures Utf16Length(s) <= n ==> r == s
    ensures |r| < |s| ==> n < Utf16Length(r) + Units(s[|r|])
    decreases |s|
  {
    if |s| == 0 || Units(s[0]) > n then ""
    else
      var rest := TakeUnits(s[1..], n - Units(s[0]));
      assert ([s[0]] + rest)[1..] == rest;
      [s[0]] + rest
  }

  /** Text whose characters all take `u` code units is `u` units per character long. */
  lemma {:induction false} Utf16LengthUniform(s: string, u: nat)
    requires forall i :: 0 <= i < |s| ==> Units(s[i]) == u
    ensures Utf16Length(s) == u * |s|
    decreases |s|
  {
    if |s| > 0 {
      Utf16LengthUniform(s[1..], u);
      assert u * |s| == u + u * (|s| - 1);
    }
  }

  /** On text without characters above U+FFFF, code units and characters agree. */
  lemma TakeUnitsBmp(s: string, n: nat)
    requires forall i :: 0 <= i < |s| ==> s[i] as int <= 0xFFFF
    ensures TakeUnits(s, n) == Take(s, n)
  {
    var r := TakeUnits(s, n);
    assert forall i :: 0 <= i < |r| ==> r[i] == s[i];
    Utf16LengthUniform(r, 1);
  }

  /** On text made only of characters above U+FFFF, `n` code units keep `n / 2` characters. */
  lemma TakeUnitsAstral(s: string, n: nat)
    requires forall i :: 0 <= i < |s| ==> s[i] as int > 0xFFFF
    ensures TakeUnits(s, n) == Take(s, n / 2)
  {
    var r := TakeUnits(s, n);
    assert forall i :: 0 <= i < |r| ==> r[i] == s[i];
    Utf16LengthUniform(r, 2);
  }

  /** `s.split(sep)[0]`: everything before the first `sep`. */
  function BeforeFirst(s: string, sep: char): (r: string)
    ensures sep !in r
    ensures |r| <= |s| && r == s[..|r|]
    ensures |r| < |s| ==> s[|r|] == sep
  {
    if |s| == 0 || s[0] == sep then "" else [s[0]] + BeforeFirst(s[1..], sep)
  }

  /** Splitting `a + sep + b` gives back `a` when `a` has no separator. */
  lemma {:induction false} BeforeFirstOfJoin(a: string, sep: char, b: string)
    requires sep !in a
    ensures BeforeFirst(a + [sep] + b, sep) == a
    decreases |a|
  {
    if |a| > 0 {
      assert (a + [sep] + b)[1..] == a[1..] + [sep] + b;
      BeforeFirstOfJoin(a[1..], sep, b);
    }
  }

  /** `parts.join(sep)` */
  function Join(parts: seq<string>, sep: string): string {
    if |parts| == 0 then ""
    else if |parts| == 1 then parts[0]
    else Join(parts[..|parts| - 1], sep) + sep + parts[|parts| - 1]
  }

  function DigitChar(d: nat): char
    requires d < 10
  {
    "0123456789"[d]
  }

  /** Decimal rendering of a natural number, as `String(n)` prints it. */
  function NatToString(n: nat): (r: string)
    ensures |r| > 0
    ensures forall i :: 0 <= i < |r| ==> '0' <= r[i] <= '9'
  {
    if n < 10 then [DigitChar(n)] else NatToString(n / 10) + [DigitChar(n % 10)]
  }

  /** Decimal rendering of an integer, as `String(n)` prints it. */
  function IntToString(n: int): (r: string)
    ensures |r| > 0
    ensures forall i :: 0 <= i < |r| ==> r[i] == '-' || '0' <= r[i] <= '9'
  {
    if n < 0 then "-" + NatToString(-n) else NatToString(n)
  }
}

=== FILE: task_manager.dfy ===
/**
 * `BatchTaskManager` (routes/ai.js) as seen from the routes: one task record
 * at a time, `start` refusing while a run is in progress, `stop` marking the
 * run stopped, `getStatus` reporting the record with its last 200 errors, and
 * the `.catch` handler closing a run whose loop threw.
 *
 * Each `start` begins a new run; `generation` numbers them, and a running
 * loop knows the generation it was started for. The loop's own writes are
 * modelled in BatchLoop on the record it owns; `Deliver` puts the record back
 * into the manager only while the run is still the current one. The code as
 * written writes through `this.task` instead, which after `stop()` and a new
 * `start()` is the new run's record: `DeliverAsWritten` models that, and
 * `StaleWriteCorruptsNewRun` exhibits the result.
 */
module TaskManager {
  import opened Wrappers
  import opened Arith
  import opened Strings
  import opened FieldFilter
  import opened TaskState
  import BatchLoop
  import Retry

  /** The manager: the current record (`null` before the first run), the abort flag, the run number. */
  datatype Manager = Manager(task: Option<Task>, aborted: Option<bool>, generation: nat)

  /** A freshly constructed manager. */
  const Idle := Manager(None, None, 0)

  /** `isRunning()` */
  predicate IsRunning(m: Manager) {
    m.task.Some? && m.task.value.running
  }

  /** Message `start` throws while a run is in progress ("a task is already running"). */
  const BusyMessage := "已有任务在运行中"

  /** The `types` argument: an array, or a single type that `start` wraps. */
  datatype TypesArg = Many(list: seq<string>) | One(single: string)

  /** `Array.isArray(types) ? types : [types]` */
  function TypesList(a: TypesArg): (r: seq<string>)
    ensures a.One? ==> |r| == 1 && r[0] == a.single
    ensures a.Many? ==> r == a.list
  {
    match a
    case Many(list) => list
    case One(single) => [single]
  }

  /** What `start` leaves behind: the manager and either `{ total }` or the thrown message. */
  datatype Started = Started(manager: Manager, result: Result<nat, string>)

  /**
   * `start(config, cards, types, strategy)` for `total` cards at time `now`:
   * refused, with the manager untouched, while a run is in progress; otherwise
   * a fresh controller and a fresh record for a new run, answering the count.
   */
  function Start(m: Manager, total: nat, types: TypesArg, strategy: Strategy, now: int): (s: Started)
    ensures IsRunning(m) ==> s == Started(m, Failure(BusyMessage))
    ensures !IsRunning(m) ==> && s.result == Success(total)
                              && s.manager.task == Some(NewTask(TypesList(types), strategy, total, now))
                              && s.manager.aborted == Some(false)
                              && s.manager.generation == m.generation + 1
  {
    if IsRunning(m) then Started(m, Failure(BusyMessage))
    else
      Started(Manager(Some(NewTask(TypesList(types), strategy, total, now)), Some(false), m.generation + 1),
              Success(total))
  }

  /**
   * `stop()`: abort the controller if there is one, mark the record stopped,
   * and answer `{ stopped: true }` in every case.
   */
  function Stop(m: Manager): (r: Manager)
    ensures r.generation == m.generation
    ensures r.aborted == (if m.aborted.Some? then Some(true) else None)
    ensures r.task.Some? <==> m.task.Some?
    ensures m.task.Some? ==> r.task == Some(StopTask(m.task.value))
    ensures !IsRunning(r)
  {
    Manager(if m.task.Some? then Some(StopTask(m.task.value)) else None,
            if m.aborted.Some? then Some(true) else None,
            m.generation)
  }

  /** Stopping twice is stopping once. */
  lemma StopIdempotent(m: Manager)
    ensures Stop(Stop(m)) == Stop(m)
  {
  }

  /** After `stop()` a new run can always be started. */
  lemma StartAfterStop(m: Manager, total: nat, types: TypesArg, strategy: Strategy, now: int)
    ensures Start(Stop(m), total, types, strategy, now).result == Success(total)
  {
  }

  /** How many errors `getStatus` reports at most. */
  const StatusErrorLimit: nat := 200

  /** `xs.slice(-n)` for n > 0 (`slice(-0)` would be the whole array): the last n elements, or all of them. */
  function Last<T>(xs: seq<T>, n: nat): (r: seq<T>)
    requires n > 0
    ensures |r| == Min(n, |xs|)
    ensures r == xs[|xs| - |r|..]
  {
    if |xs| <= n then xs else xs[|xs| - n..]
  }

  /** What `getStatus` answers. */
  datatype Status =
    | NoRun
    | Snapshot(running: bool, types: seq<string>, current: nat, total: nat, successCount: nat,
               failCount: nat, currentCard: string, startTime: int, concurrency: int,
               isRateLimited: bool, errors: seq<ErrorEntry>)

  /**
   * `getStatus()`: `{ running: false }` before the first run; otherwise the
   * record's fields with only its newest 200 errors.
   */
  function GetStatus(m: Manager): (s: Status)
    ensures m.task.None? <==> s == NoRun
    ensures s.Snapshot? ==> var t := m.task.value;
      && s.running == t.running && s.types == t.types && s.current == t.current && s.total == t.total
      && s.successCount == t.successCount && s.failCount == t.failCount
      && s.currentCard == t.currentCard && s.startTime == t.startTime
      && s.concurrency == t.concurrency && s.isRateLimited == t.isRateLimited
      && |s.errors| == Min(StatusErrorLimit, |t.errors|)
      && s.errors == t.errors[|t.errors| - |s.errors|..]
  {
    match m.task
    case None => NoRun
    case Some(t) =>
      Snapshot(t.running, t.types, t.current, t.total, t.successCount, t.failCount, t.currentCard,
               t.startTime, t.concurrency, t.isRateLimited, Last(t.errors, StatusErrorLimit))
  }

  /** A run with at most 200 errors shows all of them; a longer list shows exactly the newest 200. */
  lemma StatusErrorsWindow(m: Manager)
    requires m.task.Some?
    ensures var errs := m.task.value.errors;
      && (|errs| <= StatusErrorLimit ==> GetStatus(m).errors == errs)
      && (|errs| > StatusErrorLimit ==> GetStatus(m).errors == errs[|errs| - StatusErrorLimit..])
  {
  }

  /** A started run reports itself running, at card 0 of `total`, with no errors. */
  lemma StatusAfterStart(m: Manager, total: nat, types: TypesArg, strategy: Strategy, now: int)
    requires !IsRunning(m)
    ensures var s := GetStatus(Start(m, total, types, strategy, now).manager);
      && s.Snapshot? && s.running && s.current == 0 && s.total == total
      && s.successCount == 0 && s.failCount == 0 && s.errors == []
      && s.concurrency == InitialConcurrency && s.types == TypesList(types)
  {
  }

  /** Title of the synthetic entry the `.catch` handler pushes ("system"). */
  const SystemTitle := "系统"
  /** Message when the thrown error has none ("task aborted abnormally"). */
  const AbortedAbnormally := "任务异常中断"

  /**
   * The `.catch` on `runTask`: if there is a record, the run ends and a
   * synthetic entry with card id 0 records `err.message || '任务异常中断'`.
   */
  function Crash(m: Manager, message: Option<string>): (r: Manager)
    ensures m.task.None? ==> r == m
    ensures m.task.Some? ==> var t := m.task.value;
      && r.task.Some? && !r.task.value.running
      && r.task.value.errors == t.errors + [ErrorEntry(0, SystemTitle, OrElse(message, AbortedAbnormally))]
      && r.task.value.(running := t.running, errors := t.errors) == t
    ensures r.aborted == m.aborted && r.generation == m.generation
  {
    match m.task
    case None => m
    case Some(t) =>
      m.(task := Some(t.(running := false, errors := t.errors + [ErrorEntry(0, SystemTitle, OrElse(message, AbortedAbnormally))])))
  }

  /** A crash always leaves the manager ready for a new run, with the entry last in the list. */
  lemma CrashAllowsRestart(m: Manager, message: Option<string>)
    requires m.task.Some?
    ensures !IsRunning(Crash(m, message))
    ensures var es := Crash(m, message).task.value.errors;
      |es| == |m.task.value.errors| + 1 && es[|es| - 1].cardId == 0 && es[|es| - 1].cardTitle == SystemTitle
  {
  }

  /**
   * The loop of run `gen` hands back its record: it lands only while `gen` is
   * still the current run, so a loop that outlives its run touches nothing.
   */
  function Deliver(m: Manager, gen: nat, t: Task): (r: Manager)
    ensures gen != m.generation ==> r == m
    ensures gen == m.generation ==> r == m.(task := Some(t))
  {
    if gen == m.generation then m.(task := Some(t)) else m
  }

  /**
   * The corrected manager keeps a stopped run's late results out of the run
   * started after it: whatever the old loop folds in, the new run's record
   * is unchanged.
   */
  lemma StaleDeliveryIgnored(m: Manager, oldTotal: nat, newTotal: nat, types: TypesArg, strategy: Strategy,
                             now: int, later: int, late: Task)
    requires !IsRunning(m)
    ensures var m1 := Start(m, oldTotal, types, strategy, now).manager;
      var m2 := Start(Stop(m1), newTotal, types, strategy, later).manager;
      Deliver(m2, m1.generation, late) == m2
  {
  }

  /** The run in progress does land its record. */
  lemma CurrentDeliveryLands(m: Manager, total: nat, types: TypesArg, strategy: Strategy, now: int, t: Task)
    requires !IsRunning(m)
    ensures var m1 := Start(m, total, types, strategy, now).manager;
      Deliver(m1, m1.generation, t).task == Some(t)
  {
  }

  /**
   * As written, the inner `for` of a batch folds its results into whatever
   * `this.task` is when they arrive, whichever run it belongs to.
   */
  function DeliverAsWritten(m: Manager, cards: seq<BatchLoop.Card>, settled: seq<BatchLoop.Settled>,
                            lo: nat, hi: nat): (r: Manager)
    requires |cards| == |settled| && lo <= hi <= |settled|
    ensures m.task.None? ==> r == m
    ensures m.task.Some? ==> r.task.Some? && r.task.value.current == m.task.value.current + (hi - lo)
  {
    match m.task
    case None => m
    case Some(t) => m.(task := Some(BatchLoop.ProcessBatch(t, cards, settled, lo, hi).task))
  }

  /**
   * Two cards are in flight when `stop()` runs and a one-card run is started
   * at once; when the old batch's results arrive the new run shows two cards
   * done out of one and two successes it never produced.
   */
  lemma StaleWriteCorruptsNewRun(types: TypesArg, strategy: Strategy, now: int, later: int)
    ensures var m1 := Start(Idle, 2, types, strategy, now).manager;
      var m2 := Start(Stop(m1), 1, types, strategy, later).manager;
      var cards := [BatchLoop.Card(1, None, "a.example"), BatchLoop.Card(2, None, "b.example")];
      var settled := [BatchLoop.Fulfilled(Retry.Succeeded), BatchLoop.Fulfilled(Retry.Succeeded)];
      var m3 := DeliverAsWritten(m2, cards, settled, 0, 2);
      && m3.task.value.total == 1
      && m3.task.value.current == 2 > m3.task.value.total
      && m3.task.value.successCount == 2
      && Deliver(m2, m1.generation, BatchLoop.ProcessBatch(m1.task.value, cards, settled, 0, 2).task) == m2
  {
    var m1 := Start(Idle, 2, types, strategy, now).manager;
    var m2 := Start(Stop(m1), 1, types, strategy, later).manager;
    var cards := [BatchLoop.Card(1, None, "a.example"), BatchLoop.Card(2, None, "b.example")];
    var settled := [BatchLoop.Fulfilled(Retry.Succeeded), BatchLoop.Fulfilled(Retry.Succeeded)];
    assert BatchLoop.CountSuccesses(settled, 0, 2) == 2 by {
      assert BatchLoop.IsSuccess(settled[0]) && BatchLoop.IsSuccess(settled[1]);
    }
  }

  /**
   * A whole run under the corrected manager: `start`, then the loop over
   * `cards` on the record it created, delivered back when it ends.
   */
  function StartAndRun(m: Manager, cards: seq<BatchLoop.Card>, settled: seq<BatchLoop.Settled>,
                       types: TypesArg, strategy: Strategy, now: int, setup: BatchLoop.Setup): (r: Manager)
    requires |settled| == |cards|
    requires !IsRunning(m)
    ensures r.generation == m.generation + 1
    ensures r.task.Some? && !r.task.value.running && r.task.value.current == |cards|
  {
    var s := Start(m, |cards|, types, strategy, now).manager;
    var run := BatchLoop.RunTask(s.task.value, cards, settled, setup, None);
    Deliver(s, s.generation, run.task)
  }

  /**
   * Without `stop()`, a run with a working set-up reports every card: the
   * successes among the results and the rest as failures, whose error
   * entries, in card order, are listed up to the newest 200.
   */
  lemma StartAndRunReportsEveryCard(m: Manager, cards: seq<BatchLoop.Card>, settled: seq<BatchLoop.Settled>,
                                    types: TypesArg, strategy: Strategy, now: int, delay: Option<int>)
    requires |settled| == |cards|
    requires !IsRunning(m)
    ensures var s := GetStatus(StartAndRun(m, cards, settled, types, strategy, now, BatchLoop.SetupOk(delay)));
      var ok := BatchLoop.CountSuccesses(settled, 0, |cards|);
      && s.Snapshot? && !s.running && s.current == |cards| == s.total
      && s.successCount == ok && s.failCount == |cards| - ok
      && s.errors == Last(BatchLoop.ErrorsFor(cards, settled, 0, |cards|), StatusErrorLimit)
  {
    var st := Start(m, |cards|, types, strategy, now).manager;
    BatchLoop.RunTaskCountsEveryCard(st.task.value, cards, settled, BatchLoop.SetupOk(delay), None);
    assert st.task.value.errors == [];
    assert [] + BatchLoop.ErrorsFor(cards, settled, 0, |cards|) == BatchLoop.ErrorsFor(cards, settled, 0, |cards|);
  }
}

=== FILE: task_state.dfy ===
/**
 * The task record of `BatchTaskManager` (routes/ai.js): one batch run's
 * progress counters, error list, and the adaptive-concurrency state.
 */
module TaskState {
  import opened Wrappers
  import opened FieldFilter

  const MinConcurrency: int := 1
  const MaxConcurrency: int := 5
  const InitialConcurrency: int := 3

  /** Label shown while the run is starting ("starting..."). */
  const StartingLabel := "启动中..."
  /** Label set by `stop()` ("stopped"). */
  const StoppedLabel := "已停止"

  /** One entry of `task.errors`; the `time` stamp is left out. */
  datatype ErrorEntry = ErrorEntry(cardId: int, cardTitle: string, error: string)

  datatype Task = Task(
    running: bool,
    types: seq<string>,
    strategy: Strategy,
    current: nat,
    total: nat,
    successCount: nat,
    failCount: nat,
    currentCard: string,
    startTime: int,
    errors: seq<ErrorEntry>,
    concurrency: int,
    isRateLimited: bool,
    consecutiveSuccesses: nat,
    rateLimitCount: nat)

  predicate ConcurrencyInBounds(t: Task) {
    MinConcurrency <= t.concurrency <= MaxConcurrency
  }

  /** The record `start` creates for a run over `total` cards. */
  function NewTask(types: seq<string>, strategy: Strategy, total: nat, now: int): (t: Task)
    ensures t.running && t.current == 0 && t.total == total
    ensures t.successCount == 0 && t.failCount == 0 && t.errors == []
    ensures t.concurrency == InitialConcurrency && ConcurrencyInBounds(t)
    ensures !t.isRateLimited && t.consecutiveSuccesses == 0 && t.rateLimitCount == 0
    ensures t.types == types && t.strategy == strategy
    ensures t.startTime == now && t.currentCard == StartingLabel
  {
    Task(true, types, strategy, 0, total, 0, 0, StartingLabel, now, [], InitialConcurrency, false, 0, 0)
  }

  /** The part of `stop()` that touches the record. */
  function StopTask(t: Task): (r: Task)
    ensures !r.running && r.currentCard == StoppedLabel
    ensures r.(running := t.running, currentCard := t.currentCard) == t
  {
    t.(running := false, currentCard := StoppedLabel)
  }
}

=== FILE: wallpaper.dfy ===
/**
 * The `/random` wallpaper pick (routes/wallpaper.js): a fixed list of picsum
 * photo ids, a window of the most recently served ids, and a uniform pick
 * among the ids outside the window. The window is a bounded first-in,
 * first-out queue of at most 20 ids; the pick falls back to the whole list
 * (and clears the window) when fewer than 10 ids are left outside it.
 * `Math.random()` is the parameter `u`, a real in [0, 1).
 */
module Wallpaper {
  import opened Arith

  // `NATURE_PHOTO_IDS`, one constant per line of the literal.
  const Line8: seq<int> := [10, 11, 15, 16, 17, 18, 19, 20, 22, 24, 27, 28, 29, 37, 39, 40, 41, 42, 47, 48]
  const Line9: seq<int> := [49, 50, 53, 54, 55, 56, 57, 58, 59, 60, 62, 63, 64, 66, 67, 68, 69, 71, 73, 74]
  const Line10: seq<int> := [76, 77, 78, 79, 82, 83, 84, 85, 87, 88, 89, 90, 91, 92, 93, 94, 95, 96, 97, 98]
  const Line11: seq<int> := [100, 101, 102, 103, 104, 106, 107, 108, 109, 110, 111, 112, 114, 115, 116, 117]
  const Line12: seq<int> := [118, 119, 120, 122, 123, 124, 125, 126, 127, 128, 129, 131, 132, 133, 134, 135]
  const Line13: seq<int> := [136, 137, 139, 140, 141, 142, 143, 144, 145, 146, 147, 149, 150, 151, 152, 153]
  const Line14: seq<int> := [155, 156, 158, 159, 160, 161, 162, 163, 164, 165, 166, 167, 168, 169, 170, 171]
  const Line15: seq<int> := [172, 173, 174, 175, 176, 177, 178, 179, 180, 181, 182, 183, 184, 185, 186, 187]
  const Line16: seq<int> := [188, 189, 190, 191, 192, 193, 194, 195, 196, 197, 198, 199, 200, 201, 202, 203]
  const Line17: seq<int> := [204, 206, 208, 209, 210, 211, 212, 213, 214, 215, 216, 217, 218, 219, 220, 221]
  const Line18: seq<int> := [222, 223, 224, 225, 227, 228, 229, 230, 231, 232, 233, 234, 235, 236, 237, 238]
  const Line19: seq<int> := [239, 240, 241, 242, 243, 244, 247, 248, 249, 250, 251, 252, 253, 254, 255, 256]
  const Line20: seq<int> := [257, 258, 259, 260, 261, 263, 264, 265, 266, 267, 268, 269, 270, 271, 272, 273]

  const NaturePhotoIds: seq<int> :=
    Line8 + Line9 + Line10 + Line11 + Line12 + Line13 + Line14 + Line15 + Line16 + Line17 + Line18 + Line19 + Line20

  /** `MAX_RECENT`: the window keeps at most this many ids. */
  const MaxRecent: nat := 20

  /** Below this many ids outside the window, the window is cleared. */
  const MinAvailable: nat := 10

  predicate Increasing(s: seq<int>) {
    forall i, j :: 0 <= i < j < |s| ==> s[i] < s[j]
  }

  predicate StepsUp(s: seq<int>) {
    forall i :: 0 < i < |s| ==> s[i - 1] < s[i]
  }

  predicate Distinct(s: seq<int>) {
    forall i, j :: 0 <= i < j < |s| ==> s[i] != s[j]
  }

  lemma {:induction false} StepsUpIncreasing(s: seq<int>)
    requires StepsUp(s)
    ensures Increasing(s)
    decreases |s|
  {
    if |s| > 1 {
      var n := |s| - 1;
      StepsUpIncreasing(s[..n]);
      assert forall i :: 0 <= i < n ==> s[i] < s[n] by {
        forall i | 0 <= i < n ensures s[i] < s[n] {
          if i < n - 1 {
            assert s[..n][i] < s[..n][n - 1];
          }
        }
      }
    }
  }

  lemma IncreasingJoin(a: seq<int>, b: seq<int>)
    requires Increasing(a) && Increasing(b)
    requires |a| > 0 && |b| > 0 && a[|a| - 1] < b[0]
    ensures Increasing(a + b)
  {
    forall i, j | 0 <= i < j < |a + b| ensures (a + b)[i] < (a + b)[j] {
      if i < |a| && |a| <= j {
        assert a[i] <= a[|a| - 1];
        assert b[0] <= b[j - |a|];
      }
    }
  }

  lemma Line8Increasing()
    ensures Increasing(Line8) && |Line8| == 20 && Line8[0] == 10 && Line8[19] == 48
  {
    StepsUpIncreasing(Line8);
  }

  lemma Line9Increasing()
    ensures Increasing(Line9) && |Line9| == 20 && Line9[0] == 49 && Line9[19] == 74
  {
    StepsUpIncreasing(Line9);
  }

  lemma Line10Increasing()
    ensures Increasing(Line10) && |Line10| == 20 && Line10[0] == 76 && Line10[19] == 98
  {
    StepsUpIncreasing(Line10);
  }

  lemma Line11Increasing()
    ensures Increasing(Line11) && |Line11| == 16 && Line11[0] == 100 && Line11[15] == 117
  {
    StepsUpIncreasing(Line11);
  }

  lemma Line12Increasing()
    ensures Increasing(Line12) && |Line12| == 16 && Line12[0] == 118 && Line12[15] == 135
  {
    StepsUpIncreasing(Line12);
  }

  lemma Line13Increasing()
    ensures Increasing(Line13) && |Line13| == 16 && Line13[0] == 136 && Line13[15] == 153
  {
    StepsUpIncreasing(Line13);
  }

  lemma Line14Increasing()
    ensures Increasing(Line14) && |Line14| == 16 && Line14[0] == 155 && Line14[15] == 171
  {
    StepsUpIncreasing(Line14);
  }

  lemma Line15Increasing()
    ensures Increasing(Line15) && |Line15| == 16 && Line15[0] == 172 && Line15[15] == 187
  {
    StepsUpIncreasing(Line15);
  }

  lemma Line16Increasing()
    ensures Increasing(Line16) && |Line16| == 16 && Line16[0] == 188 && Line16[15] == 203
  {
    StepsUpIncreasing(Line16);
  }

  lemma Line17Increasing()
    ensures Increasing(Line17) && |Line17| == 16 && Line17[0] == 204 && Line17[15] == 221
  {
    StepsUpIncreasing(Line17);
  }

  lemma Line18Increasing()
    ensures Increasing(Line18) && |Line18| == 16 && Line18[0] == 222 && Line18[15] == 238
  {
    StepsUpIncreasing(Line18);
  }

  lemma Line19Increasing()
    ensures Increasing(Line19) && |Line19| == 16 && Line19[0] == 239 && Line19[15] == 256
  {
    StepsUpIncreasing(Line19);
  }

  lemma Line20Increasing()
    ensures Increasing(Line20) && |Line20| == 16 && Line20[0] == 257 && Line20[15] == 273
  {
    StepsUpIncreasing(Line20);
  }

  /** The list is strictly increasing, so no id occurs twice, and it has 220 entries. */
  lemma PhotoIdsIncreasing()
    ensures Increasing(NaturePhotoIds) && Distinct(NaturePhotoIds)
    ensures |NaturePhotoIds| == 220
  {
    Line8Increasing();
    Line9Increasing();
    Line10Increasing();
    Line11Increasing();
    Line12Increasing();
    Line13Increasing();
    Line14Increasing();
    Line15Increasing();
    Line16Increasing();
    Line17Increasing();
    Line18Increasing();
    Line19Increasing();
    Line20Increasing();
    var s := Line8;
    IncreasingJoin(s, Line9);
    s := s + Line9;
    IncreasingJoin(s, Line10);
    s := s + Line10;
    IncreasingJoin(s, Line11);
    s := s + Line11;
    IncreasingJoin(s, Line12);
    s := s + Line12;
    IncreasingJoin(s, Line13);
    s := s + Line13;
    IncreasingJoin(s, Line14);
    s := s + Line14;
    IncreasingJoin(s, Line15);
    s := s + Line15;
    IncreasingJoin(s, Line16);
    s := s + Line16;
    IncreasingJoin(s, Line17);
    s := s + Line17;
    IncreasingJoin(s, Line18);
    s := s + Line18;
    IncreasingJoin(s, Line19);
    s := s + Line19;
    IncreasingJoin(s, Line20);
    s := s + Line20;
    assert s == NaturePhotoIds;
  }

  /** `NATURE_PHOTO_IDS.filter(id => !recentPhotoIds.includes(id))`, in list order. */
  function Without(xs: seq<int>, recent: seq<int>): (r: seq<int>)
    ensures |r| <= |xs|
    decreases |xs|
  {
    if |xs| == 0 then []
    else Without(xs[..|xs| - 1], recent) + (if xs[|xs| - 1] in recent then [] else [xs[|xs| - 1]])
  }

  /** The ids left are exactly the listed ids that are not in the window. */
  lemma {:induction false} WithoutMembers(xs: seq<int>, recent: seq<int>, x: int)
    ensures x in Without(xs, recent) <==> x in xs && x !in recent
    decreases |xs|
  {
    if |xs| > 0 {
      var n := |xs| - 1;
      WithoutMembers(xs[..n], recent, x);
      assert xs == xs[..n] + [xs[n]];
    }
  }

  lemma {:induction false} WithoutNothing(xs: seq<int>)
    ensures Without(xs, []) == xs
    decreases |xs|
  {
    if |xs| > 0 {
      WithoutNothing(xs[..|xs| - 1]);
      assert xs == xs[..|xs| - 1] + [xs[|xs| - 1]];
    }
  }

  /** Excluding one more id removes at most one entry of a list without repeats. */
  lemma {:induction false} WithoutOneMore(xs: seq<int>, recent: seq<int>, v: int)
    requires Distinct(xs)
    ensures |Without(xs, recent + [v])| + (if v in xs && v !in recent then 1 else 0) == |Without(xs, recent)|
    decreases |xs|
  {
    if |xs| > 0 {
      var n := |xs| - 1;
      var init := xs[..n];
      assert Distinct(init);
      WithoutOneMore(init, recent, v);
      assert xs == init + [xs[n]];
      assert v in xs <==> v in init || v == xs[n];
      assert xs[n] in recent + [v] <==> xs[n] in recent || xs[n] == v;
      if xs[n] == v {
        assert v !in init;
      }
    }
  }

  /** Ids outside a window of `k` entries: at least all but `k` of a list without repeats. */
  lemma {:induction false} WithoutCount(xs: seq<int>, recent: seq<int>)
    requires Distinct(xs)
    ensures |Without(xs, recent)| >= |xs| - |recent|
    decreases |recent|
  {
    if |recent| == 0 {
      WithoutNothing(xs);
    } else {
      var n := |recent| - 1;
      WithoutCount(xs, recent[..n]);
      WithoutOneMore(xs, recent[..n], recent[n]);
      assert recent == recent[..n] + [recent[n]];
    }
  }

  /**
   * `recentPhotoIds.push(id)` followed by one `shift()` when the window has
   * grown past `MAX_RECENT`: the new id is the newest entry, the window is a
   * suffix of the old one plus the new id (the oldest entries go first), and
   * a window of at most 20 stays at most 20.
   */
  function Remember(recent: seq<int>, id: int): (w: seq<int>)
    ensures |w| > 0 && w[|w| - 1] == id
    ensures |w| <= |recent| + 1 && w == (recent + [id])[|recent| + 1 - |w|..]
    ensures |recent| <= MaxRecent ==> |w| == Min(|recent| + 1, MaxRecent)
  {
    var w := recent + [id];
    if |w| > MaxRecent then w[1..] else w
  }

  /** `Math.floor(Math.random() * n)` with the draw `u` in [0, 1): an index of a list of length `n > 0`. */
  function RandomIndex(u: real, n: nat): (i: nat)
    requires 0.0 <= u < 1.0 && n > 0
    ensures i < n
  {
    assert 0.0 <= u * n as real < n as real;
    (u * n as real).Floor
  }

  /** One request: the id served, the window afterwards, and whether the window was cleared first. */
  datatype Pick = Pick(id: int, recent: seq<int>, reset: bool)

  /**
   * The `/random` handler over the id list `ids`: pick uniformly among the
   * ids outside the window, or among all ids after clearing the window when
   * fewer than 10 are outside it; then remember the pick.
   */
  function PickFrom(ids: seq<int>, recent: seq<int>, u: real): (p: Pick)
    requires |ids| > 0 && 0.0 <= u < 1.0
    ensures p.id in ids
    ensures p.reset <==> |Without(ids, recent)| < MinAvailable
    ensures !p.reset ==> p.id !in recent
    ensures p.recent == Remember(if p.reset then [] else recent, p.id)
  {
    var outside := Without(ids, recent);
    var reset := |outside| < MinAvailable;
    var available := if reset then ids else outside;
    var id := available[RandomIndex(u, |available|)];
    WithoutMembers(ids, recent, id);
    Pick(id, Remember(if reset then [] else recent, id), reset)
  }

  /** The handler as deployed, over `NATURE_PHOTO_IDS`. */
  function PickWallpaper(recent: seq<int>, u: real): (p: Pick)
    requires 0.0 <= u < 1.0
    ensures p.id in NaturePhotoIds
  {
    PhotoIdsIncreasing();
    PickFrom(NaturePhotoIds, recent, u)
  }

  /**
   * A list without repeats and with at least 30 ids leaves at least 10
   * outside a window of at most 20, so the window is never cleared and stays
   * within 20.
   */
  lemma NeverResetsFrom(ids: seq<int>, recent: seq<int>, u: real)
    requires Distinct(ids) && |ids| >= MaxRecent + MinAvailable
    requires 0.0 <= u < 1.0 && |recent| <= MaxRecent
    ensures !PickFrom(ids, recent, u).reset
    ensures |PickFrom(ids, recent, u).recent| <= MaxRecent
  {
    WithoutCount(ids, recent);
  }

  /** With the 220 ids of `NATURE_PHOTO_IDS` the reset branch is dead: the served id is never in the window. */
  lemma NeverResets(recent: seq<int>, u: real)
    requires 0.0 <= u < 1.0 && |recent| <= MaxRecent
    ensures !PickWallpaper(recent, u).reset
    ensures PickWallpaper(recent, u).id !in recent
    ensures |PickWallpaper(recent, u).recent| <= MaxRecent
  {
    PhotoIdsIncreasing();
    NeverResetsFrom(NaturePhotoIds, recent, u);
  }

  predicate InUnit(us: seq<real>) {
    forall i :: 0 <= i < |us| ==> 0.0 <= us[i] < 1.0
  }

  /** The ids served so far, and the window the process holds. */
  datatype Served = Served(ids: seq<int>, recent: seq<int>)

  /** The requests with random draws `us`, in order, from process start (`recentPhotoIds = []`). */
  function Serve(ids: seq<int>, us: seq<real>): (s: Served)
    requires |ids| > 0 && InUnit(us)
    ensures |s.ids| == |us|
    ensures forall i :: 0 <= i < |s.ids| ==> s.ids[i] in ids
    decreases |us|
  {
    if |us| == 0 then Served([], [])
    else
      var s := Serve(ids, us[..|us| - 1]);
      var p := PickFrom(ids, s.recent, us[|us| - 1]);
      Served(s.ids + [p.id], p.recent)
  }

  /** The last `k` entries of `xs` (all of them when there are fewer). */
  function Latest(xs: seq<int>, k: nat): (r: seq<int>)
    ensures |r| <= k
  {
    if |xs| <= k then xs else xs[|xs| - k..]
  }

  /** No id is served twice within any 21 consecutive requests. */
  predicate NoRepeatWithin(served: seq<int>) {
    forall i, j :: 0 <= i < j < |served| && j - i <= MaxRecent ==> served[i] != served[j]
  }

  /**
   * Remembering an id that is not in a window of the latest ids gives the
   * window of the latest ids after it, and serving that id keeps the last
   * 21 requests free of repeats.
   */
  lemma WindowStep(served: seq<int>, recent: seq<int>, id: int)
    requires recent == Latest(served, MaxRecent) && id !in recent
    requires NoRepeatWithin(served)
    ensures Remember(recent, id) == Latest(served + [id], MaxRecent)
    ensures NoRepeatWithin(served + [id])
  {
    var n := |served|;
    var lo := if n <= MaxRecent then 0 else n - MaxRecent;
    var t := served + [id];
    forall i, j | 0 <= i < j < |t| && j - i <= MaxRecent ensures t[i] != t[j] {
      assert t[i] == served[i];
      if j < n {
        assert t[j] == served[j];
      } else {
        assert served[i] == recent[i - lo];
      }
    }
    assert recent + [id] == t[lo..];
  }

  /** The latest 20 ids of a run without repeats within 21 requests are all different. */
  lemma LatestDistinct(served: seq<int>)
    requires NoRepeatWithin(served)
    ensures Distinct(Latest(served, MaxRecent))
  {
    var w := Latest(served, MaxRecent);
    var lo := |served| - |w|;
    forall i, j | 0 <= i < j < |w| ensures w[i] != w[j] {
      assert w[i] == served[lo + i] && w[j] == served[lo + j];
    }
  }

  /**
   * Over a list without repeats of at least 30 ids, after any run of
   * requests the window holds exactly the last 20 ids served (all of them
   * before the 21st request), and any 21 consecutive requests serve 21
   * different ids.
   */
  lemma {:induction false} ServeWindow(ids: seq<int>, us: seq<real>)
    requires Distinct(ids) && |ids| >= MaxRecent + MinAvailable && InUnit(us)
    ensures Serve(ids, us).recent == Latest(Serve(ids, us).ids, MaxRecent)
    ensures NoRepeatWithin(Serve(ids, us).ids)
    decreases |us|
  {
    if |us| > 0 {
      var n := |us| - 1;
      assert InUnit(us[..n]);
      ServeWindow(ids, us[..n]);
      var s := Serve(ids, us[..n]);
      NeverResetsFrom(ids, s.recent, us[n]);
      var p := PickFrom(ids, s.recent, us[n]);
      WindowStep(s.ids, s.recent, p.id);
      assert Serve(ids, us) == Served(s.ids + [p.id], p.recent);
    }
  }

  /**
   * The deployed handler never serves an id twice within 21 consecutive
   * requests, and its window never holds a repeat.
   */
  lemma NoRepeatWithinWindow(us: seq<real>)
    requires InUnit(us)
    ensures var s := Serve(NaturePhotoIds, us);
      && NoRepeatWithin(s.ids)
      && s.recent == Latest(s.ids, MaxRecent) && Distinct(s.recent)
  {
    PhotoIdsIncreasing();
    ServeWindow(NaturePhotoIds, us);
    LatestDistinct(Serve(NaturePhotoIds, us).ids);
  }
}

=== FILE: wrappers.dfy ===
/** Absent values and results shared by every module of the model. */
module Wrappers {

  /** A JavaScript value that may be absent (`null` / `undefined`). */
  datatype Option<+T> = None | Some(value: T)

  /** An operation that either answers with a value or rejects with an error. */
  datatype Result<+R, +E> = Success(value: R) | Failure(error: E)
}
